=== FILE: README.md ===
# A Dafny model of the Rockchip Media Process Platform core

This project models the parts of the Rockchip Media Process Platform (MPP) that turn codec parameters into bitstream syntax and hardware register values:

- **The RKV H.264 encoder hardware layer.** This covers the bit writer with its Exp-Golomb codes (section 9.1 of ITU-T H.264). It covers RBSP trailing bits and NAL emulation prevention (section 7.4.1 and Annex B). It covers SEI payload headers (section 7.3.2.3.1), the encoder's frame lists and decoded-picture buffer, and the sequence parameter set with its VUI (Annex E).
- **The VPU H.264 encoder API.** This is its state machine INIT → START_STREAM → START_FRAME, with ERROR reached from a failed start or a failed hardware wait; only a successful post-encode step leads out of ERROR, because that step checks no status. It also covers coding and rate-control parameter checks, the HRD bit-rate and CPB-size rounding (section E.2.2), level checks against Table A-1, aspect-ratio signalling (Table E-1), and the register hand-over in the ASIC controller.
- **The VDPU H.264 decoder register packer.** This covers reference-valid and long-term masks, reference index tables, picture order counts and the field/frame reference attributes.
- **The VP8/VP7 decoder register generator.** This covers macroblock dimensions, segment-based filter levels and quantisers, the six-tap sub-pixel filters (section 18 of RFC 6386), and the DCT partition bases and start bits (section 9.5 of RFC 6386).
- **The RealVideo (RV8/RV9) parser and hardware layer.** This covers picture-size codes, the frame split, reference rotation, temporal distances with 13-bit wrap, B-picture scales and reference addresses.
- **The legacy VPU adapter.** This covers format remapping, alignment and stride derivation, frame conversion, the end-of-stream latch, start-code stripping and control command mapping.
- **The MPP facade.** This covers bounded packet input with back-pressure, frame output in FIFO order, reset and control.

Everything is modelled as pure functions on immutable values. Register writes, bit-stream writes and queue operations are state-in, state-out functions. Results the source obtains from hardware, from threads or from code outside the modelled files are passed in as parameters. Examples are the hardware wait status, the stream-writer overflow flag, rate-control decisions, the port return value and the copy result of `mpp_packet_copy_init`.

Each module follows one source file:

| module | file |
|---|---|
| `Common` | shared arithmetic (powers of two, C division, alignment, bit strings) and the `MppFrameFormat` enumeration of `inc/mpp_frame.h` |
| `H264eBits`, `H264eFrames`, `H264eSps` | `mpp/hal/rkenc/h264e/hal_h264e_rkv.c` |
| `H264SpsVui` | `mpp/codec/enc/h264/src/H264SequenceParameterSet.c` |
| `H264EncApi` | `mpp/codec/enc/h264/src/H264EncApi.c` |
| `EncAsic` | `mpp/codec/enc/h264/src/encasiccontroller.c` |
| `H264dVdpu` | `mpp/hal/rkdec/h264d/hal_h264d_vdpu_pkt.c` |
| `Vp8dRegs` | `mpp/hal/vpu/vp8d/hal_vp8d_reg.c` |
| `RmvbParser` | `mpp/codec/dec/rmvb/rmvbd_parser.c` |
| `RmvbHal` | `mpp/hal/vpu/rmvbd/hal_rmvbd_reg.c` |
| `VpuLegacy` | `mpp/legacy/vpu_api_legacy.cpp` |
| `MppFacade` | `mpp/mpp.cpp` |

## Model

| member | source | states |
|---|---|---|
| Common.FmtCode | inc/mpp_frame.h:149-173 | YUV formats get codes below 0x10000 and RGB formats codes from 0x10000 on, as the enumeration's two bases prescribe |
| Common.FmtOfCode | inc/mpp_frame.h:149-173 | a raw value decodes only to the format whose code it is |
| Common.FmtCodeRoundTrip | inc/mpp_frame.h:149-173 | decoding the code of any format gives that format back, so the enumeration is injective |
| H264eBits.ILeft | mpp/hal/rkenc/h264e/hal_h264e_rkv.c:1799-1802 | the free bits left in the current 32-bit word, between 1 and 32, complete the written length to a word boundary |
| H264eBits.WriteBits | mpp/hal/rkenc/h264e/hal_h264e_rkv.c:1869-1893 | writing n bits of v keeps what was written and appends exactly n bits whose big-endian value is v |
| H264eBits.Write1 | mpp/hal/rkenc/h264e/hal_h264e_rkv.c:1895-1915 | the single-bit writer agrees with the general writer for a width of 1 |
| H264eBits.UeSizeTabIsLog2 | mpp/hal/rkenc/h264e/hal_h264e_rkv.c:66-83 | the 256-entry code-size table holds 2·⌊log2 x⌋+1 for every x from 1 to 255 |
| H264eBits.UeCodeLength | mpp/hal/rkenc/h264e/hal_h264e_rkv.c:1917-1931 | the table lookup with the 16- and 8-bit shifts gives the ue(v) code length 2·⌊log2(v+1)⌋+1 |
| H264eBits.UeShiftSteps | mpp/hal/rkenc/h264e/hal_h264e_rkv.c:1917-1931 | after the two conditional shifts the remaining value fits the table, and the shifted-out bits add exactly 2·16 or 2·8 to the size |
| H264eBits.WriteUe | mpp/hal/rkenc/h264e/hal_h264e_rkv.c:1917-1937 | ue(v) appends ⌊log2(v+1)⌋ zeros followed by v+1 in binary, which is the Exp-Golomb code of section 9.1 of ITU-T H.264 |
| H264eBits.UeRoundTrip | mpp/hal/rkenc/h264e/hal_h264e_rkv.c:1917-1937 | an independent section 9.1 parser reads back exactly v and leaves the following bits untouched |
| H264eBits.SeCodeNum | mpp/hal/rkenc/h264e/hal_h264e_rkv.c:1939-1945 | positive k maps to the odd code 2k−1, and non-positive k maps to the even code −2k (Table 9-3) |
| H264eBits.SeCodeNumInverse | mpp/hal/rkenc/h264e/hal_h264e_rkv.c:1939-1945 | the signed mapping is inverted by taking (c+1)/2 for odd codes and −c/2 for even codes, so no two values share a code |
| H264eBits.SeSizeIsLog2 | mpp/hal/rkenc/h264e/hal_h264e_rkv.c:1939-1954 | the se(v) size computed with one 8-bit shift and the table equals 2·⌊log2 tmp⌋+1 and fits a 32-bit write |
| H264eBits.WriteSe | mpp/hal/rkenc/h264e/hal_h264e_rkv.c:1939-1954 | se(v) keeps what was written and appends 2⌊log2(c+1)⌋+1 bits holding c+1, where c is the code number of Table 9-3 of ITU-T H.264 |
| H264eBits.WriteSeIsUeOfCodeNum | mpp/hal/rkenc/h264e/hal_h264e_rkv.c:1939-1954 | se(v) is the ue(v) code of the mapped code number, as section 9.1.1 of ITU-T H.264 defines it |
| H264eBits.WriteSeShape | mpp/hal/rkenc/h264e/hal_h264e_rkv.c:1939-1954 | the single write the source issues has leading zeros followed by tmp in binary |
| H264eBits.SeRoundTrip | mpp/hal/rkenc/h264e/hal_h264e_rkv.c:1939-1954 | an independent se(v) parser recovers every value in the writer's range and leaves the rest of the stream |
| H264eBits.SizeSe | mpp/hal/rkenc/h264e/hal_h264e_rkv.c:1964-1972 | the size function predicts, for every stream, exactly how many bits the se(v) writer appends |
| H264eBits.RbspTrailing | mpp/hal/rkenc/h264e/hal_h264e_rkv.c:1975-1982 | trailing bits are a stop bit 1 and then zeros up to the next byte boundary, never more than 8 bits in all |
| H264eBits.RbspTrailingAligned | mpp/hal/rkenc/h264e/hal_h264e_rkv.c:1975-1982 | on a byte-aligned stream the trailing bits are the whole byte 0x80 |
| H264eBits.EscapeTail | mpp/hal/rkenc/h264e/hal_h264e_rkv.c:2039-2049 | escaping never shortens the payload |
| H264eBits.Escape | mpp/hal/rkenc/h264e/hal_h264e_rkv.c:2039-2049 | the first two bytes are copied unchanged and the escaped payload is never shorter |
| H264eBits.NalEscape | mpp/hal/rkenc/h264e/hal_h264e_rkv.c:2039-2049 | the byte loop with its two-byte history computes the functional escape |
| H264eBits.EscapeRoundTrip | mpp/hal/rkenc/h264e/hal_h264e_rkv.c:2039-2049 | removing every 0x03 that follows two zero bytes restores the original payload |
| H264eBits.EscapeNoEmulation | mpp/hal/rkenc/h264e/hal_h264e_rkv.c:2039-2049 | the escaped payload never contains 00 00 followed by 00, 01 or 02, so no start-code prefix is emulated (section 7.4.1 of ITU-T H.264) |
| H264eBits.NalEncode | mpp/hal/rkenc/h264e/hal_h264e_rkv.c:2051-2085 | a NAL unit is the start code 00 00 01, then a header whose forbidden bit is 0 and which carries nal_ref_idc and nal_unit_type, then a payload that unescapes to the input and emulates no start code |
| H264eBits.FfRun | mpp/hal/rkenc/h264e/hal_h264e_rkv.c:2182-2188 | a value is written as ⌊v/255⌋ bytes of 0xFF followed by v mod 255 |
| H264eBits.FfRunRoundTrip | mpp/hal/rkenc/h264e/hal_h264e_rkv.c:2182-2188 | reading 0xFF bytes until the first other byte recovers v, as section 7.3.2.3.1 of ITU-T H.264 reads it |
| H264eBits.SeiWrite | mpp/hal/rkenc/h264e/hal_h264e_rkv.c:2173-2199 | the SEI writer emits, bit by bit, the bytes of type run, size run and payload |
| H264eBits.SeiRoundTrip | mpp/hal/rkenc/h264e/hal_h264e_rkv.c:2173-2199 | parsing the SEI message bytes gives back the payload type and the payload |
| H264eFrames.Push | mpp/hal/rkenc/h264e/hal_h264e_rkv.c:874-881 | push puts the frame into the first empty slot, changes nothing else, and grows a list that had room by one |
| H264eFrames.PushRoom | mpp/hal/rkenc/h264e/hal_h264e_rkv.c:874-881 | a push into a list with room keeps it well formed, with one more frame |
| H264eFrames.Pop | mpp/hal/rkenc/h264e/hal_h264e_rkv.c:907-917 | pop returns the last frame, empties its slot and keeps the list well formed |
| H264eFrames.PushPop | mpp/hal/rkenc/h264e/hal_h264e_rkv.c:874-917 | popping right after a push returns the pushed frame and the original list |
| H264eFrames.Unshift | mpp/hal/rkenc/h264e/hal_h264e_rkv.c:919-927 | unshift puts the frame first, moves the existing frames up one slot, and leaves the slots after them alone |
| H264eFrames.UnshiftRoom | mpp/hal/rkenc/h264e/hal_h264e_rkv.c:919-927 | unshifting into a list with room keeps it well formed, with one more frame |
| H264eFrames.Shift | mpp/hal/rkenc/h264e/hal_h264e_rkv.c:929-938 | shift returns the first frame and moves the rest down one slot |
| H264eFrames.UnshiftShift | mpp/hal/rkenc/h264e/hal_h264e_rkv.c:919-938 | shifting right after an unshift returns the unshifted frame and the original list |
| H264eFrames.FirstFree | mpp/hal/rkenc/h264e/hal_h264e_rkv.c:883-905 | the search finds the lowest buffer whose hardware buffer is unused, and fails exactly when all are used |
| H264eFrames.FrameNew | mpp/hal/rkenc/h264e/hal_h264e_rkv.c:883-905 | a new frame takes the lowest buffer whose hardware buffer is free and marks it used, changing nothing else, and fails exactly when every buffer is taken |
| H264eFrames.PushUnused | mpp/hal/rkenc/h264e/hal_h264e_rkv.c:941-949 | releasing a frame decrements its reference count, and the frame joins the unused list exactly when the count was 1 |
| H264eFrames.PushUnusedKeepsValid | mpp/hal/rkenc/h264e/hal_h264e_rkv.c:941-949 | releasing a referenced frame keeps the picture buffer's invariant: every listed id is in range and the lists keep their shape |
| H264eFrames.PopUnused | mpp/hal/rkenc/h264e/hal_h264e_rkv.c:951-977 | the last frame of the unused list is taken first, leaving the list as Pop leaves it and that frame's hardware buffer as it was; otherwise the first free buffer is taken and marked in use, with the unused list untouched; the frame comes out with a reference count of 1 and cleared flags; every other frame, the reference list and the POC stay as they were; the call fails exactly when both are exhausted |
| H264eFrames.ReferenceReset | mpp/hal/rkenc/h264e/hal_h264e_rkv.c:979-986 | after a reset the reference list is empty, the POC is 0, and frames that were not referenced are untouched |
| H264eFrames.ResetNext | mpp/hal/rkenc/h264e/hal_h264e_rkv.c:982-983 | one round of the reset loop keeps the pool valid and releasable and leaves the same final result |
| H264eFrames.ResetNextStep | mpp/hal/rkenc/h264e/hal_h264e_rkv.c:940-948 | a round takes one reference and one list occurrence from the popped frame, leaves every other frame alone, keeps the unused frames and adds the popped frame when its count reaches zero |
| H264eFrames.PopOccurrences | mpp/hal/rkenc/h264e/hal_h264e_rkv.c:982-983 | popping the reference list removes exactly one occurrence of the popped frame |
| H264eFrames.ReferenceResetCounts | mpp/hal/rkenc/h264e/hal_h264e_rkv.c:979-986 | every pool frame loses exactly as many references as the reference list held pointers to it, and nothing else about it changes |
| H264eFrames.ReferenceResetKeepsUnused | mpp/hal/rkenc/h264e/hal_h264e_rkv.c:940-948 | frames already on the unused list are still there after the reset |
| H264eFrames.ReferenceResetFrees | mpp/hal/rkenc/h264e/hal_h264e_rkv.c:979-986 | a frame held only by the reference list ends with count 0 and is on the unused list |
| H264eSps.NativeOrder | mpp/hal/rkenc/h264e/hal_h264e_rkv.c:317-463 | every chroma-swapped format has a distinct twin in native order, and other formats are their own twin |
| H264eSps.ConvertCsp | mpp/hal/rkenc/h264e/hal_h264e_rkv.c:317-463 | the hardware format is "none" exactly for unknown or unsupported inputs, and the chroma and alpha swap flags are set exactly for the swapped formats |
| H264eSps.ConvertCspSwapTwin | mpp/hal/rkenc/h264e/hal_h264e_rkv.c:317-463 | a chroma-swapped format and its native twin map to the same hardware format and differ only in the chroma swap bit |
| H264eSps.Csp2Rank | mpp/hal/rkenc/h264e/hal_h264e_rkv.c:49-51 | the colour classes are ranked with "none" alone at 0, which gives the ordering the comparisons at line 1650 rely on |
| H264eSps.CspClass | mpp/hal/rkenc/h264e/hal_h264e_rkv.c:49-51 | the index map sends exactly the "none" hardware format to the "none" colour class |
| H264eSps.ChromaOf | mpp/hal/rkenc/h264e/hal_h264e_rkv.c:1657-1658 | chroma_format_idc is 4:4:4 from the 4:4:4 class up and 4:2:0 below 4:2:2 |
| H264eSps.ChromaOfYuvInputs | mpp/hal/rkenc/h264e/hal_h264e_rkv.c:1649-1658 | planar and semi-planar 4:2:0 inputs yield chroma 4:2:0, and the 4:2:2 inputs yield 4:2:2 |
| H264eSps.LevelSignal | mpp/hal/rkenc/h264e/hal_h264e_rkv.c:1671-1678 | level 1b in Baseline or Main is sent as level 11 with constraint_set3 set; other levels are sent unchanged |
| H264eSps.LevelSignalRecoverable | mpp/hal/rkenc/h264e/hal_h264e_rkv.c:1671-1678 | a decoder can recover the requested level from level_idc and constraint_set3_flag, as section A.3.1 of ITU-T H.264 prescribes |
| H264eSps.DeriveRefCounts | mpp/hal/rkenc/h264e/hal_h264e_rkv.c:1680-1691 | reorder frames follow the B-frame and pyramid settings; an intra-only stream has no references; otherwise max_dec_frame_buffering is exactly the largest of the requested references, the reorder depth plus one, the pyramid depth and the DPB size, capped at the maximum, and strict pyramid uses one reference less |
| H264eSps.Log2MaxFrameNum | mpp/hal/rkenc/h264e/hal_h264e_rkv.c:1693-1702 | the frame_num width is at least 16 and is the least width whose range exceeds the frames the DPB can hold |
| H264eSps.Log2MaxPocLsb | mpp/hal/rkenc/h264e/hal_h264e_rkv.c:1704-1711 | the POC LSB width is at least 16 and is the least width whose range exceeds the B-frame distance |
| H264eSps.DeriveGeometry | mpp/hal/rkenc/h264e/hal_h264e_rkv.c:1715-1727 | the macroblock sizes cover the picture, and the right and bottom crop (doubled for fields) is exactly the padding |
| H264eSps.CropIffUnaligned | mpp/hal/rkenc/h264e/hal_h264e_rkv.c:1724-1727 | a progressive picture is cropped exactly when its width or height is not a multiple of 16 |
| H264eSps.InRangeOr | mpp/hal/rkenc/h264e/hal_h264e_rkv.c:1741-1760 | an out-of-range request falls back to the default, and an in-range request is kept |
| H264eSps.DeriveSignalType | mpp/hal/rkenc/h264e/hal_h264e_rkv.c:1741-1760 | every VUI colour field is the request when it lies in its Table E-2 to E-5 range and otherwise the default: video format 5, full range for RGB only, primaries and transfer 2, matrix 0 for RGB and 2 otherwise; the present flags are set exactly when a field differs from "unspecified" |
| H264eSps.DeriveVui | mpp/hal/rkenc/h264e/hal_h264e_rkv.c:1729-1785 | each optional VUI part is present exactly when its inputs are valid: SAR, overscan, chroma location only for 4:2:0, timing with 2·den ticks, HRD and bitstream restriction |
| H264eSps.VuiDefaultsByColourClass | mpp/hal/rkenc/h264e/hal_h264e_rkv.c:1741-1760 | without colour requests, RGB inputs signal full range with matrix 0 (GBR), and YUV inputs signal no video type or colour description |
| H264eSps.SetSps | mpp/hal/rkenc/h264e/hal_h264e_rkv.c:1625-1796 | the assembled SPS uses the signalled level, the input's chroma format, the reference counts, 16-bit frame_num and POC fields with POC type 0, progressive frames, crop exactly for unaligned sizes, and timing exactly when a frame rate is set |
| H264SpsVui.AspectRatioIdc | mpp/codec/enc/h264/src/H264SequenceParameterSet.c:417-461 | 0 means unspecified, 1 means square, an index from 2 to 13 is the unique Table E-1 entry equal to the ratio, and otherwise the code is Extended_SAR |
| H264SpsVui.ExtendedSarIff | mpp/codec/enc/h264/src/H264SequenceParameterSet.c:417-461 | Extended_SAR is chosen exactly for non-square non-zero ratios that are missing from Table E-1 |
| H264SpsVui.GetLevelIndex | mpp/codec/enc/h264/src/H264SequenceParameterSet.c:537-551 | the search returns the table position of the level, and fails exactly for level_idc values not in the table |
| H264SpsVui.MbRate | mpp/codec/enc/h264/src/H264SequenceParameterSet.c:485-516 | the macroblock rate is the frame size times the frame rate, rounded down exactly |
| H264SpsVui.MbRateBound | mpp/codec/enc/h264/src/H264SequenceParameterSet.c:485-516 | the rounded rate is within a limit exactly when the exact rate is below limit+1 |
| H264SpsVui.CheckLevel | mpp/codec/enc/h264/src/H264SequenceParameterSet.c:485-516 | a configuration passes exactly when it has positive rates, a frame within MaxFS, each side within √(8·MaxFS), and a macroblock rate within MaxMBPS (Table A-1 of ITU-T H.264) |
| H264SpsVui.LevelTablesMonotone | mpp/codec/enc/h264/src/H264SequenceParameterSet.c:485-516 | the MaxFS, side and MaxMBPS tables never decrease with the level index |
| H264SpsVui.CheckLevelUpward | mpp/codec/enc/h264/src/H264SequenceParameterSet.c:485-516 | a stream that fits a level also fits every higher level |
| H264SpsVui.MbRateAsWritten | mpp/codec/enc/h264/src/H264SequenceParameterSet.c:509 | the 32-bit product agrees with the exact rate while the product fits in a signed 32-bit integer |
| H264SpsVui.AsWrittenAgrees | mpp/codec/enc/h264/src/H264SequenceParameterSet.c:509 | below 2^31 the wrapped C division agrees with the exact quotient |
| H264SpsVui.CheckLevelAsWritten | mpp/codec/enc/h264/src/H264SequenceParameterSet.c:485-516 | the as-written check agrees with the exact check whenever the product does not overflow |
| H264SpsVui.CheckLevelOverflowWitness | mpp/codec/enc/h264/src/H264SequenceParameterSet.c:509 | a 4096×2304 stream at 24 frames per second fits level 5.1, yet the as-written check rejects it |
| H264SpsVui.UpdateVuiPresence | mpp/codec/enc/h264/src/H264SequenceParameterSet.c:215-225 | the VUI stays present exactly when it was present and some VUI field is set |
| H264SpsVui.SetTimingInfo | mpp/codec/enc/h264/src/H264SequenceParameterSet.c:569-576 | the timing fields are stored, and VUI becomes present when the time scale is non-zero |
| H264SpsVui.SetVideoInfo | mpp/codec/enc/h264/src/H264SequenceParameterSet.c:578-584 | the full-range flag is stored, and VUI becomes present when it is set |
| H264SpsVui.SetAspectRatio | mpp/codec/enc/h264/src/H264SequenceParameterSet.c:586-597 | the sample aspect ratio is stored, and VUI becomes present for a non-zero width |
| H264SpsVui.SetPictStructPresent | mpp/codec/enc/h264/src/H264SequenceParameterSet.c:718-721 | pic_struct_present_flag takes the flag and no other VUI field changes; VUI presence is left as it was, and a set flag makes the VUI non-empty |
| H264SpsVui.TimeOffsetLength | mpp/codec/enc/h264/src/H264SequenceParameterSet.c:632-638 | time_offset_length is the least width, at least 1, whose range holds num_units_in_tick |
| H264SpsVui.SetHrd | mpp/codec/enc/h264/src/H264SequenceParameterSet.c:614-641 | switching HRD off changes only its flag; switching it on makes VUI present, sets the 24-bit delay lengths and time_offset_length to the least width for the tick; no VUI field outside the HRD group changes |
| H264SpsVui.SettersSurviveUpdate | mpp/codec/enc/h264/src/H264SequenceParameterSet.c:215-225 | a field set by any of the setters keeps VUI present through the later presence update |
| H264SpsVui.FlagSettersSurviveUpdate | mpp/codec/enc/h264/src/H264SequenceParameterSet.c:614-721 | after the presence update, HRD on keeps the VUI present, and a set pic_struct_present_flag keeps it present exactly when it already was; the flag setter never makes an absent VUI present |
| H264SpsVui.ScaleFrom | mpp/codec/enc/h264/src/H264SequenceParameterSet.c:320-346 | the scale search stops at the first shift after which the value fits 12 bits |
| H264SpsVui.HrdRound | mpp/codec/enc/h264/src/H264SequenceParameterSet.c:320-346 | the scale is the first at which the loop stops (the previous shift fits 12 bits, the one before does not); the HRD value written is rounded down to a multiple of 2^(base+scale), loses less than one step, and has a value field that fits (section E.2.2 of ITU-T H.264) |
| H264SpsVui.HrdRoundFacts | mpp/codec/enc/h264/src/H264SequenceParameterSet.c:320-346 | the shifted value fits 11 bits and shifting it back loses nothing |
| H264SpsVui.ScaleFromUnique | mpp/codec/enc/h264/src/H264SequenceParameterSet.c:320-346 | the scale that satisfies the search's stopping condition is unique |
| H264SpsVui.HrdRoundIdempotent | mpp/codec/enc/h264/src/H264SequenceParameterSet.c:320-346 | rounding a rounded value again changes neither the value nor the scale, so the rewrite at lines 340 and 345 is stable |
| H264SpsVui.BitRateRound | mpp/codec/enc/h264/src/H264SequenceParameterSet.c:320-346 | the bit-rate scale is where the loop stops, and the written bit rate is the request rounded down to a multiple of its 2^(6+scale) unit |
| H264SpsVui.CpbSizeRound | mpp/codec/enc/h264/src/H264SequenceParameterSet.c:320-346 | the CPB-size scale is where the loop stops, and the written CPB size is the request rounded down to a multiple of its 2^(4+scale) unit |
| H264SpsVui.WriteHighProfileFields | mpp/codec/enc/h264/src/H264SequenceParameterSet.c:148-163 | below High profile nothing is written; from High profile on, seven bits follow the existing stream |
| H264SpsVui.HighProfileBits | mpp/codec/enc/h264/src/H264SequenceParameterSet.c:148-163 | the High-profile fields are exactly ue(1), ue(0), ue(0), 0, 0 |
| H264SpsVui.HighProfileFieldsParse | mpp/codec/enc/h264/src/H264SequenceParameterSet.c:148-163 | a ue(v) parser reads chroma_format_idc = 1 first and leaves the next fields in order |
| H264EncApi.SetCodingCtrl | mpp/codec/enc/h264/src/H264EncApi.c:123-214 | the call succeeds exactly when the slice size fits the picture and, in INIT, the parameters are valid; a failure leaves the encoder untouched; slices are stored in macroblocks |
| H264EncApi.Transform8x8Adaptive | mpp/codec/enc/h264/src/H264EncApi.c:188-191 | after a successful call in INIT the 8x8 transform is on exactly when it already was, or for mode 2, or for mode 1 on pictures of at least 3600 macroblocks (720p and up) |
| H264EncApi.IntraQpDeltaTest | mpp/codec/enc/h264/src/H264EncApi.c:276 | the unsigned test (d+12) ≤ 24 accepts exactly the deltas from −12 to 12 |
| H264EncApi.CpbRequest | mpp/codec/enc/h264/src/H264EncApi.c:311-320 | the CPB size covers one frame, the level maximum when the request is 0, and the bit rate when the request is −1 |
| H264EncApi.CapBitRate | mpp/codec/enc/h264/src/H264EncApi.c:298-309 | the bit rate is the request capped at half the raw picture rate |
| H264EncApi.Configured | mpp/codec/enc/h264/src/H264EncApi.c:298-375 | the stored parameters: the bit rate is the requested one capped at half the raw picture rate, the CPB size is the requested or derived size rounded to what the stream carries, HRD forces picture rate control, ROI refuses macroblock rate control, and no other rate-control field changes |
| H264EncApi.SetRateCtrl | mpp/codec/enc/h264/src/H264EncApi.c:225-380 | it is refused in START_FRAME with HRD on, and for invalid parameters, leaving the instance as it was; on success the parameters are valid, with HRD they fit the level, and the instance keeps what H264InitRc makes of the configured rate control, nothing else changing |
| H264EncApi.SetRateCtrlAccepts | mpp/codec/enc/h264/src/H264EncApi.c:246-379 | the call succeeds exactly when the status allows it, the parameters are valid and, with HRD on, the capped bit rate and rounded CPB size fit the level maximums |
| H264EncApi.SetSeiUserData | mpp/codec/enc/h264/src/H264EncApi.c:382-409 | user data is enabled exactly for 16 to 2048 bytes, is kept only then, and nothing else changes |
| H264EncApi.SelectProfile | mpp/codec/enc/h264/src/H264EncApi.c:458-469 | the profile is High exactly with 8x8 transform or a High request without CABAC, Main exactly with CABAC or a Main request, and otherwise Baseline |
| H264EncApi.WrittenHrd | mpp/codec/enc/h264/src/H264EncApi.c:476-521 | the HRD values read back from the SPS are the rounded requests, themselves fixed points of the rounding |
| H264EncApi.StrmStart | mpp/codec/enc/h264/src/H264EncApi.c:420-527 | the call succeeds exactly in INIT with a buffer of at least 64 bytes and no overflow; any other status is refused, an overflow leaves the status at INIT, and success starts the stream at frame_num 0; the PPS QP is read before the H264InitRc call at line 521 |
| H264EncApi.StrmStartHeaders | mpp/codec/enc/h264/src/H264EncApi.c:458-501 | once the headers are written, fitting or not, the stream carries the selected profile, the header QP in the PPS, pic_struct_present_flag under SEI and the VUI HRD parameters under HRD |
| H264EncApi.StrmStartRateCtrl | mpp/codec/enc/h264/src/H264EncApi.c:512-523 | after a successful start with HRD the written bit rate and CPB size never exceed the configured ones; rate control is kept when they are equal and initialised again with them exactly when they differ; without HRD it is untouched |
| H264EncApi.StartKeepsCpbSize | mpp/codec/enc/h264/src/H264EncApi.c:322-327 | a CPB size already rounded to what the stream carries, as Configured leaves it, is written into the SPS unchanged, and with a rounded bit rate too the start does not initialise rate control again |
| H264EncApi.BusesValidFallThrough | mpp/codec/enc/h264/src/H264EncApi.c:605-645 | planar 4:2:0 needs the V plane on top of what semi-planar 4:2:0 needs, which needs the U plane on top of the luma plane the other listed formats need; the 10-bit semi-planar formats are refused |
| H264EncApi.StrmEncode | mpp/codec/enc/h264/src/H264EncApi.c:538-749 | encoding is refused outside START_STREAM and START_FRAME; a frame is ready exactly for valid input with a buffer set; frame_num is restored when rate control skips the frame |
| H264EncApi.NextIdrPicId | mpp/codec/enc/h264/src/H264EncApi.c:889-891 | idr_pic_id counts modulo 16 |
| H264EncApi.StrmEncodeAfter | mpp/codec/enc/h264/src/H264EncApi.c:772-904 | a failed wait moves to ERROR; a timeout or stream overflow changes nothing; an HRD overflow puts frame_num back; success moves to START_FRAME, counts the frame, advances frame_num modulo 2^bits and idr_pic_id after an IDR; the encoder invariant is kept |
| H264EncApi.StrmEnd | mpp/codec/enc/h264/src/H264EncApi.c:915-965 | ending succeeds exactly from a started stream with a buffer, returns to INIT, and otherwise changes nothing |
| H264EncApi.ErrorIsSticky | mpp/codec/enc/h264/src/H264EncApi.c:577-904 | from ERROR every call stays in ERROR except a post-encode step after a successful wait with no overflow, which moves to START_FRAME; the stream calls are refused as an invalid status |
| H264EncApi.StepKeepsInv | mpp/codec/enc/h264/src/H264EncApi.c:420-965 | every API call preserves the encoder invariant |
| H264EncApi.StatusTransitions | mpp/codec/enc/h264/src/H264EncApi.c:420-965 | each call moves only along the edges INIT→START_STREAM→START_FRAME, back to INIT, into ERROR, or from ERROR to START_FRAME by a successful post-encode step |
| H264EncApi.FirstPictureIsIdr | mpp/codec/enc/h264/src/H264EncApi.c:676-713 | the first coded picture after a stream start is an IDR picture with frame_num 0, whatever type was requested |
| EncAsic.ControllerInit | mpp/codec/enc/h264/src/encasiccontroller.c:49-64 | initialisation zeroes the checkpoint distance and the three input bases, and keeps the stream and checkpoint settings |
| EncAsic.CopyPrefix | mpp/codec/enc/h264/src/encasiccontroller.c:97-107 | the first n entries come from the source and the rest of the destination is kept |
| EncAsic.FrameStart | mpp/codec/enc/h264/src/encasiccontroller.c:66-122 | the syntax registers carry POC LSB = 2·frame_num, pic_init_qp = minus26+26 and PPS id 0; slice rows cover the slice size; CABAC, transform, QP and addresses come from the encoder and the register values |
| EncAsic.SliceRowsRoundTrip | mpp/codec/enc/h264/src/encasiccontroller.c:82 | dividing the stored slice size by the row width gives back the rows the caller asked for |
| EncAsic.PicInitQpRoundTrip | mpp/codec/enc/h264/src/encasiccontroller.c:76 | the hardware receives the header QP that StrmStart stored as an offset from 26 |
| EncAsic.PocLsbFits | mpp/codec/enc/h264/src/encasiccontroller.c:71 | the POC LSB is even and fits one bit more than frame_num |
| H264dVdpu.PicRegs | mpp/hal/rkdec/h264d/hal_h264d_vdpu_pkt.c:505-506 | the width in macroblocks is width_mbs_minus1+1, and the height is doubled for field-capable streams |
| H264dVdpu.DirMvOffset | mpp/hal/rkdec/h264d/hal_h264d_vdpu_pkt.c:763-769 | direct motion vectors start after the frame data, one field further on for a second field |
| H264dVdpu.BottomFieldVectorsFollowTop | mpp/hal/rkdec/h264d/hal_h264d_vdpu_pkt.c:763-769 | the second field's vectors start exactly one field's worth after the first field's |
| H264dVdpu.Scalars | mpp/hal/rkdec/h264d/hal_h264d_vdpu_pkt.c:527-530 | the QP register is pic_init_qp, in 0..51 exactly when pic_init_qp_minus26 is in range; the frame_num length register gives MaxFrameNum as 2^(log2_max_frame_num_minus4 + 4); monochrome is set exactly for High-profile 4:0:0 |
| H264dVdpu.EntryValidBits | mpp/hal/rkdec/h264d/hal_h264d_vdpu_pkt.c:541-576 | the bits come per field (32) or per frame (16), each from its reference entry |
| H264dVdpu.ValidBits | mpp/hal/rkdec/h264d/hal_h264d_vdpu_pkt.c:541-576 | the valid mask is always 32 bits wide |
| H264dVdpu.RefFlags | mpp/hal/rkdec/h264d/hal_h264d_vdpu_pkt.c:541-576 | the shift-and-or loops compute the valid and long-term masks as the binary value of the per-entry bits |
| H264dVdpu.RefFlagsBits | mpp/hal/rkdec/h264d/hal_h264d_vdpu_pkt.c:541-576 | bit 31−i of each mask is entry i's valid or long-term bit, and in frame mode the low 16 bits are zero |
| H264dVdpu.InvalidEntryContributesZero | mpp/hal/rkdec/h264d/hal_h264d_vdpu_pkt.c:545-547 | an invalid reference entry sets no bit in either mask, in field or frame mode |
| H264dVdpu.SetReferPicIdx | mpp/hal/rkdec/h264d/hal_h264d_vdpu_pkt.c:209-265 | the index setter writes register i and no other, and ignores indices of 16 and above |
| H264dVdpu.RefIdxLoop | mpp/hal/rkdec/h264d/hal_h264d_vdpu_pkt.c:578-586 | from i on, a register whose entry is in use takes that entry's index and one whose entry is unused (0xff) is left as it was; registers before i are kept |
| H264dVdpu.RefListValue | mpp/hal/rkdec/h264d/hal_h264d_vdpu_pkt.c:632-678 | each list register takes the 7-bit index of the entry at the field- or frame-adjusted position, or its own position i when that entry is unused (0xff) |
| H264dVdpu.RefListRegs | mpp/hal/rkdec/h264d/hal_h264d_vdpu_pkt.c:632-678 | all 16 list registers follow that rule |
| H264dVdpu.RefListFrameUsesPrefix | mpp/hal/rkdec/h264d/hal_h264d_vdpu_pkt.c:632-678 | in frame mode only the first 16 list entries matter |
| H264dVdpu.RefListEmptyIsIdentity | mpp/hal/rkdec/h264d/hal_h264d_vdpu_pkt.c:632-678 | an empty list yields the identity table from g_ValueList |
| H264dVdpu.PocTable | mpp/hal/rkdec/h264d/hal_h264d_vdpu_pkt.c:590-608 | 32 field POCs are taken in order from the reference POC pairs, followed by the current top and bottom POC |
| H264dVdpu.RefPoc | mpp/hal/rkdec/h264d/hal_h264d_vdpu_pkt.c:709-725 | the reference POC is the top POC, the bottom POC or their minimum, as the used-for-reference bits say |
| H264dVdpu.RefAttr | mpp/hal/rkdec/h264d/hal_h264d_vdpu_pkt.c:709-725 | the high bit marks a field reference, and the low bit marks a field reference later than the current picture |
| H264dVdpu.RefAttrAsWritten | mpp/hal/rkdec/h264d/hal_h264d_vdpu_pkt.c:714-723 | the attribute computed with the `used & 0x3` test, which is true for any non-zero value, stays within two bits |
| H264dVdpu.RefAttrCorrected | mpp/hal/rkdec/h264d/hal_h264d_vdpu_pkt.c:709-725 | a reference that holds only its bottom field is compared by its bottom-field POC |
| H264dVdpu.RefAttrAgreement | mpp/hal/rkdec/h264d/hal_h264d_vdpu_pkt.c:714-723 | the two versions agree whenever both fields or neither are used for reference |
| H264dVdpu.RefAttrSingleFieldWitness | mpp/hal/rkdec/h264d/hal_h264d_vdpu_pkt.c:714-723 | with only the bottom field referenced, the as-written attribute differs from the corrected one |
| Vp8dRegs.MbDimRegs | mpp/hal/vpu/vp8d/hal_vp8d_reg.c:593-599 | the macroblock counts are the rounded-up picture sizes, split into low fields of 9 and 8 bits |
| Vp8dRegs.MbFieldsRecombine | mpp/hal/vpu/vp8d/hal_vp8d_reg.c:593-599 | the extension and low fields recombine to the full macroblock counts |
| Vp8dRegs.SegmentValues | mpp/hal/vpu/vp8d/hal_vp8d_reg.c:667-679 | without segmentation only segment 0 carries the frame value; absolute segment data are used as given; delta data are added to the frame value and clamped to the maximum |
| Vp8dRegs.SegmentDeltaMonotone | mpp/hal/vpu/vp8d/hal_vp8d_reg.c:699-711 | clamping keeps the order of the segment deltas |
| Vp8dRegs.SegmentZeroDeltaIsFrameValue | mpp/hal/vpu/vp8d/hal_vp8d_reg.c:667-679 | zero deltas give every segment the frame value |
| Vp8dRegs.McFilterGain | mpp/hal/vpu/vp8d/hal_vp8d_reg.c:164-173 | every one of the eight six-tap filters has unit gain (taps sum to 128), as section 18 of RFC 6386 requires |
| Vp8dRegs.McFilterMirror | mpp/hal/vpu/vp8d/hal_vp8d_reg.c:164-173 | the filter for position 8−r is the mirror image of the filter for position r |
| Vp8dRegs.TapRegs | mpp/hal/vpu/vp8d/hal_vp8d_reg.c:326-374 | six-tap versions program the four middle taps of each filter, and other versions program zeros |
| Vp8dRegs.OuterTapRegs | mpp/hal/vpu/vp8d/hal_vp8d_reg.c:368-373 | six-tap versions program the first and last taps of the filters for positions 2, 4 and 6, and other versions leave them 0 |
| Vp8dRegs.AppliedFilter | mpp/hal/vpu/vp8d/hal_vp8d_reg.c:326-374 | the filter the hardware applies is the middle taps framed by the outer-tap registers for rows 2, 4 and 6 and by zeros elsewhere |
| Vp8dRegs.ProgrammedTapsKeepGain | mpp/hal/vpu/vp8d/hal_vp8d_reg.c:326-374 | in six-tap versions the applied filter, programmed outer taps included, is exactly the RFC 6386 filter row and sums to 128 |
| Vp8dRegs.NumPartitions | mpp/hal/vpu/vp8d/hal_vp8d_reg.c:423 | the partition count is 1, 2, 4 or 8 |
| Vp8dRegs.ExtraBytesPacked | mpp/hal/vpu/vp8d/hal_vp8d_reg.c:405-406 | 7 extra header bytes are counted exactly for VP8 key frames |
| Vp8dRegs.BaseAndBitLocate | mpp/hal/vpu/vp8d/hal_vp8d_reg.c:425-427 | the 8-byte-aligned base plus the start bit point at exactly the partition's first bit |
| Vp8dRegs.StartBitsFrom | mpp/hal/vpu/vp8d/hal_vp8d_reg.c:424-477 | the loop sets each partition's start-bit slot from its own address and leaves the other slots |
| Vp8dRegs.StartBitsFromAsWritten | mpp/hal/vpu/vp8d/hal_vp8d_reg.c:449-476 | as written, the eighth partition's start bit lands in slot 6 and slot 7 is never set |
| Vp8dRegs.StartBitsAsWritten | mpp/hal/vpu/vp8d/hal_vp8d_reg.c:449-476 | the as-written start-bit table still has eight slots |
| Vp8dRegs.Partitions | mpp/hal/vpu/vp8d/hal_vp8d_reg.c:405-477 | coeffs_part_am is the count minus 1, each partition's base and start bit locate its first bit, unused slots are 0, and the stream lengths are as read |
| Vp8dRegs.Vp7StreamOneExtraByte | mpp/hal/vpu/vp8d/hal_vp8d_reg.c:417-422 | VP7 counts one extra byte in the first partition's length |
| Vp8dRegs.StartBitsAgreeBelowEight | mpp/hal/vpu/vp8d/hal_vp8d_reg.c:449-476 | with fewer than eight partitions the as-written table equals the corrected one |
| Vp8dRegs.StartBitsEightPartitionsWitness | mpp/hal/vpu/vp8d/hal_vp8d_reg.c:471-473 | with eight partitions the as-written slot 6 holds partition 7's bit and slot 7 is 0 |
| Vp8dRegs.GenRegs | mpp/hal/vpu/vp8d/hal_vp8d_reg.c:578-740 | each mode flag is set exactly under its condition: inter, skip, loop filter off, Romain MV, bilinear for non-six-tap VP8; decoding is enabled |
| Vp8dRegs.BilinearExcludesSixTap | mpp/hal/vpu/vp8d/hal_vp8d_reg.c:692-694 | bilinear mode programs zero taps, outer ones included, and in six-tap mode the hardware applies exactly the RFC 6386 filter |
| RmvbParser.MbNumLen | mpp/codec/dec/rmvb/rmvbd_parser.c:385-396 | the macroblock-number field is wide enough for every macroblock count up to 16384 |
| RmvbParser.MbNumLenMonotone | mpp/codec/dec/rmvb/rmvbd_parser.c:385-396 | bigger pictures never get a narrower field |
| RmvbParser.ReadField | mpp/codec/dec/rmvb/rmvbd_parser.c:409-417 | a read succeeds exactly when the bits are there and yields a value below 2^n; a refused read is None |
| RmvbParser.ReadEscape | mpp/codec/dec/rmvb/rmvbd_parser.c:409-417 | escaped sizes are multiples of 4 read in whole bytes |
| RmvbParser.ReadEscapeRoundTrip | mpp/codec/dec/rmvb/rmvbd_parser.c:409-417 | reading an escaped size back recovers it and consumes exactly its bytes |
| RmvbParser.ReadWidth | mpp/codec/dec/rmvb/rmvbd_parser.c:409-417 | a width code takes at least 3 bits |
| RmvbParser.ReadHeight | mpp/codec/dec/rmvb/rmvbd_parser.c:419-435 | a height code takes 3, 4, or 4 plus whole escape bytes |
| RmvbParser.WidthRoundTrip | mpp/codec/dec/rmvb/rmvbd_parser.c:409-417 | decoding the code of any codable width gives it back and consumes exactly the code |
| RmvbParser.HeightRoundTrip | mpp/codec/dec/rmvb/rmvbd_parser.c:419-435 | decoding the code of any codable height gives it back and consumes exactly the code |
| RmvbParser.GetPicsize | mpp/codec/dec/rmvb/rmvbd_parser.c:399-441 | a picture size is a width code followed by a height code |
| RmvbParser.PicsizeRoundTrip | mpp/codec/dec/rmvb/rmvbd_parser.c:399-441 | encoded sizes decode to the same width and height with the code lengths |
| RmvbParser.TableIndex | mpp/codec/dec/rmvb/rmvbd_parser.c:409-417 | the search finds an index holding the value, or proves none does |
| RmvbParser.SplitFrame | mpp/codec/dec/rmvb/rmvbd_parser.c:287-304 | packets without the start code pass through, and packets with it lose exactly the packing header, or fail when shorter than it |
| RmvbParser.SplitFrameStripsHeader | mpp/codec/dec/rmvb/rmvbd_parser.c:287-304 | any header with the start code followed by a payload yields exactly the payload |
| RmvbParser.DecoderHeadSizes | mpp/codec/dec/rmvb/rmvbd_parser.c:602-616 | the display size comes from the encoded size when it is non-zero; the decode size is the display size rounded up to 16 |
| RmvbParser.EncodeSizeFields | mpp/codec/dec/rmvb/rmvbd_parser.c:602-616 | the shift-and-mask expressions extract four times each 16-bit half |
| RmvbParser.EncodeSizeRoundTrip | mpp/codec/dec/rmvb/rmvbd_parser.c:602-616 | packing multiple-of-4 sizes and decoding them gives back the display size |
| RmvbParser.InitState | mpp/codec/dec/rmvb/rmvbd_parser.c:94-117 | a new parser has no references, no pending skip and no EOS, and all slots are unused |
| RmvbParser.Reset | mpp/codec/dec/rmvb/rmvbd_parser.c:205-238 | reset drops the three slots and the reference count and keeps every other field of the heads |
| RmvbParser.ResetIdempotent | mpp/codec/dec/rmvb/rmvbd_parser.c:205-238 | resetting twice is the same as resetting once |
| RmvbParser.TrDelta | mpp/codec/dec/rmvb/rmvbd_parser.c:724-726 | the temporal distance is the difference modulo the 13-bit wrap |
| RmvbParser.UpdateRefFrame | mpp/codec/dec/rmvb/rmvbd_parser.c:718-757 | a B picture gets a PTS from the backward reference and its distance; an I or P picture rotates the references; nothing happens without a picture type |
| RmvbParser.BPtsWithinWrap | mpp/codec/dec/rmvb/rmvbd_parser.c:722-732 | a B picture's PTS lies within one wrap after the backward reference and matches the TR difference modulo the wrap |
| RmvbParser.RotationKeepsPictures | mpp/codec/dec/rmvb/rmvbd_parser.c:734-753 | the rotation after an I or P picture only moves the three heads: the same TR values and picture types are there before and after |
| RmvbParser.DxvaRefs | mpp/codec/dec/rmvb/rmvbd_parser.c:687-709 | a B picture with both references live uses (forward, forward, backward, backward), and any other picture points references 1 to 3 at itself |
| RmvbParser.Refer | mpp/codec/dec/rmvb/rmvbd_parser.c:807-815 | a slot is referenced exactly when it is live and not the output slot |
| RmvbParser.Parse | mpp/codec/dec/rmvb/rmvbd_parser.c:772-820 | the task is refused exactly for a B picture with fewer than two references, or for a picture other than I or FI while a skip to the next key frame is pending, judged by the new header or, when the decoder head failed, by the current head's old type; an admitted task clears the key-frame skip, is valid, rotates the references and names references different from the output; the call returns OK exactly when the task is admitted and the head succeeded |
| RmvbParser.HeadFailureAgrees | mpp/codec/dec/rmvb/rmvbd_parser.c:557-599 | a failed decoder head returns before the count is zeroed, so the as-written and corrected parsers agree there: the call returns NOK, yet with the old type admitted the task is valid and an old I or P type is counted as one more reference |
| RmvbParser.BNeedsTwoReferences | mpp/codec/dec/rmvb/rmvbd_parser.c:786-788 | a B picture is refused at the start but accepted after two reference pictures |
| RmvbParser.ParseAsWritten | mpp/codec/dec/rmvb/rmvbd_parser.c:618 | because a successful decoder head zeroes the reference count, B pictures always fail and an accepted picture leaves a count of 1; a failed head always returns NOK |
| RmvbParser.BRejectedAsWrittenWitness | mpp/codec/dec/rmvb/rmvbd_parser.c:786 | after an I and a P picture the as-written parser still refuses a B picture, which the corrected parser accepts with a reference count of 2 |
| RmvbHal.RprIndexBitsLeast | mpp/hal/vpu/rmvbd/hal_rmvbd_reg.c:115-116 | the RPR size index has the least width that can name every size, with 1 bit for a single size |
| RmvbHal.Init | mpp/hal/vpu/rmvbd/hal_rmvbd_reg.c:34-142 | as evidently intended: RV8 selects profile 0, the RV8 taps and the RPR index width; RV9 selects profile 1 and the RV9 taps; the decoding mode is 8 |
| RmvbHal.InitAsWritten | mpp/hal/vpu/rmvbd/hal_rmvbd_reg.c:38-142 | as written, the stream type and RPR count are read through a miscast pointer from cleared registers, so every stream gets profile 1 and the RV9 taps and no frame-number length |
| RmvbHal.InitAsWrittenRv8Witness | mpp/hal/vpu/rmvbd/hal_rmvbd_reg.c:38-142 | an RV8 stream with three RPR sizes gets the wrong taps, profile and frame-number length as written |
| RmvbHal.InitAsWrittenAgreesOnRv9 | mpp/hal/vpu/rmvbd/hal_rmvbd_reg.c:38-142 | the code as written and the intended init agree exactly on RV9 streams |
| RmvbHal.Scales | mpp/hal/vpu/rmvbd/hal_rmvbd_reg.c:260-261 | the scales are non-negative while the B picture lies between its references |
| RmvbHal.ScalesSplitUnit | mpp/hal/vpu/rmvbd/hal_rmvbd_reg.c:246-261 | the two scales split 1<<14 between them, losing at most one rounding step, and are exact at the end points |
| RmvbHal.GenRegs | mpp/hal/vpu/rmvbd/hal_rmvbd_reg.c:195-346 | a B picture fails exactly at zero reference distance and a P picture exactly without a backward buffer; each picture type selects its references, flags and scales |
| RmvbHal.BScalesSplitUnit | mpp/hal/vpu/rmvbd/hal_rmvbd_reg.c:242-261 | a B picture between distinct references always gets registers whose scales split the unit |
| VpuLegacy.Align | mpp/legacy/vpu_api_legacy.cpp:39-54 | the result is the least multiple of a at or above the value, or 0 when that overflows 32 bits |
| VpuLegacy.HevcHorAlign256Odd | mpp/legacy/vpu_api_legacy.cpp:56-59 | HEVC strides are odd multiples of 256 at or above the width |
| VpuLegacy.RemapToMpp | mpp/legacy/vpu_api_legacy.cpp:62-113 | exactly the known encoder input types map to a real MPP format |
| VpuLegacy.InputTypeOf | mpp/legacy/vpu_api_legacy.cpp:62-113 | the reverse map yields only known input types |
| VpuLegacy.RemapRoundTrip | mpp/legacy/vpu_api_legacy.cpp:62-113 | the reverse map recovers every known input type |
| VpuLegacy.RemapOnto | mpp/legacy/vpu_api_legacy.cpp:62-113 | the reverse map is defined exactly on the image of the forward map |
| VpuLegacy.RemapInjective | mpp/legacy/vpu_api_legacy.cpp:62-113 | no two input types share an MPP format |
| VpuLegacy.Yuv420Bytes | mpp/legacy/vpu_api_legacy.cpp:1105-1142 | the 4:2:0 frame size is w·h·3/2 rounded down |
| VpuLegacy.GetDecoderFormat | mpp/legacy/vpu_api_legacy.cpp:1105-1142 | macroblock-aligned codings align both sides to 16; HEVC aligns the width to 64 and the height to 8; other codings return −1 with no aligned geometry; the aligned frame size is the 4:2:0 size of the aligned picture |
| VpuLegacy.AlignedFrameCoversPicture | mpp/legacy/vpu_api_legacy.cpp:1105-1142 | the aligned frame is never smaller than the picture |
| VpuLegacy.LineBytes | mpp/legacy/vpu_api_legacy.cpp:1280-1332 | 10-bit lines take 10/8 of the width in bytes, rounded down, and 8-bit lines take the width |
| VpuLegacy.DefaultWidthHeight | mpp/legacy/vpu_api_legacy.cpp:1280-1332 | the format's 10-bit and 4:2:2 flags come from the width bits, and the strides cover the line bytes and height at the coding's alignments |
| VpuLegacy.WidthFieldRoundTrip | mpp/legacy/vpu_api_legacy.cpp:1280-1332 | packing a width with its flags and unpacking it gives the width and the flags back |
| VpuLegacy.FieldOrder | mpp/legacy/vpu_api_legacy.cpp:376-386 | the field-order bits are bits 2 and 3 of the mode |
| VpuLegacy.FrameType | mpp/legacy/vpu_api_legacy.cpp:376-386 | the frame type is 1, 2 or 4 exactly for top-first, bottom-first or de-interlaced modes, and 0 otherwise |
| VpuLegacy.BitOr | mpp/legacy/vpu_api_legacy.cpp:387 | the error word is 0 exactly when both inputs are 0, lies between the larger input and the sum, and keeps the low bit |
| VpuLegacy.ShowTime | mpp/legacy/vpu_api_legacy.cpp:388-389 | the time stamp halves are 32-bit words |
| VpuLegacy.ShowTimeRoundTrip | mpp/legacy/vpu_api_legacy.cpp:388-389 | the two halves recombine to the PTS taken modulo 2^64 |
| VpuLegacy.OutputFormat | mpp/legacy/vpu_api_legacy.cpp:390-415 | the 10-bit flag is set exactly for 10-bit formats, the 4:2:2 layout exactly for 4:2:2 formats, and no layout exactly for unsupported ones |
| VpuLegacy.SetupVpuFrame | mpp/legacy/vpu_api_legacy.cpp:362-431 | the VPU frame carries the display and stride sizes, the frame type, a combined error flag, the split PTS, and a memory size when a buffer exists |
| VpuLegacy.GetOutFrame | mpp/legacy/vpu_api_legacy.cpp:726-792 | without init it fails without change; once EOS is latched it stays latched; the frame count grows by one exactly for a delivered frame, which is the converted MPP frame with its PTS |
| VpuLegacy.EosLatchIgnoresDecoder | mpp/legacy/vpu_api_legacy.cpp:745-749 | after EOS the result does not depend on what the decoder would return |
| VpuLegacy.EosAfterEosFrame | mpp/legacy/vpu_api_legacy.cpp:764-769 | after an EOS frame every later call reports EOS and delivers nothing |
| VpuLegacy.GetStream | mpp/legacy/vpu_api_legacy.cpp:1144-1192 | failures pass through; without a packet the call returns −1 exactly after EOS; a packet is returned without its start code |
| VpuLegacy.GetStreamStripsStartCode | mpp/legacy/vpu_api_legacy.cpp:1168-1176 | a packet that starts with 00 00 00 01 is returned as exactly its payload |
| VpuLegacy.MpiCmdOf | mpp/legacy/vpu_api_legacy.cpp:1220-1362 | the commands that are handled locally or unknown are exactly the ones without an MPI command |
| VpuLegacy.MpiCmdInjective | mpp/legacy/vpu_api_legacy.cpp:1220-1362 | no two commands map to the same MPI command |
| VpuLegacy.Control | mpp/legacy/vpu_api_legacy.cpp:1211-1374 | without a context it returns 0; ENC_SETFORMAT returns 0; mapped commands return the MPI result; and the rest return −1 |
| MppFacade.Init | mpp/mpp.cpp:72-169 | init returns MPP_NOK exactly for an unsupported type and coding; the instance is initialised exactly when the format is supported and its queues, threads and buffer group were created, so a failed creation still returns MPP_OK; either way the queues are empty, counters zero and ports non-blocking |
| MppFacade.FailedInitRefusesPackets | mpp/mpp.cpp:72-169 | an instance whose init failed, or reported success without creating its parts, refuses every packet (put_packet checks mInitDone first, line 241); a fully created one accepts any packet whose copy succeeds |
| MppFacade.PutPacket | mpp/mpp.cpp:239-262 | an uninitialised instance refuses; a packet is accepted exactly when the queue is below its bound or the packet is EOS, and the copy succeeds; it is then appended, counted, and the caller's packet is emptied |
| MppFacade.PutPacketKeepsBounded | mpp/mpp.cpp:239-262 | putting a packet keeps the packet queue bounded |
| MppFacade.BackPressure | mpp/mpp.cpp:247 | on a full queue ordinary packets are refused and EOS packets are accepted |
| MppFacade.NonEosCount | mpp/mpp.cpp:239-262 | the number of ordinary packets never exceeds the queue length |
| MppFacade.BoundedNonEosCount | mpp/mpp.cpp:239-262 | a bounded queue holds at most the bound of ordinary packets |
| MppFacade.TakePacketKeepsBounded | mpp/mpp.cpp:247 | the decoder taking a packet keeps the queue bounded |
| MppFacade.GetFrame | mpp/mpp.cpp:264-298 | frames come out in FIFO order, one at a time, or all at once in multi-frame mode; nothing is lost and the get count tracks them |
| MppFacade.GetFramesFifo | mpp/mpp.cpp:264-298 | n calls deliver exactly the first n queued frames in order |
| MppFacade.Reset | mpp/mpp.cpp:524-576 | reset drops all frames and keeps the head packet only when it carries extra data and its re-put copy succeeds; the put count grows by that re-put; the other counters and the block settings are kept |
| MppFacade.ResetKeepsBounded | mpp/mpp.cpp:524-576 | a reset instance's queue is bounded |
| MppFacade.ResetTwice | mpp/mpp.cpp:524-576 | a second reset leaves the packet queue as the first left it |
| MppFacade.ControlMpp | mpp/mpp.cpp:579-597 | the block settings are stored, and unknown commands are refused without change |
| MppFacade.ControlDec | mpp/mpp.cpp:620-674 | stream count reports the queue length; split and fast mode set their flags; delegated commands return their result; unknown commands fail |
| MppFacade.StreamCountAfterPut | mpp/mpp.cpp:620-674 | after a successful put the stream count is one higher |
| MppFacade.PortCall | mpp/mpp.cpp:415-438 | port calls fail before init or for an unknown port, and otherwise return the port's result |
| MppFacade.RunKeepsBounded | mpp/mpp.cpp:239-262 | any sequence of puts, takes, gets, resets and controls keeps the packet queue bounded |

## Left out

- **Environment.** The model leaves out threads, signals, `msleep`, blocking waits, file dumps (`vpu_api_dump_yuv`), logging and memory allocation. The hardware wait status, the stream writer's overflow flag, rate-control decisions (`H264Calculate`, `H264InitRc`, `H264BeforePicRc`, `H264AfterPicRc`), whether `Mpp::init` could create its queues, threads and buffer group, whether `rmvb_decoder_head` recognised the stream, the encoder's coding of a frame, and the port return value in `mpp.cpp` are all parameters.
- **Buffers.** Buffer handles, IOMMU file descriptors and the address composition that combines them are plain integers. The `mpp_buffer` and slot libraries are abstract.
- **Argument guards.** The H264ENC_NULL_ARGUMENT and H264ENC_INSTANCE_ERROR returns of the encoder API calls (for example H264EncApi.c lines 235-244 and 386-395) are not modelled. The model has no pointers, and the instance is always the one passed in.
- EncAsic.FrameStart: the syntax record leaves out the fields that `EncAsicFrameStart` copies unchanged and that nothing else in the model reads: second_chroma_qp_index_offset, slice_type, frame_coding_type, slice_alpha_offset, slice_beta_offset, chroma_qp_index_offset, filter_disable, h264_inter4x4_disabled, mad_qp_delta, mad_threshold, pic_luma_width, pic_luma_height, input_image_format and the five colour-conversion coefficients (encasiccontroller.c lines 72-120).
- **Rate-control initialisation.** H264RateControl.c is not part of this model. H264EncApi.SetRateCtrl and H264EncApi.StrmStart apply `H264InitRc` as a caller-supplied function (`H264EncApi.RcInit`), so the model says nothing about the rate controller after it, for example the first QP it picks when qpHdr is -1.
- **Encoder constants.**
  - `H264E_REF_MAX` is taken as 16.
  - The `H264ENC_INTRA_FRAME` and `H264ENC_PREDICTED_FRAME` codes are taken as 0 and 1.
  - The check on bus addresses is modelled as "non-zero" only.
- **Exp-Golomb range.**
  - H264eBits.WriteUe requires v + 1 < 2^31. Above that, the source's signed `tmp` is negative and indexes `h264e_ue_size_tab` out of bounds (hal_h264e_rkv.c line 1920); the model does not say what that writes.
  - H264eBits.WriteSe requires |v| <= 32767. `write_se` has no 16-bit step (hal_h264e_rkv.c lines 1946-1950), so a larger |2v| indexes the 256-entry table out of bounds; the model does not say what that writes.
  - H264SpsVui.TimeOffsetLength: for a tick above 2^31 the model gives 32, the least width. The source's loop reaches `1U << 32` there, which C leaves undefined, so the model does not follow the source in that range.
- **Motion-vector length.** H264eSps.SetSps does not model the `log2f` motion-vector length at hal_h264e_rkv.c line 1790, because it is floating point.
- **Fixed SPS options.** The SPS fields that `set_sps` fixes off (B-frames, pyramid coding, intra refresh, interlace) are fixed as in the source. The more general derivations (H264eSps.DeriveRefCounts, H264eSps.Log2MaxFrameNum, H264eSps.Log2MaxPocLsb) take these options as parameters.
- **VP8 out of scope.**
  - Register bit packing is modelled arithmetically.
  - The possible overwrite of `reg_dct_strm_base[i-6]` without IOMMU (hal_vp8d_reg.c line 445) is not modelled.
  - The width and height passed in are 16-bit.
- **RealVideo.**
  - RmvbParser.SplitFrame: the source underflows the length for a start-code packet shorter than its header, and the model returns None there.
  - RmvbParser.ReadField: a read past the end is None and stops the parse, whereas `rmvbd_read_bits` (rmvbd_parser.c lines 375-383) returns its initial 0 when the bit reader refuses and parsing goes on with that 0; the bit reader is not part of this model.
  - RmvbParser.ReadEscape: 32-bit overflow of very long escape sums is not modelled, because the sums are unbounded naturals.
  - The RV8/RV9 frame-header readers (rmvbd_parser.c lines 449-541) are not modelled, nor are `rmvbd_parser_prepare` and frame allocation. Only the `Header` values they produce enter the model, or the fact that the decoder head failed before reading one (RmvbParser.Head).
  - Whether the backward reference has a buffer is a boolean parameter, because the source passes a frame head where a frame is expected.
- **Legacy adapter.**
  - `vpu_api.h` is not part of this model. The encoder input types are taken as the codes 0 to 13, and the VPU_API error codes are abstract.
  - VpuLegacy.SetupVpuFrame reduces `sizeof(VPU_FRAME)` checks to the presence or absence of the output structure.
  - The ENC_SETCFG and ENC_GETCFG field copying, and the output value of DEC_GET_EOS_STATUS, are not modelled.
  - `SOFIA_3GR_LINUX` is taken as undefined.
  - `perform()`, `decode()`, `encode()`, `init`, `flush`, `sendstream` and `sendframe` are left out (foreign calls and I/O).
- **MPP facade.**
  - `mMultiFrame` is never set in `mpp.cpp`, so MppFacade.GetFrame keeps it as a field.
  - `put_frame`, `get_packet` and control dispatch by module id (`control_osal`, `control_codec`, `control_enc`, `control_isp`) are not modelled.
  - MppFacade.TakePacket and MppFacade.PutFrame stand for the decoder thread's side of the queues, which is outside `mpp.cpp`.
- **Other source.** test/mpi_dec_test.c, os_allocator.c and the declaration-only headers are not modelled.

## Findings

| source | as written | input that shows it | evidently intended | confidence | as-written member | corrected member |
|---|---|---|---|---|---|---|
| mpp/codec/enc/h264/src/H264SequenceParameterSet.c:509 | the macroblock rate is computed as a signed 32-bit product of the frame rate numerator and the frame size, which overflows | 4096×2304 (36864 MBs) at 60000/2500 fps, level 5.1 | the exact rate is compared with MaxMBPS | not executed | H264SpsVui.CheckLevelAsWritten | H264SpsVui.CheckLevel |
| mpp/hal/rkdec/h264d/hal_h264d_vdpu_pkt.c:714-723 | the `used & 0x3` test is true for any non-zero value, so a reference with a single field takes the minimum of both POCs | only the bottom field used for reference, with a smaller top POC | a reference with a single field uses that field's POC | not executed | H264dVdpu.RefAttrAsWritten | H264dVdpu.RefAttrCorrected |
| mpp/hal/vpu/vp8d/hal_vp8d_reg.c:471-473 | case 7 writes `dct_start_bit_6`, so slot 6 is overwritten and slot 7 is never set | VP8 inter frame with 8 partitions at offsets 0,0,0,0,0,0,1,2 | case 7 writes `dct_start_bit_7` | not executed | Vp8dRegs.StartBitsFromAsWritten, Vp8dRegs.StartBitsEightPartitionsWitness | Vp8dRegs.Partitions |
| mpp/codec/dec/rmvb/rmvbd_parser.c:618 | the decoder head zeroes `ref_frame_cnt` on every picture, so the check at line 786 rejects every B picture | I, P, then B picture | the reference count accumulates across pictures | not executed | RmvbParser.ParseAsWritten | RmvbParser.Parse |
| mpp/hal/vpu/rmvbd/hal_rmvbd_reg.c:38 | the HAL context is cast to the parser's syntax record, so `isRV8` and `pic_rpr_num` are read from the cleared register block | any RV8 stream, for instance with three RPR sizes | the stream type and RPR count come from the parsed stream | not executed | RmvbHal.InitAsWritten | RmvbHal.Init |

=== FILE: common.dfy ===
/** Small arithmetic and bit-sequence helpers shared by every component model:
    powers of two, floor log2, clamping, C-style truncating division, unsigned
    32-bit wrap-around, alignment, and most-significant-bit-first bit strings. */
module Common {

  /** A value that may be absent: the model of a nullable pointer or of a
      lookup that can fail. */
  datatype Option<+T> = None | Some(value: T)

  /** A single bit of a bitstream. */
  type Bit = b: int | 0 <= b <= 1

  /** An 8-bit byte. */
  type Byte = b: int | 0 <= b < 256

  const U32: int := 0x1_0000_0000

  /** An unsigned 32-bit value (RK_U32). */
  type Word = w: int | 0 <= w < 0x1_0000_0000

  /** A 16-bit unsigned value. */
  type U16 = w: int | 0 <= w < 0x10000

  function Pow2(n: nat): (r: nat)
    ensures r >= 1
    ensures n >= 1 ==> r % 2 == 0
  {
    if n == 0 then 1 else 2 * Pow2(n - 1)
  }

  lemma Pow2Values()
    ensures Pow2(1) == 2 && Pow2(2) == 4 && Pow2(3) == 8 && Pow2(4) == 16
    ensures Pow2(5) == 32 && Pow2(6) == 64 && Pow2(7) == 128 && Pow2(8) == 256
    ensures Pow2(14) == 0x4000 && Pow2(16) == 0x10000 && Pow2(31) == 0x8000_0000
    ensures Pow2(32) == U32
  {
    assert Pow2(8) == 256;
    assert Pow2(16) == 0x10000;
    assert Pow2(24) == 0x100_0000;
    assert Pow2(31) == 0x8000_0000;
  }

  lemma {:induction false} Pow2Add(a: nat, b: nat)
    ensures Pow2(a + b) == Pow2(a) * Pow2(b)
  {
    if a > 0 {
      Pow2Add(a - 1, b);
    }
  }

  lemma {:induction false} Pow2Monotone(a: nat, b: nat)
    requires a <= b
    ensures Pow2(a) <= Pow2(b)
  {
    if a < b {
      Pow2Monotone(a, b - 1);
    }
  }

  /** Floor of the base-2 logarithm of a positive number. */
  function Log2(x: nat): (r: nat)
    requires x >= 1
    ensures Pow2(r) <= x < Pow2(r + 1)
  {
    if x < 2 then 0 else 1 + Log2(x / 2)
  }

  /** Log2 is characterised by the power-of-two interval it selects. */
  lemma {:induction false} Log2Unique(x: nat, k: nat)
    requires Pow2(k) <= x < Pow2(k + 1)
    ensures Log2(x) == k
  {
    var l := Log2(x);
    if l < k {
      Pow2Monotone(l + 1, k);
    } else if l > k {
      Pow2Monotone(k + 1, l);
    }
  }

  /** CLIP3(lo, hi, x) */
  function Clamp(lo: int, hi: int, x: int): (r: int)
    requires lo <= hi
    ensures lo <= r <= hi
    ensures lo <= x <= hi ==> r == x
    ensures x < lo ==> r == lo
    ensures x > hi ==> r == hi
  {
    if x < lo then lo else if x > hi then hi else x
  }

  /** C integer division, which truncates toward zero (Dafny's `/` is Euclidean). */
  function CDiv(a: int, b: int): (q: int)
    requires b > 0
    ensures a >= 0 ==> q == a / b
    ensures a < 0 ==> q == -((-a) / b)
  {
    if a >= 0 then a / b else -((-a) / b)
  }

  lemma MulAtLeast(k: int, d: int)
    requires k >= 1 && d > 0
    ensures k * d >= d
  {
    assert (k - 1) * d >= 0;
  }

  lemma MulAssoc(a: int, b: int, c: int)
    ensures a * b * c == a * (b * c)
  {
  }

  lemma AppendAssoc<T>(a: seq<T>, b: seq<T>, c: seq<T>)
    ensures a + (b + c) == (a + b) + c
  {
  }

  /** A present pair with the given components is that pair. */
  lemma SomePair<A, B>(o: Option<(A, B)>, a: A, b: B)
    requires o.Some? && o.value.0 == a && o.value.1 == b
    ensures o == Some((a, b))
  {
  }

  /** A non-negative quotient never exceeds its dividend. */
  lemma DivAtMost(p: int, d: int)
    requires p >= 0 && d > 0
    ensures 0 <= p / d <= p
  {
    var q := p / d;
    assert q * d + p % d == p;
    if q > 0 {
      MulAtLeast(d, q);
    }
  }

  /** Division with remainder is unique. */
  lemma DivModUnique(v: int, d: int, q: int, m: int)
    requires d > 0 && 0 <= m < d
    requires v == q * d + m
    ensures v / d == q && v % d == m
  {
    var q0 := v / d;
    var m0 := v % d;
    assert v == q0 * d + m0;
    if q0 < q {
      assert (q - q0) * d == m0 - m;
      MulAtLeast(q - q0, d);
    } else if q0 > q {
      assert (q0 - q) * d == m - m0;
      MulAtLeast(q0 - q, d);
    }
  }

  function Abs(x: int): (r: nat)
    ensures r == x || r == -x
  {
    if x < 0 then -x else x
  }

  /** MPP_ALIGN(x, a) on an unsigned 32-bit value: (x + a - 1) & ~(a - 1),
      with the wrap-around of the 32-bit addition; `a` is a power of two, so
      clearing the low bits rounds down to a multiple of `a`. */
  function AlignU32(x: nat, a: nat): (r: nat)
    requires x < U32
    requires 1 <= a < U32
    ensures r % a == 0
  {
    var s: nat := if x + a - 1 < U32 then x + a - 1 else x + a - 1 - U32;
    var m := s % a;
    RoundDown(s, a);
    s - m
  }

  /** Without wrap-around, AlignU32 is the least multiple of `a` that is at
      least `x`. */
  lemma AlignU32Least(x: nat, a: nat)
    requires x < U32 && 1 <= a < U32
    requires x + a - 1 < U32
    ensures x <= AlignU32(x, a) < x + a
  {
    RoundDown(x + a - 1, a);
  }

  /** Clearing the remainder rounds down to a multiple. */
  lemma RoundDown(s: nat, a: nat)
    requires a >= 1
    ensures (s - s % a) % a == 0
    ensures s - a < s - s % a <= s
    ensures s % a <= s
  {
    var k := s / a;
    assert s - s % a == k * a;
    DivModUnique(k * a, a, k, 0);
  }

  /** The `n` low bits of `v`, most significant first. */
  function ToBits(v: nat, n: nat): (r: seq<Bit>)
    ensures |r| == n
  {
    if n == 0 then [] else ToBits(v / 2, n - 1) + [v % 2]
  }

  /** The unsigned value of a most-significant-first bit string. */
  function FromBits(s: seq<Bit>): (r: nat)
    ensures r < Pow2(|s|)
  {
    if |s| == 0 then 0 else 2 * FromBits(s[..|s| - 1]) + s[|s| - 1]
  }

  /** `x >> k` on a non-negative value. */
  function Shr(x: nat, k: nat): (r: nat)
    ensures r <= x
  {
    if k == 0 then x else Shr(x / 2, k - 1)
  }

  /** Shifting right by k lowers the floor log2 by k while the value stays
      at least 2^k. */
  lemma {:induction false} Log2Shr(x: nat, k: nat)
    requires x >= Pow2(k)
    ensures Shr(x, k) >= 1
    ensures Log2(Shr(x, k)) + k == Log2(x)
  {
    if k > 0 {
      Log2Shr(x / 2, k - 1);
    }
  }

  /** Shifting right by k divides the bound 2^m by 2^k. */
  lemma {:induction false} ShrBound(x: nat, k: nat, m: nat)
    requires k <= m && x < Pow2(m)
    ensures Shr(x, k) < Pow2(m - k)
  {
    if k > 0 {
      ShrBound(x / 2, k - 1, m - 1);
    }
  }

  lemma Log2Bound(x: nat, m: nat)
    requires 1 <= x < Pow2(m)
    ensures Log2(x) < m
  {
    if Log2(x) >= m {
      Pow2Monotone(m, Log2(x));
    }
  }

  function Zeros(n: nat): (r: seq<Bit>)
    ensures |r| == n
    ensures forall i :: 0 <= i < n ==> r[i] == 0
  {
    if n == 0 then [] else Zeros(n - 1) + [0]
  }

  /** Reading back `n` written bits yields the value modulo 2^n. */
  lemma {:induction false} FromToBits(v: nat, n: nat)
    ensures FromBits(ToBits(v, n)) == v % Pow2(n)
  {
    if n > 0 {
      var s := ToBits(v, n);
      assert s[..n - 1] == ToBits(v / 2, n - 1);
      FromToBits(v / 2, n - 1);
      DivModPow2(v, n);
    }
  }

  /** A value that fits in `n` bits is read back exactly. */
  lemma FromToBitsExact(v: nat, n: nat)
    requires v < Pow2(n)
    ensures FromBits(ToBits(v, n)) == v
  {
    FromToBits(v, n);
    DivModUnique(v, Pow2(n), 0, v);
  }

  lemma DivModPow2(v: nat, n: nat)
    requires n >= 1
    ensures v % Pow2(n) == 2 * ((v / 2) % Pow2(n - 1)) + v % 2
  {
    var p := Pow2(n - 1);
    var q := (v / 2) / p;
    var m := (v / 2) % p;
    assert v / 2 == q * p + m;
    assert v == 2 * (v / 2) + v % 2;
    assert v == q * (2 * p) + (2 * m + v % 2);
    DivModUnique(v, 2 * p, q, 2 * m + v % 2);
  }

  /** A field whose first bit is 1 holds at least 2^(length-1). */
  lemma {:induction false} FromBitsLeadingOne(s: seq<Bit>)
    requires |s| >= 1 && s[0] == 1
    ensures FromBits(s) >= Pow2(|s| - 1)
  {
    if |s| > 1 {
      FromBitsLeadingOne(s[..|s| - 1]);
    }
  }

  /** Writing a value into a wider field pads it with leading zeros. */
  lemma {:induction false} ToBitsPad(v: nat, n: nat, m: nat)
    requires v < Pow2(n)
    ensures ToBits(v, n + m) == Zeros(m) + ToBits(v, n)
  {
    if n == 0 {
      ToBitsZero(m);
    } else {
      ToBitsPad(v / 2, n - 1, m);
      assert ToBits(v, n + m) == ToBits(v / 2, n - 1 + m) + [v % 2];
    }
  }

  lemma {:induction false} ToBitsZero(m: nat)
    ensures ToBits(0, m) == Zeros(m)
  {
    if m > 0 {
      ToBitsZero(m - 1);
    }
  }

  /** The leading bit of an n+1 bit field holding a value in [2^n, 2^(n+1)) is 1. */
  lemma {:induction false} ToBitsLeadingOne(v: nat, n: nat)
    requires Pow2(n) <= v < Pow2(n + 1)
    ensures ToBits(v, n + 1)[0] == 1
  {
    if n > 0 {
      assert Pow2(n - 1) <= v / 2 < Pow2(n);
      ToBitsLeadingOne(v / 2, n - 1);
    }
  }

  /** A big-endian byte string as bits. */
  function BytesToBits(bs: seq<Byte>): (r: seq<Bit>)
    ensures |r| == 8 * |bs|
  {
    if |bs| == 0 then [] else ToBits(bs[0], 8) + BytesToBits(bs[1..])
  }

  /** The frame pixel formats of the media process platform: the YUV family
      is numbered from 0, the RGB family from 0x10000; MPP_FMT_BUTT closes
      the RGB family and marks "no format". */
  datatype MppFmt =
    | Yuv420sp | Yuv420sp10Bit | Yuv422sp | Yuv422sp10Bit | Yuv420p
    | Yuv420spVu | Yuv422p | Yuv422spVu | Yuv422Yuyv | Yuv422Uyvy
    | Rgb565 | Bgr565 | Rgb555 | Bgr555 | Rgb444 | Bgr444
    | Rgb888 | Bgr888 | Rgb101010 | Bgr101010 | Argb8888 | Abgr8888
    | FmtButt

  const FmtRgbBase: int := 0x10000

  /** The numeric value of a format in the C enumeration. */
  function FmtCode(f: MppFmt): (c: nat)
    ensures c < FmtRgbBase <==> f.Yuv420sp? || f.Yuv420sp10Bit? || f.Yuv422sp? || f.Yuv422sp10Bit?
                                || f.Yuv420p? || f.Yuv420spVu? || f.Yuv422p? || f.Yuv422spVu?
                                || f.Yuv422Yuyv? || f.Yuv422Uyvy?
    ensures c <= FmtRgbBase + 12
  {
    match f
    case Yuv420sp => 0
    case Yuv420sp10Bit => 1
    case Yuv422sp => 2
    case Yuv422sp10Bit => 3
    case Yuv420p => 4
    case Yuv420spVu => 5
    case Yuv422p => 6
    case Yuv422spVu => 7
    case Yuv422Yuyv => 8
    case Yuv422Uyvy => 9
    case Rgb565 => FmtRgbBase
    case Bgr565 => FmtRgbBase + 1
    case Rgb555 => FmtRgbBase + 2
    case Bgr555 => FmtRgbBase + 3
    case Rgb444 => FmtRgbBase + 4
    case Bgr444 => FmtRgbBase + 5
    case Rgb888 => FmtRgbBase + 6
    case Bgr888 => FmtRgbBase + 7
    case Rgb101010 => FmtRgbBase + 8
    case Bgr101010 => FmtRgbBase + 9
    case Argb8888 => FmtRgbBase + 10
    case Abgr8888 => FmtRgbBase + 11
    case FmtButt => FmtRgbBase + 12
  }

  /** The format a raw enumeration value denotes, if any. */
  function FmtOfCode(c: int): (r: Option<MppFmt>)
    ensures r.Some? ==> FmtCode(r.value) == c
  {
    if 0 <= c < 10 then
      Some([Yuv420sp, Yuv420sp10Bit, Yuv422sp, Yuv422sp10Bit, Yuv420p,
            Yuv420spVu, Yuv422p, Yuv422spVu, Yuv422Yuyv, Yuv422Uyvy][c])
    else if FmtRgbBase <= c <= FmtRgbBase + 12 then
      Some([Rgb565, Bgr565, Rgb555, Bgr555, Rgb444, Bgr444, Rgb888, Bgr888,
            Rgb101010, Bgr101010, Argb8888, Abgr8888, FmtButt][c - FmtRgbBase])
    else None
  }

  /** Every format has exactly one code, and decoding the code gives it back. */
  lemma FmtCodeRoundTrip(f: MppFmt)
    ensures FmtOfCode(FmtCode(f)) == Some(f)
  {
  }
  /** The loop "start at n, step while 2^n <= bound": the least field width
      from n on whose range exceeds bound. */
  function LeastWidthAbove(n: nat, bound: int): (r: nat)
    ensures r >= n && Pow2(r) > bound
    ensures forall k :: n <= k < r ==> Pow2(k) <= bound
    decreases if bound < Pow2(n) then 0 else bound - Pow2(n) + 1
  {
    if Pow2(n) > bound then n else LeastWidthAbove(n + 1, bound)
  }

  /** The width is the unique one with 2^(r-1) <= bound < 2^r once it has
      grown past the start. */
  lemma {:induction false} LeastWidthIsLog2(n: nat, bound: int)
    requires bound >= Pow2(n)
    ensures LeastWidthAbove(n, bound) == Log2(bound) + 1
  {
    var r := LeastWidthAbove(n, bound);
    assert r > n;
    assert Pow2(r - 1) <= bound;
    Log2Unique(bound, r - 1);
  }


  /** Shifting one place further halves the shifted value. */
  lemma {:induction false} ShrStep(x: nat, k: nat)
    ensures Shr(x, k + 1) == Shr(x, k) / 2
  {
    if k > 0 {
      ShrStep(x / 2, k - 1);
    }
  }

  /** `x >> k` is division by 2^k. */
  lemma {:induction false} ShrDiv(x: nat, k: nat)
    ensures Shr(x, k) == x / Pow2(k)
  {
    if k > 0 {
      ShrDiv(x / 2, k - 1);
      HalfThenDiv(x, Pow2(k - 1));
    }
  }

  /** Halving and then dividing by p is dividing by 2p. */
  lemma HalfThenDiv(x: nat, p: nat)
    requires p > 0
    ensures (x / 2) / p == x / (2 * p)
  {
    var q := (x / 2) / p;
    var m := (x / 2) % p;
    assert x == q * (2 * p) + (2 * m + x % 2) by {
      assert x == 2 * (x / 2) + x % 2;
      assert x / 2 == q * p + m;
      assert 2 * (q * p + m) == q * (2 * p) + 2 * m;
    }
    DivModUnique(x, 2 * p, q, 2 * m + x % 2);
  }

  /** `(x >> k) << k` clears the k low bits: the greatest multiple of 2^k
      not above x. */
  lemma ShrShl(x: nat, k: nat)
    ensures Shr(x, k) * Pow2(k) <= x < Shr(x, k) * Pow2(k) + Pow2(k)
    ensures (Shr(x, k) * Pow2(k)) % Pow2(k) == 0
  {
    var p := Pow2(k);
    assert Shr(x, k) == x / p by {
      ShrDiv(x, k);
    }
    assert (x / p) * p == x - x % p;
    RoundDown(x, p);
  }
}

=== FILE: enc_asic.dfy ===
/** The hand-off from the H.264 encoder instance to the hardware layer: the
    controller's register defaults and the per-frame syntax record filled in
    from the slice, picture-parameter and rate-control state. */
module EncAsic {
  import opened Common
  import H264EncApi

  /** The register values the controller owns.  cpTarget, targetError and
      deltaQp are the checkpoint tables; cpTargetPresent says whether the
      checkpoint pointer is set. */
  datatype Regs = Regs(
    cpDistanceMbs: nat, inputLumBase: nat, inputCbBase: nat, inputCrBase: nat,
    outputStrmBase: nat, outputStrmSize: nat,
    cpTargetPresent: bool, cpTarget: seq<int>, targetError: seq<int>, deltaQp: seq<int>)

  /** Table sizes copied when checkpoints are in use. */
  const CpTargetCount: nat := 10
  const TargetErrorCount: nat := 6
  const DeltaQpCount: nat := 7

  /** EncAsicControllerInit: the checkpoint distance and the three input
      plane addresses start at zero; everything else is left as it was. */
  function ControllerInit(r: Regs): (r': Regs)
    ensures r'.cpDistanceMbs == 0 && r'.inputLumBase == 0 && r'.inputCbBase == 0 && r'.inputCrBase == 0
    ensures r'.outputStrmBase == r.outputStrmBase && r'.outputStrmSize == r.outputStrmSize
    ensures r'.cpTargetPresent == r.cpTargetPresent && r'.cpTarget == r.cpTarget
    ensures r'.targetError == r.targetError && r'.deltaQp == r.deltaQp
  {
    r.(cpDistanceMbs := 0, inputLumBase := 0, inputCbBase := 0, inputCrBase := 0)
  }

  /** The per-frame syntax record handed to the hardware layer. */
  datatype Syntax = Syntax(
    picOrderCntLsb: nat, picInitQp: int, idrPicId: nat, ppsId: nat, frameNum: nat,
    sliceSizeMbRows: nat, enableCabac: bool, transform8x8Mode: bool, cabacInitIdc: nat,
    qp: int, qpMin: nat, qpMax: nat, mbRcMode: bool, cpDistanceMbs: nat,
    cpTarget: seq<int>, targetError: seq<int>, deltaQp: seq<int>,
    outputStrmLimitSize: nat, outputStrmAddr: nat,
    inputLumaAddr: nat, inputCbAddr: nat, inputCrAddr: nat)

  /** The checkpoint tables as they leave the frame start: the first 10, 6
      and 7 entries come from the registers when the checkpoint pointer is
      set; otherwise the previous record's tables stay. */
  function CopyPrefix(dst: seq<int>, src: seq<int>, n: nat): (r: seq<int>)
    requires n <= |src|
    ensures |r| == if |dst| >= n then |dst| else n
    ensures forall i :: 0 <= i < n ==> r[i] == src[i]
    ensures forall i :: n <= i < |dst| ==> r[i] == dst[i]
  {
    if |dst| >= n then src[..n] + dst[n..] else src[..n]
  }

  /** EncAsicFrameStart.  The register block must hold complete checkpoint
      tables whenever the checkpoint pointer is set, and the picture is at
      least one macroblock wide. */
  function FrameStart(prev: Syntax, e: H264EncApi.Enc, val: Regs): (s: Syntax)
    requires e.mbPerRow > 0
    requires val.cpTargetPresent ==>
               |val.cpTarget| >= CpTargetCount && |val.targetError| >= TargetErrorCount
               && |val.deltaQp| >= DeltaQpCount
    ensures s.picOrderCntLsb == 2 * e.slice.frameNum && s.frameNum == e.slice.frameNum
    ensures s.picInitQp == e.picInitQpMinus26 + 26
    ensures s.ppsId == 0 && s.idrPicId == e.slice.idrPicId
    ensures s.sliceSizeMbRows * e.mbPerRow <= e.slice.sliceSize < (s.sliceSizeMbRows + 1) * e.mbPerRow
    ensures s.enableCabac == e.cabac && s.transform8x8Mode == e.transform8x8
    ensures s.cabacInitIdc == (if e.cabac then e.slice.cabacInitIdc else 0)
    ensures s.qp == e.rc.qpHdr && s.qpMin == e.rc.qpMin && s.qpMax == e.rc.qpMax && s.mbRcMode == e.rc.mbRc
    ensures s.cpDistanceMbs == val.cpDistanceMbs
    ensures !val.cpTargetPresent ==>
              s.cpTarget == prev.cpTarget && s.targetError == prev.targetError && s.deltaQp == prev.deltaQp
    ensures val.cpTargetPresent ==>
              && |s.cpTarget| >= CpTargetCount && |s.targetError| >= TargetErrorCount
              && |s.deltaQp| >= DeltaQpCount
              && (forall i :: 0 <= i < CpTargetCount ==> s.cpTarget[i] == val.cpTarget[i])
              && (forall i :: 0 <= i < TargetErrorCount ==> s.targetError[i] == val.targetError[i])
              && (forall i :: 0 <= i < DeltaQpCount ==> s.deltaQp[i] == val.deltaQp[i])
    ensures s.inputLumaAddr == val.inputLumBase && s.inputCbAddr == val.inputCbBase
            && s.inputCrAddr == val.inputCrBase
    ensures s.outputStrmAddr == val.outputStrmBase && s.outputStrmLimitSize == val.outputStrmSize
  {
    var rows := e.slice.sliceSize / e.mbPerRow;
    DivModUnique(e.slice.sliceSize, e.mbPerRow, rows, e.slice.sliceSize % e.mbPerRow);
    var cp := if val.cpTargetPresent then CopyPrefix(prev.cpTarget, val.cpTarget, CpTargetCount) else prev.cpTarget;
    var te := if val.cpTargetPresent then CopyPrefix(prev.targetError, val.targetError, TargetErrorCount)
              else prev.targetError;
    var dq := if val.cpTargetPresent then CopyPrefix(prev.deltaQp, val.deltaQp, DeltaQpCount) else prev.deltaQp;
    Syntax(
      picOrderCntLsb := 2 * e.slice.frameNum,
      picInitQp := e.picInitQpMinus26 + 26,
      idrPicId := e.slice.idrPicId,
      ppsId := 0,
      frameNum := e.slice.frameNum,
      sliceSizeMbRows := rows,
      enableCabac := e.cabac,
      transform8x8Mode := e.transform8x8,
      cabacInitIdc := if e.cabac then e.slice.cabacInitIdc else 0,
      qp := e.rc.qpHdr, qpMin := e.rc.qpMin, qpMax := e.rc.qpMax, mbRcMode := e.rc.mbRc,
      cpDistanceMbs := val.cpDistanceMbs,
      cpTarget := cp, targetError := te, deltaQp := dq,
      outputStrmLimitSize := val.outputStrmSize, outputStrmAddr := val.outputStrmBase,
      inputLumaAddr := val.inputLumBase, inputCbAddr := val.inputCbBase, inputCrAddr := val.inputCrBase)
  }

  /** The slice size set in macroblock rows through the coding control
      reaches the hardware as the same number of rows. */
  lemma SliceRowsRoundTrip(e: H264EncApi.Enc, p: H264EncApi.CodingCtrl, prev: Syntax, val: Regs)
    requires e.mbPerRow > 0
    requires H264EncApi.SetCodingCtrl(e, p).0 == H264EncApi.Ok
    requires val.cpTargetPresent ==>
               |val.cpTarget| >= CpTargetCount && |val.targetError| >= TargetErrorCount
               && |val.deltaQp| >= DeltaQpCount
    ensures FrameStart(prev, H264EncApi.SetCodingCtrl(e, p).1, val).sliceSizeMbRows == p.sliceSize
  {
    var e1 := H264EncApi.SetCodingCtrl(e, p).1;
    assert e1.mbPerRow == e.mbPerRow;
    DivModUnique(p.sliceSize * e.mbPerRow, e.mbPerRow, p.sliceSize, 0);
  }

  /** The QP of the first frame, stored in the PPS as pic_init_qp_minus26
      when the stream starts, reaches the hardware unchanged. */
  lemma PicInitQpRoundTrip(e: H264EncApi.Enc, outBufSize: nat, prev: Syntax, val: Regs, initRc: H264EncApi.RcInit)
    requires e.mbPerRow > 0
    requires e.rc.hrd ==> e.sps.vui.timeScale != 0 && e.sps.vui.numUnitsInTick != 0
    requires H264EncApi.StrmStart(e, true, outBufSize, false, initRc).0 == H264EncApi.Ok
    requires val.cpTargetPresent ==>
               |val.cpTarget| >= CpTargetCount && |val.targetError| >= TargetErrorCount
               && |val.deltaQp| >= DeltaQpCount
    ensures FrameStart(prev, H264EncApi.StrmStart(e, true, outBufSize, false, initRc).1, val).picInitQp == e.rc.qpHdr
  {
  }

  /** With frame_num below 2^n, pic_order_cnt_lsb = 2 * frame_num fits the
      n + 1 bits of its field and is even. */
  lemma PocLsbFits(e: H264EncApi.Enc, prev: Syntax, val: Regs)
    requires e.mbPerRow > 0 && H264EncApi.Inv(e)
    requires val.cpTargetPresent ==>
               |val.cpTarget| >= CpTargetCount && |val.targetError| >= TargetErrorCount
               && |val.deltaQp| >= DeltaQpCount
    ensures FrameStart(prev, e, val).picOrderCntLsb < Pow2(e.slice.frameNumBits + 1)
    ensures FrameStart(prev, e, val).picOrderCntLsb % 2 == 0
  {
    Pow2Add(e.slice.frameNumBits, 1);
    Pow2Values();
  }
}

=== FILE: h264_enc_api.dfy ===
/** The on-chip H.264 encoder's application interface as a state machine:
    coding and rate-control parameter validation, SEI user data, and the
    stream status sequence INIT -> START_STREAM -> START_FRAME -> INIT with a
    terminal ERROR, together with the frame_num and idr_pic_id counters.
    Rate control, frame coding and stream-buffer writing are done by code
    outside this model; their outcomes enter as parameters. */
module H264EncApi {
  import opened Common
  import H264SpsVui

  const StrmStartMinBuf: nat := 64
  const StrmEncodeMinBuf: nat := 4096
  /** The level 4.1 bit-rate limit, 50000 * 1200 bits per second. */
  const MaxBitrate: nat := 60000000
  const MaxUserDataSize: nat := 2048
  const IdrIdModulo: nat := 16

  /** Picture coding types as the caller passes them. */
  const IntraFrame: nat := 0
  const PredictedFrame: nat := 1

  datatype EncStatus = Init | StartStream | StartFrame | Error

  datatype EncRet =
    | Ok | FrameReady | InvalidArgument | InvalidStatus | OutputBufferOverflow
    | SystemError | HwTimeout

  datatype NalType = Idr | NonIdr

  /** Rate-control and SEI state the interface sets. */
  datatype RateCtrl = RateCtrl(
    picRc: bool, mbRc: bool, picSkip: bool, hrd: bool, roiRc: bool,
    qpHdr: int, qpMin: nat, qpMax: nat, bitRate: nat, bufferSize: nat, gopLen: int,
    intraQpDelta: int, fixedIntraQp: nat, mbQpAdjustment: int,
    outRateNum: nat, outRateDenom: nat,
    seiEnabled: bool, userDataEnabled: bool, userData: seq<Byte>)

  /** Slice-level counters and flags. */
  datatype Slice = Slice(
    frameNum: nat, prevFrameNum: nat, frameNumBits: nat, idrPicId: nat,
    nalUnitType: NalType, sliceSize: nat, cabacInitIdc: nat, disableDeblocking: nat)

  /** The encoder instance.  hrdBitRate and hrdCpbSize are the HRD values
      held in the sequence parameter set's VUI. */
  datatype Enc = Enc(
    status: EncStatus,
    mbPerRow: nat, mbPerCol: nat, mbPerFrame: nat, levelIdx: nat,
    profileIdc: int, cabac: bool, transform8x8: bool, constIntraPred: bool,
    picInitQpMinus26: int, inputFormat: MppFmt, videoStab: bool,
    sps: H264SpsVui.SpsVuiState, hrdBitRate: nat, hrdCpbSize: nat,
    rc: RateCtrl, slice: Slice, frameCnt: nat)

  /** The counters stay within their syntax elements: idr_pic_id below 16,
      frame_num (and the saved copy) below 2^log2_max_frame_num, and the
      level index inside the level tables. */
  predicate Inv(e: Enc)
  {
    && e.slice.idrPicId < IdrIdModulo
    && e.slice.frameNum < Pow2(e.slice.frameNumBits)
    && e.slice.prevFrameNum < Pow2(e.slice.frameNumBits)
    && e.levelIdx < H264SpsVui.LevelCount
  }

  // ---------------------------------------------------------------------
  // Coding control

  datatype CodingCtrl = CodingCtrl(
    sliceSize: nat, constrainedIntraPrediction: nat, disableDeblockingFilter: nat,
    enableCabac: nat, transform8x8Mode: nat, seiMessages: nat, videoFullRange: nat,
    sampleAspectRatioWidth: nat, sampleAspectRatioHeight: nat, cabacInitIdc: nat)

  /** The flag and range checks on coding parameters made before the stream
      starts. */
  predicate CodingCtrlValid(p: CodingCtrl)
  {
    && p.constrainedIntraPrediction <= 1 && p.disableDeblockingFilter <= 2 && p.enableCabac <= 1
    && p.transform8x8Mode <= 2 && p.seiMessages <= 1 && p.videoFullRange <= 1
    && p.sampleAspectRatioWidth <= 65535 && p.sampleAspectRatioHeight <= 65535
    && p.cabacInitIdc <= 2
  }

  /** H264EncSetCodingCtrl.  The slice size, in macroblock rows, may not
      exceed the picture height; once the stream has started only the slice
      size changes.  Otherwise every coding flag is checked and stored, and
      the aspect ratio and full-range flag go to the VUI. */
  function SetCodingCtrl(e: Enc, p: CodingCtrl): (r: (EncRet, Enc))
    ensures r.0 == Ok <==> p.sliceSize <= e.mbPerCol && (e.status != Init || CodingCtrlValid(p))
    ensures r.0 != Ok ==> r.0 == InvalidArgument && r.1 == e
    ensures r.0 == Ok ==> r.1.slice.sliceSize == p.sliceSize * e.mbPerRow && r.1.status == e.status
    ensures r.0 == Ok && e.status != Init ==>
              r.1 == e.(slice := e.slice.(sliceSize := p.sliceSize * e.mbPerRow))
    ensures r.0 == Ok && e.status == Init ==>
              && r.1.cabac == (p.enableCabac != 0)
              && r.1.constIntraPred == (p.constrainedIntraPrediction != 0)
              && r.1.rc.seiEnabled == (p.seiMessages != 0)
              && r.1.slice.disableDeblocking == p.disableDeblockingFilter
              && r.1.slice.cabacInitIdc == (if p.enableCabac != 0 then p.cabacInitIdc else e.slice.cabacInitIdc)
              && r.1.sps.vui.sarWidth == p.sampleAspectRatioWidth
              && r.1.sps.vui.sarHeight == p.sampleAspectRatioHeight
              && r.1.sps.vui.videoFullRange == p.videoFullRange
              && r.1.rc.hrd == e.rc.hrd && r.1.slice.frameNum == e.slice.frameNum
  {
    if p.sliceSize > e.mbPerCol then (InvalidArgument, e)
    else if e.status != Init then (Ok, e.(slice := e.slice.(sliceSize := p.sliceSize * e.mbPerRow)))
    else if !CodingCtrlValid(p) then (InvalidArgument, e)
    else
      var t8x8 := p.transform8x8Mode == 2 || (p.transform8x8Mode == 1 && e.mbPerFrame >= 3600);
      var sps := H264SpsVui.SetVideoInfo(
                   H264SpsVui.SetAspectRatio(e.sps, p.sampleAspectRatioWidth, p.sampleAspectRatioHeight),
                   p.videoFullRange);
      var sl := e.slice.(disableDeblocking := p.disableDeblockingFilter,
                         cabacInitIdc := if p.enableCabac != 0 then p.cabacInitIdc else e.slice.cabacInitIdc,
                         sliceSize := p.sliceSize * e.mbPerRow);
      (Ok, e.(constIntraPred := p.constrainedIntraPrediction != 0,
              cabac := p.enableCabac != 0,
              transform8x8 := e.transform8x8 || t8x8,
              sps := sps,
              rc := e.rc.(seiEnabled := p.seiMessages != 0),
              slice := sl))
  }

  /** 8x8 transform: mode 2 always enables it, mode 1 only for pictures of
      at least 3600 macroblocks (720p and up); this call never disables it. */
  lemma Transform8x8Adaptive(e: Enc, p: CodingCtrl)
    requires e.status == Init && p.sliceSize <= e.mbPerCol && CodingCtrlValid(p)
    ensures SetCodingCtrl(e, p).1.transform8x8 <==>
              (e.transform8x8 || p.transform8x8Mode == 2 || (p.transform8x8Mode == 1 && e.mbPerFrame >= 3600))
  {
  }

  // ---------------------------------------------------------------------
  // Rate control

  datatype RateCtrlParams = RateCtrlParams(
    pictureRc: nat, mbRc: nat, pictureSkip: nat, hrd: nat,
    qpHdr: int, qpMin: nat, qpMax: nat, intraQpDelta: int, fixedIntraQp: nat, gopLen: int,
    bitPerSecond: nat, hrdCpbSize: nat, mbQpAdjustment: int)

  /** The parameter checks of H264EncSetRateCtrl that do not depend on the
      instance: flags are 0 or 1; QPs lie in 0..51 with qpMin <= qpMax; the
      header QP is -1 (rate control chooses) or within [qpMin, qpMax]; the
      intra QP delta passes the unsigned test on delta + 12 (see
      IntraQpDeltaTest); the GOP length lies in 1..150; a bit rate in
      10000..60000000 is needed once any rate control is on. */
  predicate RateParamsValid(p: RateCtrlParams)
  {
    && p.pictureRc <= 1 && p.mbRc <= 1 && p.pictureSkip <= 1 && p.hrd <= 1
    && p.qpHdr <= 51 && p.qpMin <= 51 && p.qpMax <= 51 && p.qpMax >= p.qpMin
    && (p.qpHdr == -1 || p.qpMin <= p.qpHdr <= p.qpMax)
    && (p.intraQpDelta + 12) % U32 <= 24
    && p.fixedIntraQp <= 51
    && 1 <= p.gopLen <= 150
    && ((p.pictureRc != 0 || p.mbRc != 0 || p.pictureSkip != 0 || p.hrd != 0) ==>
          10000 <= p.bitPerSecond <= MaxBitrate)
  }

  /** The unsigned test on delta + 12 is the interval -12..12 for every
      32-bit signed delta. */
  lemma IntraQpDeltaTest(d: int)
    requires -0x8000_0000 <= d < 0x8000_0000
    ensures (d + 12) % U32 <= 24 <==> -12 <= d <= 12
  {
    if d < -12 {
      DivModUnique(d + 12, U32, -1, d + 12 + U32);
    } else {
      DivModUnique(d + 12, U32, 0, d + 12);
    }
  }

  /** The external H264Calculate(a, b, c), a * b / c computed without
      overflow, supplied by the caller. */
  type Calc = (nat, nat, nat) -> nat

  /** The CPB size before rounding: zero asks for the level maximum, all
      ones for one second at the bit rate, anything else is taken as is;
      the result is at least one frame's worth of bits. */
  function CpbRequest(cpbSize: nat, bps: nat, levelIdx: nat, frameBits: nat): (c: nat)
    requires levelIdx < H264SpsVui.LevelCount
    ensures c >= frameBits
    ensures cpbSize == 0 ==> c >= H264SpsVui.MaxCpbs[levelIdx]
    ensures cpbSize == U32 - 1 ==> c >= bps
    ensures cpbSize != 0 && cpbSize != U32 - 1 ==> c >= cpbSize
    ensures c == frameBits || (cpbSize == 0 && c == H264SpsVui.MaxCpbs[levelIdx])
            || (cpbSize == U32 - 1 && c == bps) || (cpbSize != 0 && cpbSize != U32 - 1 && c == cpbSize)
  {
    var c0: nat := if cpbSize == 0 then H264SpsVui.MaxCpbs[levelIdx] else if cpbSize == U32 - 1 then bps else cpbSize;
    if c0 >= frameBits then c0 else frameBits
  }

  /** The bit rate kept: at most half the rate of raw 4:2:0 video. */
  function CapBitRate(bitPerSecond: nat, mbPerFrame: nat, rateNum: nat, rateDenom: nat, mulDiv: Calc): (bps: nat)
    ensures bps <= bitPerSecond
    ensures bps <= mulDiv(3 * 8 * mbPerFrame * 256 / 2, rateNum, rateDenom) / 2
    ensures bps == bitPerSecond || bps == mulDiv(3 * 8 * mbPerFrame * 256 / 2, rateNum, rateDenom) / 2
  {
    var half := mulDiv(3 * 8 * mbPerFrame * 256 / 2, rateNum, rateDenom) / 2;
    if bitPerSecond > half then half else bitPerSecond
  }

  /** The external H264InitRc, which rebuilds the rate controller's working
      state from its parameters (choosing, for example, the first QP when
      qpHdr is -1).  Its result is supplied by the caller. */
  type RcInit = RateCtrl -> RateCtrl

  /** The rate-control parameters H264EncSetRateCtrl stores before it hands
      them to H264InitRc.  The bit rate is capped and the CPB size is
      resolved, raised to one frame of bits and rounded down to what the HRD
      syntax can express.  HRD forces picture rate control on, and
      macroblock rate control is refused while ROI rate control is active;
      nothing outside these fields changes. */
  function Configured(e: Enc, p: RateCtrlParams, mulDiv: Calc): (rc: RateCtrl)
    requires e.levelIdx < H264SpsVui.LevelCount
    ensures && rc.picRc == (p.pictureRc != 0 || p.hrd != 0)
            && rc.mbRc == (p.mbRc != 0 && !e.rc.roiRc)
            && rc.picSkip == (p.pictureSkip != 0)
            && rc.hrd == (p.hrd != 0)
            && rc.qpHdr == p.qpHdr && rc.qpMin == p.qpMin && rc.qpMax == p.qpMax
            && rc.gopLen == p.gopLen
            && rc.intraQpDelta == p.intraQpDelta && rc.fixedIntraQp == p.fixedIntraQp
            && rc.bitRate <= p.bitPerSecond
            && H264SpsVui.CpbSizeRound(rc.bufferSize).value == rc.bufferSize
    ensures var bps := CapBitRate(p.bitPerSecond, e.mbPerFrame, e.rc.outRateNum, e.rc.outRateDenom, mulDiv);
            && rc.bitRate == bps
            && rc.bufferSize
               == H264SpsVui.CpbSizeRound(
                    CpbRequest(p.hrdCpbSize, bps, e.levelIdx, mulDiv(bps, e.rc.outRateDenom, e.rc.outRateNum))).value
            && rc.mbQpAdjustment == p.mbQpAdjustment
    ensures rc.(picRc := e.rc.picRc, mbRc := e.rc.mbRc, picSkip := e.rc.picSkip, hrd := e.rc.hrd,
                qpHdr := e.rc.qpHdr, qpMin := e.rc.qpMin, qpMax := e.rc.qpMax,
                bitRate := e.rc.bitRate, bufferSize := e.rc.bufferSize, gopLen := e.rc.gopLen,
                intraQpDelta := e.rc.intraQpDelta, fixedIntraQp := e.rc.fixedIntraQp,
                mbQpAdjustment := e.rc.mbQpAdjustment) == e.rc
  {
    var bps := CapBitRate(p.bitPerSecond, e.mbPerFrame, e.rc.outRateNum, e.rc.outRateDenom, mulDiv);
    var request := CpbRequest(p.hrdCpbSize, bps, e.levelIdx, mulDiv(bps, e.rc.outRateDenom, e.rc.outRateNum));
    H264SpsVui.HrdRoundIdempotent(request, 4);
    e.rc.(picRc := p.pictureRc != 0 || p.hrd != 0,
          mbRc := p.mbRc != 0 && !e.rc.roiRc,
          picSkip := p.pictureSkip != 0,
          hrd := p.hrd != 0,
          qpHdr := p.qpHdr, qpMin := p.qpMin, qpMax := p.qpMax,
          bitRate := bps, bufferSize := H264SpsVui.CpbSizeRound(request).value, gopLen := p.gopLen,
          intraQpDelta := p.intraQpDelta, fixedIntraQp := p.fixedIntraQp,
          mbQpAdjustment := p.mbQpAdjustment)
  }

  /** H264EncSetRateCtrl.  After a stream started with HRD no change is
      allowed, and invalid parameters are refused.  With HRD on, the
      configured bit rate and CPB size must then fit the level.  Accepted
      parameters go through H264InitRc, and the instance keeps its
      result. */
  function SetRateCtrl(e: Enc, p: RateCtrlParams, mulDiv: Calc, initRc: RcInit): (r: (EncRet, Enc))
    requires e.levelIdx < H264SpsVui.LevelCount
    ensures e.status == StartFrame && e.rc.hrd ==> r == (InvalidStatus, e)
    ensures !(e.status == StartFrame && e.rc.hrd) && !RateParamsValid(p) ==> r == (InvalidArgument, e)
    ensures r.0 != Ok ==> r.1 == e && (r.0 == InvalidStatus || r.0 == InvalidArgument)
    ensures r.0 == Ok ==> RateParamsValid(p) && r.1 == e.(rc := initRc(Configured(e, p, mulDiv)))
    ensures r.0 == Ok && p.hrd != 0 ==>
              Configured(e, p, mulDiv).bufferSize <= H264SpsVui.MaxCpbs[e.levelIdx]
              && Configured(e, p, mulDiv).bitRate <= H264SpsVui.MaxBr[e.levelIdx]
  {
    if e.status == StartFrame && e.rc.hrd then (InvalidStatus, e)
    else if !RateParamsValid(p) then (InvalidArgument, e)
    else
      var rc := Configured(e, p, mulDiv);
      if p.hrd != 0 && (rc.bufferSize > H264SpsVui.MaxCpbs[e.levelIdx] || rc.bitRate > H264SpsVui.MaxBr[e.levelIdx]) then
        (InvalidArgument, e)
      else
        (Ok, e.(rc := initRc(rc)))
  }

  /** The rate-control parameters are accepted exactly when the status
      allows a change, the parameters are valid and, with HRD on, the
      capped bit rate and the rounded CPB size fit the level. */
  lemma SetRateCtrlAccepts(e: Enc, p: RateCtrlParams, mulDiv: Calc, initRc: RcInit)
    requires e.levelIdx < H264SpsVui.LevelCount
    ensures var bps := CapBitRate(p.bitPerSecond, e.mbPerFrame, e.rc.outRateNum, e.rc.outRateDenom, mulDiv);
            var cpb := H264SpsVui.CpbSizeRound(
                         CpbRequest(p.hrdCpbSize, bps, e.levelIdx, mulDiv(bps, e.rc.outRateDenom, e.rc.outRateNum))).value;
            SetRateCtrl(e, p, mulDiv, initRc).0 == Ok <==>
              && !(e.status == StartFrame && e.rc.hrd) && RateParamsValid(p)
              && (p.hrd != 0 ==> cpb <= H264SpsVui.MaxCpbs[e.levelIdx] && bps <= H264SpsVui.MaxBr[e.levelIdx])
  {
  }

  // ---------------------------------------------------------------------
  // SEI user data

  /** H264EncSetSeiUserData: user data of 16..2048 bytes is attached to the
      following frames; any other size disables it. */
  function SetSeiUserData(e: Enc, data: seq<Byte>): (r: (EncRet, Enc))
    ensures r.0 == Ok
    ensures r.1.rc.userDataEnabled <==> 16 <= |data| <= MaxUserDataSize
    ensures r.1.rc.userData == (if r.1.rc.userDataEnabled then data else [])
    ensures r.1 == e.(rc := e.rc.(userDataEnabled := r.1.rc.userDataEnabled, userData := r.1.rc.userData))
  {
    if |data| < 16 || |data| > MaxUserDataSize then
      (Ok, e.(rc := e.rc.(userDataEnabled := false, userData := [])))
    else
      (Ok, e.(rc := e.rc.(userDataEnabled := true, userData := data)))
  }

  // ---------------------------------------------------------------------
  // Stream start

  const ProfileBaseline: int := 66
  const ProfileMain: int := 77
  const ProfileHigh: int := 100

  /** The profile the stream is written with: the configured one when it is
      Baseline, Main or High (Baseline otherwise), raised to Main by CABAC
      and to High by the 8x8 transform. */
  function SelectProfile(profileIdc: int, cabac: bool, transform8x8: bool): (r: int)
    ensures r == ProfileBaseline || r == ProfileMain || r == ProfileHigh
    ensures r == ProfileHigh <==> transform8x8 || (profileIdc == ProfileHigh && !cabac)
    ensures r == ProfileMain <==> !transform8x8 && (cabac || profileIdc == ProfileMain)
    ensures (!transform8x8 && !cabac
             && (profileIdc == ProfileBaseline || profileIdc == ProfileMain || profileIdc == ProfileHigh))
            ==> r == profileIdc
  {
    var p0 := if profileIdc != ProfileBaseline && profileIdc != ProfileMain && profileIdc != ProfileHigh
              then ProfileBaseline else profileIdc;
    var p1 := if cabac then ProfileMain else p0;
    if transform8x8 then ProfileHigh else p1
  }

  /** The HRD part of the sequence parameter set after it is written: the
      writer rounds both values to what the syntax can carry and stores the
      rounded values back. */
  function WrittenHrd(bitRate: nat, cpbSize: nat): (r: (nat, nat))
    ensures r.0 <= bitRate && r.1 <= cpbSize
    ensures H264SpsVui.BitRateRound(r.0).value == r.0 && H264SpsVui.CpbSizeRound(r.1).value == r.1
    ensures H264SpsVui.CpbSizeRound(cpbSize).value == cpbSize ==> r.1 == cpbSize
  {
    H264SpsVui.HrdRoundIdempotent(bitRate, 6);
    H264SpsVui.HrdRoundIdempotent(cpbSize, 4);
    (H264SpsVui.BitRateRound(bitRate).value, H264SpsVui.CpbSizeRound(cpbSize).value)
  }

  /** H264EncStrmStart.  Allowed only in INIT with an output buffer of at
      least 64 bytes.  The profile is selected, SEI switches on
      pic_struct_present_flag, HRD switches on the VUI HRD parameters with
      the rate-control bit rate and CPB size, and the PPS takes the header
      QP.  If the headers overflow the buffer these settings stay but the
      status does not change; otherwise the stream starts at frame_num 0,
      and rate control takes over the HRD values as written, going through
      H264InitRc again when they differ from its own.  The overflow is
      decided by the stream writer, outside this model. */
  function StrmStart(e: Enc, outBufPresent: bool, outBufSize: nat, overflow: bool, initRc: RcInit): (r: (EncRet, Enc))
    requires e.rc.hrd ==> e.sps.vui.timeScale != 0 && e.sps.vui.numUnitsInTick != 0
    ensures e.status != Init ==> r == (InvalidStatus, e)
    ensures e.status == Init && (!outBufPresent || outBufSize < StrmStartMinBuf) ==> r == (InvalidArgument, e)
    ensures r.0 == Ok <==> e.status == Init && outBufPresent && outBufSize >= StrmStartMinBuf && !overflow
    ensures r.0 == OutputBufferOverflow ==> r.1.status == Init
    ensures r.0 == Ok ==> r.1.status == StartStream && r.1.slice.frameNum == 0
  {
    if e.status != Init then (InvalidStatus, e)
    else if !outBufPresent || outBufSize < StrmStartMinBuf then (InvalidArgument, e)
    else
      var sps1 := if e.rc.seiEnabled then H264SpsVui.SetPictStructPresent(e.sps, 1) else e.sps;
      var sps2 := if e.rc.hrd then H264SpsVui.SetHrd(sps1, 1) else sps1;
      var sps3 := H264SpsVui.UpdateVuiPresence(sps2);
      var hrd := if e.rc.hrd then WrittenHrd(e.rc.bitRate, e.rc.bufferSize) else (e.hrdBitRate, e.hrdCpbSize);
      var e1 := e.(profileIdc := SelectProfile(e.profileIdc, e.cabac, e.transform8x8),
                   sps := sps3, hrdBitRate := hrd.0, hrdCpbSize := hrd.1,
                   picInitQpMinus26 := e.rc.qpHdr - 26);
      if overflow then (OutputBufferOverflow, e1)
      else
        var rc := if e.rc.hrd && (e.rc.bitRate != hrd.0 || e.rc.bufferSize != hrd.1)
                  then initRc(e1.rc.(bitRate := hrd.0, bufferSize := hrd.1)) else e1.rc;
        (Ok, e1.(status := StartStream, slice := e1.slice.(frameNum := 0), rc := rc))
  }

  /** Whether or not the headers fit, a started stream carries the selected
      profile, the header QP in the PPS, pic_struct_present_flag under SEI
      and the VUI HRD parameters under HRD. */
  lemma StrmStartHeaders(e: Enc, outBufPresent: bool, outBufSize: nat, overflow: bool, initRc: RcInit)
    requires e.rc.hrd ==> e.sps.vui.timeScale != 0 && e.sps.vui.numUnitsInTick != 0
    requires StrmStart(e, outBufPresent, outBufSize, overflow, initRc).0 in {Ok, OutputBufferOverflow}
    ensures var e1 := StrmStart(e, outBufPresent, outBufSize, overflow, initRc).1;
            && e1.profileIdc == SelectProfile(e.profileIdc, e.cabac, e.transform8x8)
            && e1.picInitQpMinus26 == e.rc.qpHdr - 26
            && (e.rc.seiEnabled ==> e1.sps.vui.pictStructPresent == 1)
            && (e.rc.hrd ==> e1.sps.vui.nalHrdPresent == 1 && e1.sps.vuiParametersPresent)
            && (e1.sps.vuiParametersPresent <==>
                  (e.sps.vuiParametersPresent || e.rc.hrd) && !H264SpsVui.VuiEmpty(e1.sps.vui))
  {
  }

  /** After a successful start with HRD the SPS carries HRD values that
      never exceed the configured ones.  Rate control keeps its state when
      they are the same and is initialised again with them when they
      differ; without HRD it is untouched. */
  lemma StrmStartRateCtrl(e: Enc, outBufPresent: bool, outBufSize: nat, overflow: bool, initRc: RcInit)
    requires e.rc.hrd ==> e.sps.vui.timeScale != 0 && e.sps.vui.numUnitsInTick != 0
    requires StrmStart(e, outBufPresent, outBufSize, overflow, initRc).0 == Ok
    ensures var e1 := StrmStart(e, outBufPresent, outBufSize, overflow, initRc).1;
            && (e.rc.hrd ==> e1.hrdBitRate <= e.rc.bitRate && e1.hrdCpbSize <= e.rc.bufferSize)
            && (e.rc.hrd && e1.hrdBitRate == e.rc.bitRate && e1.hrdCpbSize == e.rc.bufferSize ==> e1.rc == e.rc)
            && (e.rc.hrd && (e1.hrdBitRate != e.rc.bitRate || e1.hrdCpbSize != e.rc.bufferSize) ==>
                  e1.rc == initRc(e.rc.(bitRate := e1.hrdBitRate, bufferSize := e1.hrdCpbSize)))
            && (!e.rc.hrd ==> e1.rc == e.rc)
  {
  }

  /** A CPB size already rounded to what the syntax carries, as Configured
      makes it, is written into the SPS unchanged; if the bit rate is
      rounded too, starting the stream does not initialise rate control
      again. */
  lemma StartKeepsCpbSize(e: Enc, outBufSize: nat, initRc: RcInit)
    requires e.status == Init && outBufSize >= StrmStartMinBuf && e.rc.hrd
    requires e.sps.vui.timeScale != 0 && e.sps.vui.numUnitsInTick != 0
    requires H264SpsVui.CpbSizeRound(e.rc.bufferSize).value == e.rc.bufferSize
    ensures StrmStart(e, true, outBufSize, false, initRc).1.hrdCpbSize == e.rc.bufferSize
    ensures H264SpsVui.BitRateRound(e.rc.bitRate).value == e.rc.bitRate ==>
              StrmStart(e, true, outBufSize, false, initRc).1.rc == e.rc
  {
  }

  // ---------------------------------------------------------------------
  // Encoding a picture

  /** The caller's buffers for one picture; zero is an invalid bus address. */
  datatype EncIn = EncIn(
    busOutBuf: nat, outBufPresent: bool, outBufSize: nat, codingType: nat,
    busLuma: nat, busChromaU: nat, busChromaV: nat, busLumaStab: nat)

  /** The input planes each input format needs: three for planar 4:2:0, two
      for semi-planar 4:2:0, luma only for the other listed formats; the
      10-bit semi-planar formats are not accepted. */
  predicate BusesValid(fmt: MppFmt, inp: EncIn)
  {
    match fmt
    case Yuv420p => inp.busChromaV != 0 && inp.busChromaU != 0 && inp.busLuma != 0
    case Yuv420sp | Yuv420spVu => inp.busChromaU != 0 && inp.busLuma != 0
    case Yuv420sp10Bit | Yuv422sp10Bit | FmtButt => false
    case _ => inp.busLuma != 0
  }

  /** The input check falls through from planar to semi-planar to the
      single-plane formats: each step adds exactly one chroma plane to the
      next one's requirement, every accepted format needs a luma plane, and
      the 10-bit semi-planar formats and the terminator are refused. */
  lemma BusesValidFallThrough(inp: EncIn)
    ensures BusesValid(Yuv420p, inp) <==> inp.busChromaV != 0 && BusesValid(Yuv420sp, inp)
    ensures BusesValid(Yuv420sp, inp) <==> inp.busChromaU != 0 && BusesValid(Yuv422p, inp)
    ensures BusesValid(Yuv420spVu, inp) <==> BusesValid(Yuv420sp, inp)
    ensures BusesValid(Yuv422p, inp) <==> inp.busLuma != 0
    ensures !BusesValid(Yuv420sp10Bit, inp) && !BusesValid(Yuv422sp10Bit, inp) && !BusesValid(FmtButt, inp)
    ensures forall fmt :: BusesValid(fmt, inp) ==> inp.busLuma != 0
  {
  }

  /** The checks H264EncStrmEncode makes on its input. */
  predicate EncInValid(e: Enc, inp: EncIn)
  {
    && inp.busOutBuf != 0 && inp.outBufPresent && inp.outBufSize >= StrmEncodeMinBuf
    && inp.codingType <= PredictedFrame
    && BusesValid(e.inputFormat, inp)
    && (e.videoStab ==> inp.busLumaStab != 0)
  }

  /** H264EncStrmEncode.  Allowed after the stream started.  The first
      picture of a stream is always intra; an intra picture is an IDR with
      frame_num 0.  When rate control skips the picture frame_num is
      restored.  Whether the stream buffer is accepted and whether rate
      control codes the picture are decided outside this model. */
  function StrmEncode(e: Enc, inp: EncIn, setBufferOk: bool, frameCoded: bool): (r: (EncRet, Enc))
    ensures e.status != StartStream && e.status != StartFrame ==> r == (InvalidStatus, e)
    ensures r.0 == FrameReady <==>
              (e.status == StartStream || e.status == StartFrame) && EncInValid(e, inp) && setBufferOk
    ensures r.0 != FrameReady ==> r.1 == e
    ensures r.1.status == e.status && r.1.slice.frameNumBits == e.slice.frameNumBits
    ensures r.0 == FrameReady ==> r.1.slice.prevFrameNum == e.slice.frameNum
    ensures r.0 == FrameReady ==>
              (r.1.slice.nalUnitType == Idr <==> e.status == StartStream || inp.codingType == IntraFrame)
    ensures r.0 == FrameReady && !frameCoded ==> r.1.slice.frameNum == e.slice.frameNum
    ensures r.0 == FrameReady && frameCoded ==>
              r.1.slice.frameNum == (if r.1.slice.nalUnitType == Idr then 0 else e.slice.frameNum)
  {
    if e.status != StartStream && e.status != StartFrame then (InvalidStatus, e)
    else if !EncInValid(e, inp) || !setBufferOk then (InvalidArgument, e)
    else
      var intra := e.status == StartStream || inp.codingType == IntraFrame;
      var sl := e.slice.(prevFrameNum := e.slice.frameNum,
                         nalUnitType := if intra then Idr else NonIdr,
                         frameNum := if intra then 0 else e.slice.frameNum);
      if !frameCoded then (FrameReady, e.(slice := sl.(frameNum := sl.prevFrameNum)))
      else (FrameReady, e.(slice := sl))
  }

  /** The outcome of waiting for the hardware. */
  datatype WaitResult = WaitOk | WaitNok | WaitTimeout

  /** idr_pic_id after an IDR picture: one more, back to 0 at 16. */
  function NextIdrPicId(id: nat): (r: nat)
    requires id < IdrIdModulo
    ensures r < IdrIdModulo && r == (id + 1) % IdrIdModulo
  {
    if id + 1 == IdrIdModulo then 0 else id + 1
  }

  /** H264EncStrmEncodeAfter.  A failed wait is a system error, which stops
      the encoder, or a timeout.  A stream-buffer overflow or an HRD
      overflow found by rate control discards the picture; the latter also
      puts frame_num back.  Otherwise idr_pic_id advances after an IDR,
      frame_num advances modulo 2^log2_max_frame_num, and the status
      becomes START_FRAME.  The hardware status is always read as frame
      ready, so the buffer-full and hardware-error branches are dead. */
  function StrmEncodeAfter(e: Enc, wait: WaitResult, overflow: bool, rcOverflow: bool): (r: (EncRet, Enc))
    requires Inv(e)
    ensures wait == WaitNok ==> r == (SystemError, e.(status := Error))
    ensures wait == WaitTimeout ==> r == (HwTimeout, e)
    ensures wait == WaitOk && overflow ==> r == (OutputBufferOverflow, e)
    ensures wait == WaitOk && !overflow && rcOverflow ==>
              r == (FrameReady, e.(slice := e.slice.(frameNum := e.slice.prevFrameNum)))
    ensures wait == WaitOk && !overflow && !rcOverflow ==>
              && r.0 == FrameReady && r.1.status == StartFrame
              && r.1.frameCnt == e.frameCnt + 1
              && r.1.slice.frameNum == (e.slice.frameNum + 1) % Pow2(e.slice.frameNumBits)
              && r.1.slice.idrPicId ==
                   (if e.slice.nalUnitType == Idr then (e.slice.idrPicId + 1) % IdrIdModulo else e.slice.idrPicId)
    ensures Inv(r.1)
  {
    if wait == WaitNok then (SystemError, e.(status := Error))
    else if wait == WaitTimeout then (HwTimeout, e)
    else if overflow then (OutputBufferOverflow, e)
    else if rcOverflow then (FrameReady, e.(slice := e.slice.(frameNum := e.slice.prevFrameNum)))
    else
      var idr := if e.slice.nalUnitType == Idr then NextIdrPicId(e.slice.idrPicId) else e.slice.idrPicId;
      (FrameReady, e.(frameCnt := e.frameCnt + 1, status := StartFrame,
                      slice := e.slice.(idrPicId := idr,
                                        frameNum := (e.slice.frameNum + 1) % Pow2(e.slice.frameNumBits))))
  }

  // ---------------------------------------------------------------------
  // Stream end

  /** H264EncStrmEnd: allowed after the stream started, with an output
      buffer of at least 64 bytes the stream writer accepts; the status
      returns to INIT. */
  function StrmEnd(e: Enc, outBufPresent: bool, outBufSize: nat, setBufferOk: bool): (r: (EncRet, Enc))
    ensures r.0 == Ok <==>
              (e.status == StartStream || e.status == StartFrame)
              && outBufPresent && outBufSize >= StrmStartMinBuf && setBufferOk
    ensures e.status != StartStream && e.status != StartFrame ==> r == (InvalidStatus, e)
    ensures r.0 == Ok ==> r.1 == e.(status := Init)
    ensures r.0 != Ok ==> r.1 == e
  {
    if e.status != StartFrame && e.status != StartStream then (InvalidStatus, e)
    else if !outBufPresent || outBufSize < StrmStartMinBuf || !setBufferOk then (InvalidArgument, e)
    else (Ok, e.(status := Init))
  }

  // ---------------------------------------------------------------------
  // Whole-interface properties

  /** One interface call, with the outcomes of the code outside the model
      as its arguments. */
  datatype Call =
    | CallSetCodingCtrl(cc: CodingCtrl)
    | CallSetRateCtrl(rp: RateCtrlParams, mulDiv: Calc, rateInit: RcInit)
    | CallSetSeiUserData(data: seq<Byte>)
    | CallStrmStart(startBufPresent: bool, startBufSize: nat, startOverflow: bool, startInit: RcInit)
    | CallStrmEncode(inp: EncIn, setBufferOk: bool, frameCoded: bool)
    | CallStrmEncodeAfter(wait: WaitResult, afterOverflow: bool, rcOverflow: bool)
    | CallStrmEnd(endBufPresent: bool, endBufSize: nat, endBufferOk: bool)

  /** What the caller must ensure before a call. */
  predicate CallAllowed(e: Enc, c: Call)
  {
    match c
    case CallSetRateCtrl(_, _, _) => e.levelIdx < H264SpsVui.LevelCount
    case CallStrmStart(_, _, _, _) => e.rc.hrd ==> e.sps.vui.timeScale != 0 && e.sps.vui.numUnitsInTick != 0
    case CallStrmEncodeAfter(_, _, _) => Inv(e)
    case _ => true
  }

  function Step(e: Enc, c: Call): (r: (EncRet, Enc))
    requires CallAllowed(e, c)
  {
    match c
    case CallSetCodingCtrl(cc) => SetCodingCtrl(e, cc)
    case CallSetRateCtrl(rp, mulDiv, init) => SetRateCtrl(e, rp, mulDiv, init)
    case CallSetSeiUserData(data) => SetSeiUserData(e, data)
    case CallStrmStart(present, size, overflow, init) => StrmStart(e, present, size, overflow, init)
    case CallStrmEncode(inp, ok, coded) => StrmEncode(e, inp, ok, coded)
    case CallStrmEncodeAfter(wait, overflow, rcOverflow) => StrmEncodeAfter(e, wait, overflow, rcOverflow)
    case CallStrmEnd(present, size, ok) => StrmEnd(e, present, size, ok)
  }

  /** ERROR is kept by every call except the post-encode step, and the
      stream calls refuse to run in it.  The post-encode step has no status
      check: a good wait with no overflow moves ERROR to START_FRAME. */
  lemma ErrorIsSticky(e: Enc, c: Call)
    requires CallAllowed(e, c) && e.status == Error
    ensures Step(e, c).1.status == Error
            <==> !(c.CallStrmEncodeAfter? && c.wait == WaitOk && !c.afterOverflow && !c.rcOverflow)
    ensures Step(e, c).1.status != Error ==> Step(e, c).1.status == StartFrame
    ensures c.CallStrmStart? || c.CallStrmEncode? || c.CallStrmEnd? ==> Step(e, c) == (InvalidStatus, e)
  {
  }

  /** Every call keeps the counters within their syntax elements. */
  lemma StepKeepsInv(e: Enc, c: Call)
    requires CallAllowed(e, c) && Inv(e)
    ensures Inv(Step(e, c).1)
  {
    match c
    case CallSetCodingCtrl(cc) => SetCodingCtrlKeepsInv(e, cc);
    case CallSetRateCtrl(rp, mulDiv, init) => SetRateCtrlKeepsInv(e, rp, mulDiv, init);
    case CallSetSeiUserData(data) =>
    case CallStrmStart(present, size, overflow, init) => StrmStartKeepsInv(e, present, size, overflow, init);
    case CallStrmEncode(inp, ok, coded) => StrmEncodeKeepsInv(e, inp, ok, coded);
    case CallStrmEncodeAfter(wait, overflow, rcOverflow) =>
    case CallStrmEnd(present, size, ok) =>
  }

  lemma SetCodingCtrlKeepsInv(e: Enc, cc: CodingCtrl)
    requires Inv(e)
    ensures Inv(SetCodingCtrl(e, cc).1)
  {
    Pow2Values();
  }

  lemma SetRateCtrlKeepsInv(e: Enc, rp: RateCtrlParams, mulDiv: Calc, initRc: RcInit)
    requires e.levelIdx < H264SpsVui.LevelCount && Inv(e)
    ensures Inv(SetRateCtrl(e, rp, mulDiv, initRc).1)
  {
    Pow2Values();
  }

  lemma StrmStartKeepsInv(e: Enc, present: bool, size: nat, overflow: bool, initRc: RcInit)
    requires e.rc.hrd ==> e.sps.vui.timeScale != 0 && e.sps.vui.numUnitsInTick != 0
    requires Inv(e)
    ensures Inv(StrmStart(e, present, size, overflow, initRc).1)
  {
    Pow2Values();
  }

  lemma StrmEncodeKeepsInv(e: Enc, inp: EncIn, ok: bool, coded: bool)
    requires Inv(e)
    ensures Inv(StrmEncode(e, inp, ok, coded).1)
  {
    Pow2Values();
  }

  /** The status moves only along these edges: INIT -> START_STREAM by a
      stream start, START_STREAM or START_FRAME -> INIT by a stream end,
      and by the post-encode step to START_FRAME on a good wait (from any
      status, the source does not check it) or to ERROR on a failed
      wait. */
  lemma StatusTransitions(e: Enc, c: Call)
    requires CallAllowed(e, c)
    ensures var s := Step(e, c).1.status;
            s == e.status
            || (e.status == Init && s == StartStream && c.CallStrmStart?)
            || ((e.status == StartStream || e.status == StartFrame) && s == Init && c.CallStrmEnd?)
            || (s == StartFrame && c.CallStrmEncodeAfter? && c.wait == WaitOk)
            || (s == Error && c.CallStrmEncodeAfter? && c.wait == WaitNok)
  {
  }

  /** The first picture of every stream is an IDR picture with frame_num 0. */
  lemma FirstPictureIsIdr(e: Enc, outBufSize: nat, inp: EncIn, setBufferOk: bool, initRc: RcInit)
    requires e.rc.hrd ==> e.sps.vui.timeScale != 0 && e.sps.vui.numUnitsInTick != 0
    requires StrmStart(e, true, outBufSize, false, initRc).0 == Ok
    requires StrmEncode(StrmStart(e, true, outBufSize, false, initRc).1, inp, setBufferOk, true).0 == FrameReady
    ensures StrmEncode(StrmStart(e, true, outBufSize, false, initRc).1, inp, setBufferOk, true).1.slice.nalUnitType == Idr
    ensures StrmEncode(StrmStart(e, true, outBufSize, false, initRc).1, inp, setBufferOk, true).1.slice.frameNum == 0
  {
  }
}

=== FILE: h264_sps_vui.dfy ===
/** Sequence parameter set helpers of the on-chip H.264 encoder: the
    aspect_ratio_idc lookup of Table E-1, the Annex A level tables and level
    check, the VUI presence bookkeeping and its setters, the HRD parameter
    set-up and the bit-rate / CPB-size rounding applied when the HRD
    parameters are written (section E.2.2 of ITU-T H.264). */
module H264SpsVui {
  import opened Common
  import H264eBits

  // ---------------------------------------------------------------------
  // Sample aspect ratio

  const ExtendedSar: int := 255

  /** Table E-1 of ITU-T H.264: the sample aspect ratio, as written
      (width, height), for aspect_ratio_idc 1..13; entry 0 is "unspecified". */
  const SarTable: seq<(int, int)> :=
    [(0, 0), (1, 1), (12, 11), (10, 11), (16, 11), (40, 33), (24, 11), (20, 11),
     (32, 11), (80, 33), (18, 11), (15, 11), (64, 33), (160, 99)]

  /** aspect_ratio_idc for a sample aspect ratio: 0 when a part is zero, 1
      for any square ratio, the Table E-1 index when the pair is listed
      there, and Extended_SAR otherwise. */
  function AspectRatioIdc(sarWidth: int, sarHeight: int): (r: int)
    ensures r == 0 <==> sarWidth == 0 || sarHeight == 0
    ensures sarWidth != 0 && sarHeight != 0 && sarWidth == sarHeight ==> r == 1
    ensures 2 <= r <= 13 ==> SarTable[r] == (sarWidth, sarHeight)
    ensures forall k :: 2 <= k <= 13 && SarTable[k] == (sarWidth, sarHeight) ==> r == k
    ensures r in {0, 1, ExtendedSar} || 2 <= r <= 13
  {
    if sarWidth == 0 || sarHeight == 0 then 0
    else if sarWidth == sarHeight then 1
    else if sarHeight == 11 then
      if sarWidth == 12 then 2
      else if sarWidth == 10 then 3
      else if sarWidth == 16 then 4
      else if sarWidth == 24 then 6
      else if sarWidth == 20 then 7
      else if sarWidth == 32 then 8
      else if sarWidth == 18 then 10
      else if sarWidth == 15 then 11
      else ExtendedSar
    else if sarHeight == 33 then
      if sarWidth == 40 then 5
      else if sarWidth == 80 then 9
      else if sarWidth == 64 then 12
      else ExtendedSar
    else if sarWidth == 160 && sarHeight == 99 then 13
    else ExtendedSar
  }

  /** Extended_SAR is chosen exactly for the ratios that have no table
      entry. */
  lemma ExtendedSarIff(sarWidth: int, sarHeight: int)
    ensures AspectRatioIdc(sarWidth, sarHeight) == ExtendedSar <==>
              sarWidth != 0 && sarHeight != 0 && sarWidth != sarHeight
              && forall k :: 2 <= k <= 13 ==> SarTable[k] != (sarWidth, sarHeight)
  {
  }

  // ---------------------------------------------------------------------
  // Levels (Annex A of ITU-T H.264)

  const LevelIdcTable: seq<int> := [10, 11, 12, 13, 20, 21, 22, 30, 31, 32, 40, 41, 42, 50, 51]

  /** Largest decoded frame, in macroblocks, per level. */
  const MaxFs: seq<int> := [99, 396, 396, 396, 396, 792, 1620, 1620, 3600, 5120, 8192, 8192, 8192, 22080, 36864]

  /** sqrt(8 * MaxFS): the largest picture side, in macroblocks, per level. */
  const SqrtMaxFs8: seq<int> := [28, 56, 56, 56, 56, 79, 113, 113, 169, 202, 256, 256, 256, 420, 543]

  /** Largest macroblock processing rate per level. */
  const MaxMbps: seq<int> := [1485, 3000, 6000, 11880, 11880, 19800, 20250, 40500, 108000, 216000,
                              245760, 245760, 491520, 589824, 983040]

  /** Largest coded picture buffer size per level. */
  const MaxCpbs: seq<int> := [210000, 600000, 1200000, 2400000, 2400000, 4800000, 4800000, 12000000,
                              16800000, 24000000, 30000000, 75000000, 75000000, 162000000, 288000000]

  /** Largest bit rate per level. */
  const MaxBr: seq<int> := [76800, 230400, 460800, 921600, 2400000, 4800000, 4800000, 12000000,
                            16800000, 24000000, 24000000, 60000000, 60000000, 162000000, 288000000]

  const LevelCount: nat := 15

  /** The index of a level_idc in the level tables, or None for a level the
      encoder does not know. */
  method GetLevelIndex(levelIdc: int) returns (r: Option<nat>)
    ensures r.Some? ==> r.value < LevelCount && LevelIdcTable[r.value] == levelIdc
    ensures r.None? <==> levelIdc !in LevelIdcTable
  {
    var i := 0;
    while LevelIdcTable[i] != levelIdc
      invariant 0 <= i < LevelCount
      invariant forall k :: 0 <= k < i ==> LevelIdcTable[k] != levelIdc
      decreases LevelCount - i
    {
      i := i + 1;
      if i >= LevelCount {
        return None;
      }
    }
    return Some(i);
  }

  /** The macroblock rate frameRateNum * frameSize / frameRateDenom, for a
      positive rate. */
  function MbRate(frameSize: nat, frameRateNum: int, frameRateDenom: int): (r: int)
    requires frameRateNum > 0 && frameRateDenom > 0
    ensures r >= 0
    ensures r * frameRateDenom <= frameRateNum * frameSize < (r + 1) * frameRateDenom
  {
    (frameRateNum * frameSize) / frameRateDenom
  }

  /** A rate within the limit means a product below the limit's product. */
  lemma MbRateBound(frameSize: nat, frameRateNum: int, frameRateDenom: int, limit: int)
    requires frameRateNum > 0 && frameRateDenom > 0
    ensures MbRate(frameSize, frameRateNum, frameRateDenom) <= limit <==>
              frameRateNum * frameSize < (limit + 1) * frameRateDenom
  {
    var r := MbRate(frameSize, frameRateNum, frameRateDenom);
    if r <= limit {
      assert (limit + 1) * frameRateDenom == (r + 1) * frameRateDenom + (limit - r) * frameRateDenom;
      MulAtLeast(limit - r + 1, frameRateDenom);
    } else {
      assert r * frameRateDenom == (limit + 1) * frameRateDenom + (r - limit - 1) * frameRateDenom;
      MulAtLeast(r - limit, frameRateDenom);
    }
  }

  /** The picture fits the level's frame size and side limits. */
  predicate SizeWithin(levelIdx: nat, widthMbsMinus1: nat, heightMapUnitsMinus1: nat)
    requires levelIdx < LevelCount
  {
    (widthMbsMinus1 + 1) * (heightMapUnitsMinus1 + 1) <= MaxFs[levelIdx]
    && widthMbsMinus1 < SqrtMaxFs8[levelIdx] && heightMapUnitsMinus1 < SqrtMaxFs8[levelIdx]
  }

  /** Whether the level at index `levelIdx` accommodates the picture size,
      bit rate and frame rate: positive rates, frame size within MaxFS, each
      side below sqrt(8 * MaxFS), and macroblock rate within MaxMBPS.  The
      frame-rate product is computed without 32-bit overflow; see
      CheckLevelAsWritten. */
  function CheckLevel(levelIdx: nat, widthMbsMinus1: nat, heightMapUnitsMinus1: nat,
                      bitRate: int, frameRateNum: int, frameRateDenom: int): (ok: bool)
    requires levelIdx < LevelCount
    ensures ok <==>
              && bitRate > 0 && frameRateNum > 0 && frameRateDenom > 0
              && (widthMbsMinus1 + 1) * (heightMapUnitsMinus1 + 1) <= MaxFs[levelIdx]
              && widthMbsMinus1 < SqrtMaxFs8[levelIdx] && heightMapUnitsMinus1 < SqrtMaxFs8[levelIdx]
              && frameRateNum * ((widthMbsMinus1 + 1) * (heightMapUnitsMinus1 + 1))
                 < (MaxMbps[levelIdx] + 1) * frameRateDenom
  {
    var fs := (widthMbsMinus1 + 1) * (heightMapUnitsMinus1 + 1);
    if bitRate <= 0 || frameRateNum <= 0 || frameRateDenom <= 0 then false
    else if !SizeWithin(levelIdx, widthMbsMinus1, heightMapUnitsMinus1) then false
    else
      MbRateBound(fs, frameRateNum, frameRateDenom, MaxMbps[levelIdx]);
      MbRate(fs, frameRateNum, frameRateDenom) <= MaxMbps[levelIdx]
  }

  /** The level limits never shrink from one level to the next. */
  lemma LevelTablesMonotone(i: nat, j: nat)
    requires i <= j < LevelCount
    ensures MaxFs[i] <= MaxFs[j] && SqrtMaxFs8[i] <= SqrtMaxFs8[j] && MaxMbps[i] <= MaxMbps[j]
  {
  }

  /** A stream that fits a level fits every higher level. */
  lemma CheckLevelUpward(i: nat, j: nat, w: nat, h: nat, bitRate: int, num: int, den: int)
    requires i <= j < LevelCount
    requires CheckLevel(i, w, h, bitRate, num, den)
    ensures CheckLevel(j, w, h, bitRate, num, den)
  {
    LevelTablesMonotone(i, j);
  }

  // ---------------------------------------------------------------------
  // The level check as written, with 32-bit signed arithmetic

  /** Two's-complement wrap of an integer into the signed 32-bit range. */
  function WrapS32(x: int): (r: int)
    ensures -0x8000_0000 <= r < 0x8000_0000
    ensures -0x8000_0000 <= x < 0x8000_0000 ==> r == x
  {
    (x + 0x8000_0000) % U32 - 0x8000_0000
  }

  /** The source's macroblock rate: a signed 32-bit product, a division
      truncating toward zero, and the quotient reinterpreted as unsigned. */
  function MbRateAsWritten(frameSize: nat, frameRateNum: int, frameRateDenom: int): (r: int)
    requires frameRateNum > 0 && frameRateDenom > 0
    ensures 0 <= r < U32
    ensures frameRateNum * frameSize < 0x8000_0000 ==> r == MbRate(frameSize, frameRateNum, frameRateDenom)
  {
    var p := frameRateNum * frameSize;
    AsWrittenAgrees(p, frameRateDenom);
    CDiv(WrapS32(p), frameRateDenom) % U32
  }

  /** Without overflow the 32-bit computation is the exact quotient. */
  lemma AsWrittenAgrees(p: int, d: int)
    requires p >= 0 && d > 0
    ensures p < 0x8000_0000 ==> CDiv(WrapS32(p), d) % U32 == p / d
  {
    if p < 0x8000_0000 {
      assert WrapS32(p) == p;
      DivAtMost(p, d);
      DivModUnique(p / d, U32, 0, p / d);
    }
  }

  /** H264CheckLevel as written, with MbRateAsWritten in place of the exact
      rate; it agrees with CheckLevel whenever the product does not
      overflow. */
  function CheckLevelAsWritten(levelIdx: nat, widthMbsMinus1: nat, heightMapUnitsMinus1: nat,
                               bitRate: int, frameRateNum: int, frameRateDenom: int): (ok: bool)
    requires levelIdx < LevelCount
    ensures frameRateNum * ((widthMbsMinus1 + 1) * (heightMapUnitsMinus1 + 1)) < 0x8000_0000 ==>
              ok == CheckLevel(levelIdx, widthMbsMinus1, heightMapUnitsMinus1, bitRate, frameRateNum, frameRateDenom)
  {
    var fs := (widthMbsMinus1 + 1) * (heightMapUnitsMinus1 + 1);
    if bitRate <= 0 || frameRateNum <= 0 || frameRateDenom <= 0 then false
    else if !SizeWithin(levelIdx, widthMbsMinus1, heightMapUnitsMinus1) then false
    else MbRateAsWritten(fs, frameRateNum, frameRateDenom) <= MaxMbps[levelIdx]
  }

  /** A 4096x2304 picture (256 x 144 macroblocks) at 60000/2500 = 24 frames
      per second needs 884736 macroblocks per second, within level 5.1's
      983040, yet the 32-bit product 60000 * 36864 overflows and the check
      as written rejects it. */
  lemma CheckLevelOverflowWitness()
    ensures CheckLevel(14, 255, 143, 1000000, 60000, 2500)
    ensures !CheckLevelAsWritten(14, 255, 143, 1000000, 60000, 2500)
  {
    assert 256 * 144 == 36864;
    assert 60000 * 36864 == 2211840000;
    assert WrapS32(2211840000) == -2083127296;
    assert CDiv(-2083127296, 2500) == -833250;
  }

  // ---------------------------------------------------------------------
  // VUI presence and setters

  /** The VUI fields of the SPS that the encoder sets. */
  datatype Vui = Vui(
    timeScale: nat, numUnitsInTick: nat, videoFullRange: nat,
    sarWidth: nat, sarHeight: nat, nalHrdPresent: nat, pictStructPresent: nat,
    bitStreamRestriction: nat,
    initialCpbRemovalDelayLength: nat, cpbRemovalDelayLength: nat, dpbOutputDelayLength: nat,
    timeOffsetLength: nat)

  datatype SpsVuiState = SpsVuiState(vuiParametersPresent: bool, vui: Vui)

  /** The fields whose being zero means the VUI carries nothing. */
  predicate VuiEmpty(v: Vui)
  {
    v.nalHrdPresent == 0 && v.timeScale == 0 && v.pictStructPresent == 0
    && v.sarWidth == 0 && v.videoFullRange == 0 && v.bitStreamRestriction == 0
  }

  /** Clears the presence flag when the VUI carries nothing; never sets it. */
  function UpdateVuiPresence(s: SpsVuiState): (r: SpsVuiState)
    ensures r.vui == s.vui
    ensures r.vuiParametersPresent <==> s.vuiParametersPresent && !VuiEmpty(s.vui)
  {
    if VuiEmpty(s.vui) then s.(vuiParametersPresent := false) else s
  }

  /** Timing info: time_scale doubles as timing_info_present_flag. */
  function SetTimingInfo(s: SpsVuiState, timeScale: nat, numUnitsInTick: nat): (r: SpsVuiState)
    ensures r.vuiParametersPresent <==> s.vuiParametersPresent || timeScale != 0
    ensures r.vui == s.vui.(timeScale := timeScale, numUnitsInTick := numUnitsInTick)
  {
    SpsVuiState(s.vuiParametersPresent || timeScale != 0,
                s.vui.(timeScale := timeScale, numUnitsInTick := numUnitsInTick))
  }

  /** Video signal info: the full-range flag doubles as
      video_signal_type_present_flag. */
  function SetVideoInfo(s: SpsVuiState, videoFullRange: nat): (r: SpsVuiState)
    ensures r.vuiParametersPresent <==> s.vuiParametersPresent || videoFullRange != 0
    ensures r.vui == s.vui.(videoFullRange := videoFullRange)
  {
    SpsVuiState(s.vuiParametersPresent || videoFullRange != 0, s.vui.(videoFullRange := videoFullRange))
  }

  /** Sample aspect ratio: the width doubles as
      aspect_ratio_info_present_flag.  Both parts are 16-bit fields. */
  function SetAspectRatio(s: SpsVuiState, sarWidth: nat, sarHeight: nat): (r: SpsVuiState)
    requires sarWidth < 0x10000 && sarHeight < 0x10000
    ensures r.vuiParametersPresent <==> s.vuiParametersPresent || sarWidth != 0
    ensures r.vui == s.vui.(sarWidth := sarWidth, sarHeight := sarHeight)
  {
    SpsVuiState(s.vuiParametersPresent || sarWidth != 0, s.vui.(sarWidth := sarWidth, sarHeight := sarHeight))
  }

  /** pic_struct_present_flag; it does not touch the presence flag, so
      a VUI switched on only by this flag stays absent.  Putting the old
      flag back gives the old VUI: nothing else changes. */
  function SetPictStructPresent(s: SpsVuiState, flag: nat): (r: SpsVuiState)
    ensures r.vuiParametersPresent == s.vuiParametersPresent
    ensures r.vui.pictStructPresent == flag
    ensures r.vui.(pictStructPresent := s.vui.pictStructPresent) == s.vui
    ensures flag != 0 ==> !VuiEmpty(r.vui)
  {
    s.(vui := s.vui.(pictStructPresent := flag))
  }

  /** time_offset_length: the least n >= 1 with numUnitsInTick <= 2^n.
      The tick is a 32-bit value; above 2^31 the source's loop would shift
      1 by 32, which C leaves undefined, where this returns 32. */
  function TimeOffsetLength(numUnitsInTick: nat): (n: nat)
    ensures n >= 1 && numUnitsInTick <= Pow2(n)
    ensures n > 1 ==> Pow2(n - 1) < numUnitsInTick
  {
    LeastWidthAbove(1, numUnitsInTick - 1)
  }

  /** NAL HRD parameters: when present, the three delay fields are 24 bits
      wide and time_offset_length covers numUnitsInTick; when absent only
      the flag changes.  Timing info must have been set first. */
  function SetHrd(s: SpsVuiState, present: nat): (r: SpsVuiState)
    requires present != 0 ==> s.vui.timeScale != 0 && s.vui.numUnitsInTick != 0
    ensures r.vui.nalHrdPresent == present
    ensures present == 0 ==> r == s.(vui := s.vui.(nalHrdPresent := 0))
    ensures present != 0 ==> r.vuiParametersPresent
    ensures present != 0 ==> r.vui.initialCpbRemovalDelayLength == 24 && r.vui.cpbRemovalDelayLength == 24
                             && r.vui.dpbOutputDelayLength == 24
    ensures present != 0 ==> r.vui.timeOffsetLength == TimeOffsetLength(s.vui.numUnitsInTick)
    ensures r.vui.(nalHrdPresent := s.vui.nalHrdPresent,
                   initialCpbRemovalDelayLength := s.vui.initialCpbRemovalDelayLength,
                   cpbRemovalDelayLength := s.vui.cpbRemovalDelayLength,
                   dpbOutputDelayLength := s.vui.dpbOutputDelayLength,
                   timeOffsetLength := s.vui.timeOffsetLength) == s.vui
  {
    var v := s.vui.(nalHrdPresent := present);
    if present == 0 then s.(vui := v)
    else SpsVuiState(true, v.(initialCpbRemovalDelayLength := 24, cpbRemovalDelayLength := 24,
                              dpbOutputDelayLength := 24,
                              timeOffsetLength := TimeOffsetLength(v.numUnitsInTick)))
  }

  /** A setter given a nonzero argument makes the VUI non-empty, so the
      presence update that precedes writing keeps the flag it set. */
  lemma SettersSurviveUpdate(s: SpsVuiState, timeScale: nat, nut: nat, fullRange: nat, sarW: nat, sarH: nat)
    requires sarW < 0x10000 && sarH < 0x10000
    ensures timeScale != 0 ==> UpdateVuiPresence(SetTimingInfo(s, timeScale, nut)).vuiParametersPresent
    ensures fullRange != 0 ==> UpdateVuiPresence(SetVideoInfo(s, fullRange)).vuiParametersPresent
    ensures sarW != 0 ==> UpdateVuiPresence(SetAspectRatio(s, sarW, sarH)).vuiParametersPresent
  {
  }

  /** The two flag setters: HRD sets the presence flag itself and keeps it
      through the update, while pic_struct_present_flag keeps a presence
      flag that was already set but never sets one. */
  lemma FlagSettersSurviveUpdate(s: SpsVuiState, flag: nat, hrd: nat)
    requires hrd != 0 ==> s.vui.timeScale != 0 && s.vui.numUnitsInTick != 0
    ensures hrd != 0 ==> UpdateVuiPresence(SetHrd(s, hrd)).vuiParametersPresent
    ensures flag != 0 ==>
              (UpdateVuiPresence(SetPictStructPresent(s, flag)).vuiParametersPresent <==> s.vuiParametersPresent)
    ensures UpdateVuiPresence(SetPictStructPresent(s, flag)).vuiParametersPresent ==> s.vuiParametersPresent
  {
  }

  // ---------------------------------------------------------------------
  // HRD rounding when the VUI is written

  /** The scale loop "while 4095 < (v >> (base + i++))", run from step j:
      it stops one step after the first shift that fits in 12 bits. */
  function ScaleFrom(v: nat, base: nat, j: nat): (scale: nat)
    ensures scale >= j + 1
    ensures Shr(v, base + scale - 1) <= 4095
    ensures forall m :: base + j <= m < base + scale - 1 ==> Shr(v, m) > 4095
    decreases Shr(v, base + j)
  {
    if Shr(v, base + j) <= 4095 then j + 1
    else
      ShrStep(v, base + j);
      ScaleFrom(v, base, j + 1)
  }

  /** A scale and the value rounded down to the unit 2^(base + scale) that
      the scale selects. */
  datatype Rounded = Rounded(scale: nat, value: nat)

  /** bit_rate_scale / cpb_size_scale and the value as the decoder will read
      it back: value_minus1 + 1 units of 2^(base + scale).  The scale is the
      least one whose predecessor shift fits in 12 bits, which is where the
      source's post-incremented loop stops. */
  function HrdRound(v: nat, base: nat): (r: Rounded)
    ensures r.scale >= 1
    ensures Shr(v, base + r.scale - 1) <= 4095
    ensures r.scale == 1 || Shr(v, base + r.scale - 2) > 4095
    ensures r.value <= v < r.value + Pow2(base + r.scale)
    ensures r.value % Pow2(base + r.scale) == 0
    ensures r.value / Pow2(base + r.scale) <= 2047
  {
    var s := ScaleFrom(v, base, 0);
    HrdRoundFacts(v, base, s);
    ShrShl(v, base + s);
    Rounded(s, Shr(v, base + s) * Pow2(base + s))
  }

  lemma HrdRoundFacts(v: nat, base: nat, s: nat)
    requires s >= 1 && Shr(v, base + s - 1) <= 4095
    ensures Shr(v, base + s) <= 2047
    ensures (Shr(v, base + s) * Pow2(base + s)) / Pow2(base + s) == Shr(v, base + s)
  {
    ShrStep(v, base + s - 1);
    DivModUnique(Shr(v, base + s) * Pow2(base + s), Pow2(base + s), Shr(v, base + s), 0);
  }

  /** The scale loop stops at the first step whose shift fits in 12 bits,
      so any s with that property is its result. */
  lemma {:induction false} ScaleFromUnique(v: nat, base: nat, j: nat, s: nat)
    requires j < s && Shr(v, base + s - 1) <= 4095
    requires forall m :: base + j <= m < base + s - 1 ==> Shr(v, m) > 4095
    ensures ScaleFrom(v, base, j) == s
    decreases s - j
  {
    if j < s - 1 {
      assert Shr(v, base + j) > 4095;
      ScaleFromUnique(v, base, j + 1, s);
    }
  }

  /** Shifting q * 2^(k + t) right by k leaves q * 2^t. */
  lemma ShrOfMultiple(q: nat, k: nat, t: nat)
    ensures Shr(q * Pow2(k + t), k) == q * Pow2(t)
  {
    var a := Pow2(t);
    var b := Pow2(k);
    var x := q * Pow2(k + t);
    assert x == (q * a) * b by {
      Pow2Add(k, t);
      MulAssoc(q, a, b);
      assert b * a == a * b;
    }
    assert Shr(x, k) == x / b by {
      ShrDiv(x, k);
    }
    DivModUnique(x, b, q * a, 0);
  }

  /** A factor of at least 4 keeps a product of q >= 1024 above 12 bits. */
  lemma WideProduct(q: nat, t: nat)
    requires q >= 1024 && t >= 2
    ensures q * Pow2(t) > 4095
  {
    var p2 := Pow2(t - 2);
    assert Pow2(t) == 4 * p2;
    MulAtLeast(p2, 4 * q);
    assert q * Pow2(t) == p2 * (4 * q);
  }

  /** Above the chosen scale every shift of the rounded value still exceeds
      12 bits. */
  lemma RoundedStaysWide(v: nat, base: nat, s: nat, m: nat)
    requires s >= 2 && Shr(v, base + s - 2) > 4095
    requires base <= m < base + s - 1
    ensures Shr(Shr(v, base + s) * Pow2(base + s), m) > 4095
  {
    var q := Shr(v, base + s);
    ShrStep(v, base + s - 2);
    assert base + s - 2 + 1 == base + s - 1;
    ShrStep(v, base + s - 1);
    assert base + s - 1 + 1 == base + s;
    assert q >= 1024;
    var t := base + s - m;
    assert m + t == base + s;
    ShrOfMultiple(q, m, t);
    WideProduct(q, t);
  }

  /** Rounding is idempotent: the rounded value selects the same scale and
      is its own rounding, so what the encoder keeps is exactly what the
      stream signals. */
  lemma HrdRoundIdempotent(v: nat, base: nat)
    ensures HrdRound(HrdRound(v, base).value, base) == HrdRound(v, base)
  {
    var s := ScaleFrom(v, base, 0);
    var q := Shr(v, base + s);
    var w := q * Pow2(base + s);
    assert HrdRound(v, base) == Rounded(s, w);
    RoundedKeepsScale(v, base, s, q);
    ShrOfShl(q, base + s);
  }

  /** Shifting q * 2^e right by e gives q back. */
  lemma ShrOfShl(q: nat, e: nat)
    ensures Shr(q * Pow2(e), e) == q
  {
    ShrDiv(q * Pow2(e), e);
    DivModUnique(q * Pow2(e), Pow2(e), q, 0);
  }

  /** The rounded value selects the same scale as the value it came from. */
  lemma RoundedKeepsScale(v: nat, base: nat, s: nat, q: nat)
    requires s == ScaleFrom(v, base, 0) && q == Shr(v, base + s)
    ensures ScaleFrom(q * Pow2(base + s), base, 0) == s
  {
    var w := q * Pow2(base + s);
    HrdRoundFacts(v, base, s);
    assert base + s - 1 + 1 == base + s;
    ShrOfMultiple(q, base + s - 1, 1);
    assert Shr(w, base + s - 1) == q * 2;
    forall m | base <= m < base + s - 1
      ensures Shr(w, m) > 4095
    {
      assert Shr(v, base + s - 2) > 4095;
      RoundedStaysWide(v, base, s, m);
    }
    ScaleFromUnique(w, base, 0, s);
  }

  /** The bit rate is written in units of 2^(6 + bit_rate_scale). */
  function BitRateRound(bitRate: nat): (r: Rounded)
    ensures r.scale >= 1 && Shr(bitRate, 6 + r.scale - 1) <= 4095
    ensures r.scale == 1 || Shr(bitRate, 6 + r.scale - 2) > 4095
    ensures r.value <= bitRate < r.value + Pow2(6 + r.scale) && r.value % Pow2(6 + r.scale) == 0
  {
    HrdRound(bitRate, 6)
  }

  /** The CPB size is written in units of 2^(4 + cpb_size_scale). */
  function CpbSizeRound(cpbSize: nat): (r: Rounded)
    ensures r.scale >= 1 && Shr(cpbSize, 4 + r.scale - 1) <= 4095
    ensures r.scale == 1 || Shr(cpbSize, 4 + r.scale - 2) > 4095
    ensures r.value <= cpbSize < r.value + Pow2(4 + r.scale) && r.value % Pow2(4 + r.scale) == 0
  {
    HrdRound(cpbSize, 4)
  }

  // ---------------------------------------------------------------------
  // The High-profile part of the SPS

  /** For profile_idc >= 100 the SPS carries chroma_format_idc = 1 (4:2:0),
      both bit_depth_minus8 = 0, and the transform-bypass and scaling-matrix
      flags off; other profiles carry none of these. */
  function WriteHighProfileFields(s: seq<Bit>, profileIdc: int): (r: seq<Bit>)
    ensures profileIdc < 100 ==> r == s
    ensures profileIdc >= 100 ==> |r| == |s| + 7 && r[..|s|] == s
  {
    if profileIdc >= 100 then
      H264eBits.WriteBits(
        H264eBits.WriteBits(H264eBits.WriteUe(H264eBits.WriteUe(H264eBits.WriteUe(s, 1), 0), 0), 1, 0), 1, 0)
    else s
  }

  /** ue(0) is the single bit 1. */
  lemma UeZeroBits(s: seq<Bit>)
    ensures H264eBits.WriteUe(s, 0) == s + [1]
  {
    Pow2Values();
    Log2Unique(1, 0);
    assert ToBits(1, 1) == [1];
    assert Zeros(0) == [];
  }

  /** ue(1) is the three bits 010. */
  lemma UeOneBits(s: seq<Bit>)
    ensures H264eBits.WriteUe(s, 1) == s + [0, 1, 0]
  {
    Pow2Values();
    Log2Unique(2, 1);
    assert ToBits(2, 2) == [1, 0];
    assert Zeros(1) == [0];
  }

  /** Appending one zero bit. */
  lemma ZeroBit(s: seq<Bit>)
    ensures H264eBits.WriteBits(s, 1, 0) == s + [0]
  {
    assert ToBits(0, 1) == [0];
  }

  /** The High-profile fields are the bits 010 1 1 0 0: ue(1), ue(0),
      ue(0) and two zero flags. */
  lemma HighProfileBits(s: seq<Bit>)
    ensures WriteHighProfileFields(s, 100) == s + [0, 1, 0, 1, 1, 0, 0]
  {
    var a := H264eBits.WriteUe(s, 1);
    UeOneBits(s);
    var b := H264eBits.WriteUe(a, 0);
    UeZeroBits(a);
    var c := H264eBits.WriteUe(b, 0);
    UeZeroBits(b);
    var d := H264eBits.WriteBits(c, 1, 0);
    ZeroBit(c);
    ZeroBit(d);
    assert WriteHighProfileFields(s, 100) == H264eBits.WriteBits(d, 1, 0);
  }

  /** A decoder reading the High-profile fields back finds chroma_format_idc
      1, followed by the two ue(0) bit depths and the two zero flags. */
  lemma HighProfileFieldsParse(s: seq<Bit>)
    ensures H264eBits.ParseUe(WriteHighProfileFields(s, 100)[|s|..]) == Some((1, [1, 1, 0, 0]))
  {
    var w := WriteHighProfileFields(s, 100);
    HighProfileBits(s);
    UeOneBits([]);
    assert w[|s|..] == H264eBits.WriteUe([], 1) + [1, 1, 0, 0];
    H264eBits.UeRoundTrip(1, [1, 1, 0, 0]);
  }
}

=== FILE: h264d_vdpu.dfy ===
/** Register values the H.264 decoder's hardware layer derives from the
    DXVA-style picture parameters: picture size in macroblocks, the
    reference-valid and long-term bitmaps, reference index and list
    registers, the POC table, the per-reference field attributes, and the
    direct-motion-vector offset. */
module H264dVdpu {
  import opened Common

  /** The entry value marking an unused slot in a reference list. */
  const InvalidEntry: nat := 0xff

  /** One DXVA picture entry: bPicEntry, its low seven bits (the DPB
      slot), and the flag bit (long-term for list entries, bottom field
      for the current picture). */
  datatype PicEntry = PicEntry(bPicEntry: nat, index7Bits: nat, associatedFlag: bool)

  predicate EntryValid(e: PicEntry)
  {
    e.bPicEntry != InvalidEntry
  }

  /** The picture parameters the register derivation reads. */
  datatype PicParams = PicParams(
    widthMbsMinus1: nat, heightMbsMinus1: nat, frameMbsOnly: bool,
    fieldPic: bool, currPic: PicEntry, chromaFormatIdc: nat, profileIdc: nat,
    picInitQpMinus26: int, log2MaxFrameNumMinus4: nat,
    refFrameList: seq<PicEntry>, usedForReferenceFlags: nat,
    longTermPicNumList: seq<nat>, frameNumList: seq<nat>,
    fieldOrderCntList: seq<(int, int)>, currFieldOrderCnt: (int, int),
    refPicFieldFlags: nat)

  /** The DXVA arrays have 16 entries each. */
  predicate WellFormed(pp: PicParams)
  {
    |pp.refFrameList| == 16 && |pp.longTermPicNumList| == 16 && |pp.frameNumList| == 16
    && |pp.fieldOrderCntList| == 16
  }

  // ---------------------------------------------------------------------
  // Picture geometry

  datatype PicSize = PicSize(picMbW: nat, picMbH: nat)

  /** pic_mb_w and pic_mb_h: the frame height in macroblocks is twice the
      height in map units when field coding is allowed. */
  function PicRegs(pp: PicParams): (r: PicSize)
    ensures r.picMbW == pp.widthMbsMinus1 + 1 && r.picMbW >= 1
    ensures pp.frameMbsOnly ==> r.picMbH == pp.heightMbsMinus1 + 1
    ensures !pp.frameMbsOnly ==> r.picMbH == 2 * (pp.heightMbsMinus1 + 1) && r.picMbH % 2 == 0
  {
    PicSize(pp.widthMbsMinus1 + 1, (2 - (if pp.frameMbsOnly then 1 else 0)) * (pp.heightMbsMinus1 + 1))
  }

  /** Bytes of one decoded frame in the output buffer: 256 luma bytes per
      macroblock, plus 128 chroma bytes unless monochrome. */
  function FrameBytes(pp: PicParams): (n: nat)
  {
    var s := PicRegs(pp);
    s.picMbW * s.picMbH * (if pp.chromaFormatIdc == 0 then 256 else 384)
  }

  /** The direct-mode motion vectors sit behind the decoded frame in the
      same buffer; a bottom field's vectors start 32 bytes per macroblock
      further on. */
  function DirMvOffset(pp: PicParams): (off: nat)
    ensures off >= FrameBytes(pp)
    ensures !(pp.fieldPic && pp.currPic.associatedFlag) ==> off == FrameBytes(pp)
    ensures pp.fieldPic && pp.currPic.associatedFlag ==>
              off == FrameBytes(pp) + 32 * PicRegs(pp).picMbW * PicRegs(pp).picMbH
  {
    var picSizeInMbs := (pp.widthMbsMinus1 + 1) * (2 - (if pp.frameMbsOnly then 1 else 0)) * (pp.heightMbsMinus1 + 1);
    assert picSizeInMbs == PicRegs(pp).picMbW * PicRegs(pp).picMbH by {
      MulAssoc(pp.widthMbsMinus1 + 1, 2 - (if pp.frameMbsOnly then 1 else 0), pp.heightMbsMinus1 + 1);
    }
    var base := picSizeInMbs * (if pp.chromaFormatIdc == 0 then 256 else 384);
    assert base == FrameBytes(pp);
    assert picSizeInMbs * 32 == 32 * PicRegs(pp).picMbW * PicRegs(pp).picMbH by {
      MulAssoc(32, PicRegs(pp).picMbW, PicRegs(pp).picMbH);
    }
    base + (if pp.fieldPic && pp.currPic.associatedFlag then picSizeInMbs * 32 else 0)
  }

  /** The bottom field's vectors follow the top field's: the extra offset
      is exactly the space one field's vectors need, so the two regions
      do not overlap when each field stores 32 bytes per macroblock. */
  lemma BottomFieldVectorsFollowTop(pp: PicParams)
    requires pp.fieldPic
    ensures DirMvOffset(pp.(currPic := pp.currPic.(associatedFlag := true)))
            == DirMvOffset(pp.(currPic := pp.currPic.(associatedFlag := false))) + 32 * PicRegs(pp).picMbW * PicRegs(pp).picMbH
  {
  }

  // ---------------------------------------------------------------------
  // Scalar fields

  datatype VlcScalars = VlcScalars(qpInitVal: int, curFrmLen: nat, monochrEn: bool)

  /** qp_init_val, cur_frm_len and monochr_en.  The register holds a
      valid slice QP base (0..51) exactly when pic_init_qp_minus26 is in
      its range -26..25 (section 7.4.2.2 of ITU-T H.264); the frame_num
      field read in cur_frm_len bits ranges over exactly MaxFrameNum =
      2^(log2_max_frame_num_minus4 + 4) values; monochrome decoding applies
      to 4:0:0 streams of the High profiles only. */
  function Scalars(pp: PicParams): (r: VlcScalars)
    ensures -26 <= pp.picInitQpMinus26 <= 25 <==> 0 <= r.qpInitVal <= 51
    ensures r.qpInitVal - 26 == pp.picInitQpMinus26
    ensures Pow2(r.curFrmLen) == 16 * Pow2(pp.log2MaxFrameNumMinus4)
    ensures r.monochrEn <==> pp.profileIdc >= 100 && pp.chromaFormatIdc == 0
  {
    Pow2Add(4, pp.log2MaxFrameNumMinus4);
    Pow2Values();
    VlcScalars(pp.picInitQpMinus26 + 26, pp.log2MaxFrameNumMinus4 + 4,
               pp.profileIdc >= 100 && pp.chromaFormatIdc == 0)
  }

  // ---------------------------------------------------------------------
  // Reference bitmaps

  /** Bit k (from the least significant end) of x. */
  function BitAt(x: nat, k: nat): (b: Bit)
  {
    Shr(x, k) % 2
  }

  /** Frame decoding: entry i is a valid reference when it is in use and
      either of its two fields is marked used for reference. */
  function FrameValidBit(pp: PicParams, i: nat): (b: Bit)
    requires WellFormed(pp) && i < 16
  {
    if EntryValid(pp.refFrameList[i]) && Shr(pp.usedForReferenceFlags, 2 * i) % 4 != 0 then 1 else 0
  }

  /** Field decoding: field i (of frame entry i / 2) is a valid reference
      when the entry is in use and bit i of the used flags is set. */
  function FieldValidBit(pp: PicParams, i: nat): (b: Bit)
    requires WellFormed(pp) && i < 32
  {
    if EntryValid(pp.refFrameList[i / 2]) && BitAt(pp.usedForReferenceFlags, i) == 1 then 1 else 0
  }

  /** The long-term bit of an entry in use is its flag; an unused entry
      contributes 0. */
  function LongTermBit(e: PicEntry): (b: Bit)
  {
    if EntryValid(e) && e.associatedFlag then 1 else 0
  }

  /** The valid bits of the first n fields. */
  function FieldValidPrefix(pp: PicParams, n: nat): (s: seq<Bit>)
    requires WellFormed(pp) && n <= 32
    ensures |s| == n && forall i :: 0 <= i < n ==> s[i] == FieldValidBit(pp, i)
  {
    if n == 0 then [] else FieldValidPrefix(pp, n - 1) + [FieldValidBit(pp, n - 1)]
  }

  /** The valid bits of the first n frame entries. */
  function FrameValidPrefix(pp: PicParams, n: nat): (s: seq<Bit>)
    requires WellFormed(pp) && n <= 16
    ensures |s| == n && forall i :: 0 <= i < n ==> s[i] == FrameValidBit(pp, i)
  {
    if n == 0 then [] else FrameValidPrefix(pp, n - 1) + [FrameValidBit(pp, n - 1)]
  }

  /** The entry-by-entry bits, most significant first: 32 fields in field
      decoding, 16 frames in frame decoding. */
  function EntryValidBits(pp: PicParams): (s: seq<Bit>)
    requires WellFormed(pp)
    ensures |s| == (if pp.fieldPic then 32 else 16)
    ensures pp.fieldPic ==> forall i :: 0 <= i < 32 ==> s[i] == FieldValidBit(pp, i)
    ensures !pp.fieldPic ==> forall i :: 0 <= i < 16 ==> s[i] == FrameValidBit(pp, i)
  {
    if pp.fieldPic then FieldValidPrefix(pp, 32) else FrameValidPrefix(pp, 16)
  }

  function EntryLongTermBits(pp: PicParams): (s: seq<Bit>)
    requires WellFormed(pp)
    ensures |s| == (if pp.fieldPic then 32 else 16)
    ensures pp.fieldPic ==> forall i :: 0 <= i < 32 ==> s[i] == LongTermBit(pp.refFrameList[i / 2])
    ensures !pp.fieldPic ==> forall i :: 0 <= i < 16 ==> s[i] == LongTermBit(pp.refFrameList[i])
  {
    if pp.fieldPic then seq(32, i requires 0 <= i < 32 => LongTermBit(pp.refFrameList[i / 2]))
    else seq(16, i requires 0 <= i < 16 => LongTermBit(pp.refFrameList[i]))
  }

  /** In frame decoding the bitmaps are shifted up by 16 at the end. */
  const LowZeroBits: nat := 16

  /** The bits of refpic_valid_flag: in frame decoding the 16 entry bits
      are followed by 16 zero bits. */
  function ValidBits(pp: PicParams): (s: seq<Bit>)
    requires WellFormed(pp)
    ensures |s| == 32
  {
    if pp.fieldPic then EntryValidBits(pp) else EntryValidBits(pp) + Zeros(LowZeroBits)
  }

  /** The bits of refpic_term_flag in the same layout. */
  function LongTermBits(pp: PicParams): (s: seq<Bit>)
    requires WellFormed(pp)
    ensures |s| == 32
  {
    if pp.fieldPic then EntryLongTermBits(pp) else EntryLongTermBits(pp) + Zeros(LowZeroBits)
  }

  /** Bit |s| - 1 - i of the value of a most-significant-first bit string
      is s[i]. */
  lemma {:induction false} FromBitsBitAt(s: seq<Bit>, i: nat)
    requires i < |s|
    ensures BitAt(FromBits(s), |s| - 1 - i) == s[i]
    decreases |s|
  {
    var init := s[..|s| - 1];
    var x := FromBits(s);
    assert x == 2 * FromBits(init) + s[|s| - 1];
    if i == |s| - 1 {
    } else {
      var k := |s| - 1 - i;
      assert Shr(x, k) == Shr(x / 2, k - 1);
      assert x / 2 == FromBits(init);
      FromBitsBitAt(init, i);
      assert init[i] == s[i];
    }
  }

  lemma DoubleProduct(a: int, p: int)
    ensures 2 * (a * p) == a * (2 * p)
  {
  }

  /** Appending n zero bits multiplies the value by 2^n. */
  lemma {:induction false} FromBitsZeros(s: seq<Bit>, n: nat)
    ensures FromBits(s + Zeros(n)) == FromBits(s) * Pow2(n)
  {
    if n > 0 {
      var u := s + Zeros(n - 1);
      assert s + Zeros(n) == u + [0] by {
        AppendAssoc(s, Zeros(n - 1), [0]);
      }
      FromBitsAppendZero(u);
      FromBitsZeros(s, n - 1);
      DoubleProduct(FromBits(s), Pow2(n - 1));
    } else {
      assert s + Zeros(0) == s;
    }
  }

  /** A zero bit appended doubles the value. */
  lemma FromBitsAppendZero(u: seq<Bit>)
    ensures FromBits(u + [0]) == 2 * FromBits(u)
  {
    assert (u + [0])[..|u|] == u;
  }

  /** The final shift by 16 of frame decoding is the 16 zero bits. */
  lemma PaddedValue(s: seq<Bit>)
    ensures FromBits(s + Zeros(LowZeroBits)) == FromBits(s) * 0x10000
  {
    FromBitsZeros(s, LowZeroBits);
    Pow2Values();
  }

  /** In a 32-bit string of 16 entry bits and 16 zero bits, bit 31 - i is
      entry bit i for the first 16 and zero for the rest. */
  lemma PaddedBitAt(e: seq<Bit>, i: nat)
    requires |e| == 16 && i < 32
    ensures i < 16 ==> BitAt(FromBits(e + Zeros(LowZeroBits)), 31 - i) == e[i]
    ensures i >= 16 ==> BitAt(FromBits(e + Zeros(LowZeroBits)), 31 - i) == 0
  {
    FromBitsBitAt(e + Zeros(LowZeroBits), i);
  }

  /** The bit the loop of vdpu_set_vlc_regs shifts in for entry (or field)
      i: zero for an unused entry, otherwise the used-for-reference test. */
  function LoopValidBit(pp: PicParams, i: nat): (b: Bit)
    requires WellFormed(pp) && i < (if pp.fieldPic then 32 else 16)
    ensures b == EntryValidBits(pp)[i]
  {
    var e := if pp.fieldPic then pp.refFrameList[i / 2] else pp.refFrameList[i];
    if e.bPicEntry == InvalidEntry then 0
    else if pp.fieldPic then (if Shr(pp.usedForReferenceFlags, i) % 2 == 1 then 1 else 0)
    else (if Shr(pp.usedForReferenceFlags, 2 * i) % 4 != 0 then 1 else 0)
  }

  /** One loop step appends one bit to the prefix built so far. */
  lemma FromBitsSnoc(s: seq<Bit>, i: nat)
    requires i < |s|
    ensures FromBits(s[..i + 1]) == 2 * FromBits(s[..i]) + s[i]
  {
    assert s[..i + 1][..i] == s[..i];
  }

  /** The loop of vdpu_set_vlc_regs that builds both bitmaps: one shift
      per entry (or field), then a shift by 16 in frame decoding. */
  method RefFlags(pp: PicParams) returns (validFlags: nat, longTermFlags: nat)
    requires WellFormed(pp)
    ensures validFlags == FromBits(ValidBits(pp))
    ensures longTermFlags == FromBits(LongTermBits(pp))
  {
    var n := if pp.fieldPic then 32 else 16;
    ghost var vb := EntryValidBits(pp);
    ghost var lb := EntryLongTermBits(pp);
    validFlags, longTermFlags := 0, 0;
    var i := 0;
    while i < n
      invariant 0 <= i <= n && |vb| == n && |lb| == n
      invariant validFlags == FromBits(vb[..i]) && longTermFlags == FromBits(lb[..i])
    {
      var e := if pp.fieldPic then pp.refFrameList[i / 2] else pp.refFrameList[i];
      var l: Bit := if e.bPicEntry != InvalidEntry && e.associatedFlag then 1 else 0;
      var v := LoopValidBit(pp, i);
      FromBitsSnoc(vb, i);
      FromBitsSnoc(lb, i);
      validFlags := 2 * validFlags + v;
      longTermFlags := 2 * longTermFlags + l;
      i := i + 1;
    }
    assert vb[..n] == vb && lb[..n] == lb;
    if !pp.fieldPic {
      PaddedValue(vb);
      PaddedValue(lb);
      validFlags := validFlags * 0x10000;
      longTermFlags := longTermFlags * 0x10000;
    }
  }

  /** Reading the bitmaps back: in frame decoding bit 31 - i describes
      frame entry i and the low 16 bits are zero; in field decoding bit
      31 - i describes field i. */
  lemma RefFlagsBits(pp: PicParams, i: nat)
    requires WellFormed(pp) && i < 32
    ensures pp.fieldPic ==> BitAt(FromBits(ValidBits(pp)), 31 - i) == FieldValidBit(pp, i)
    ensures pp.fieldPic ==> BitAt(FromBits(LongTermBits(pp)), 31 - i) == LongTermBit(pp.refFrameList[i / 2])
    ensures !pp.fieldPic && i < 16 ==> BitAt(FromBits(ValidBits(pp)), 31 - i) == FrameValidBit(pp, i)
    ensures !pp.fieldPic && i < 16 ==> BitAt(FromBits(LongTermBits(pp)), 31 - i) == LongTermBit(pp.refFrameList[i])
    ensures !pp.fieldPic && i >= 16 ==> BitAt(FromBits(ValidBits(pp)), 31 - i) == 0
    ensures !pp.fieldPic && i >= 16 ==> BitAt(FromBits(LongTermBits(pp)), 31 - i) == 0
  {
    if pp.fieldPic {
      FieldFlagBits(pp, i);
    } else {
      FrameFlagBits(pp, i);
    }
  }

  lemma FieldFlagBits(pp: PicParams, i: nat)
    requires WellFormed(pp) && pp.fieldPic && i < 32
    ensures BitAt(FromBits(ValidBits(pp)), 31 - i) == FieldValidBit(pp, i)
    ensures BitAt(FromBits(LongTermBits(pp)), 31 - i) == LongTermBit(pp.refFrameList[i / 2])
  {
    var vb := EntryValidBits(pp);
    var lb := EntryLongTermBits(pp);
    assert ValidBits(pp) == vb && LongTermBits(pp) == lb;
    FromBitsBitAt(vb, i);
    FromBitsBitAt(lb, i);
  }

  lemma FrameFlagBits(pp: PicParams, i: nat)
    requires WellFormed(pp) && !pp.fieldPic && i < 32
    ensures i < 16 ==> BitAt(FromBits(ValidBits(pp)), 31 - i) == FrameValidBit(pp, i)
    ensures i < 16 ==> BitAt(FromBits(LongTermBits(pp)), 31 - i) == LongTermBit(pp.refFrameList[i])
    ensures i >= 16 ==> BitAt(FromBits(ValidBits(pp)), 31 - i) == 0
    ensures i >= 16 ==> BitAt(FromBits(LongTermBits(pp)), 31 - i) == 0
  {
    PaddedBitAt(EntryValidBits(pp), i);
    PaddedBitAt(EntryLongTermBits(pp), i);
  }

  /** An unused entry is neither a valid nor a long-term reference. */
  lemma InvalidEntryContributesZero(pp: PicParams, i: nat)
    requires WellFormed(pp) && i < 16 && !EntryValid(pp.refFrameList[i])
    ensures !pp.fieldPic ==> BitAt(FromBits(ValidBits(pp)), 31 - i) == 0
    ensures !pp.fieldPic ==> BitAt(FromBits(LongTermBits(pp)), 31 - i) == 0
    ensures pp.fieldPic ==> BitAt(FromBits(ValidBits(pp)), 31 - 2 * i) == 0
    ensures pp.fieldPic ==> BitAt(FromBits(ValidBits(pp)), 30 - 2 * i) == 0
    ensures pp.fieldPic ==> BitAt(FromBits(LongTermBits(pp)), 31 - 2 * i) == 0
    ensures pp.fieldPic ==> BitAt(FromBits(LongTermBits(pp)), 30 - 2 * i) == 0
  {
    if pp.fieldPic {
      assert (2 * i) / 2 == i && (2 * i + 1) / 2 == i;
      FieldFlagBits(pp, 2 * i);
      FieldFlagBits(pp, 2 * i + 1);
    } else {
      FrameFlagBits(pp, i);
    }
  }

  // ---------------------------------------------------------------------
  // Reference index registers

  /** One of the sixteen per-entry index setters; an index beyond 15
      changes nothing. */
  function SetReferPicIdx(regs: seq<nat>, i: nat, val: nat): (r: seq<nat>)
    requires |regs| == 16
    ensures |r| == 16
    ensures i < 16 ==> r[i] == val && forall k :: 0 <= k < 16 && k != i ==> r[k] == regs[k]
    ensures i >= 16 ==> r == regs
  {
    if i < 16 then regs[i := val] else regs
  }

  /** The value programmed for a valid entry: the long-term picture number
      for a long-term reference, the frame number otherwise. */
  function RefIdxValue(pp: PicParams, i: nat): (v: nat)
    requires WellFormed(pp) && i < 16
  {
    if pp.refFrameList[i].associatedFlag then pp.longTermPicNumList[i] else pp.frameNumList[i]
  }

  /** The loop over entries i..15 of vdpu_set_vlc_regs: valid entries
      program their index register; unused entries leave it as it was. */
  function RefIdxLoop(pp: PicParams, regs: seq<nat>, i: nat): (r: seq<nat>)
    requires WellFormed(pp) && |regs| == 16 && i <= 16
    ensures |r| == 16
    ensures forall k :: 0 <= k < i ==> r[k] == regs[k]
    ensures forall k :: i <= k < 16 ==>
              r[k] == (if EntryValid(pp.refFrameList[k]) then RefIdxValue(pp, k) else regs[k])
    decreases 16 - i
  {
    if i == 16 then regs
    else
      var regs1 := if EntryValid(pp.refFrameList[i]) then SetReferPicIdx(regs, i, RefIdxValue(pp, i)) else regs;
      RefIdxLoop(pp, regs1, i + 1)
  }

  // ---------------------------------------------------------------------
  // Reference lists

  /** Entry i of a reference list register set (P list, B list 0 or B
      list 1).  Field pictures read the same-parity entry 2i or 2i+1 of
      the 32-entry list; an unused entry programs its own position i. */
  function RefListValue(pp: PicParams, list: seq<PicEntry>, i: nat): (v: nat)
    requires |list| == 32 && i < 16
    ensures var nn := if pp.fieldPic then (if pp.currPic.associatedFlag then 2 * i + 1 else 2 * i) else i;
            (EntryValid(list[nn]) ==> v == list[nn].index7Bits) && (!EntryValid(list[nn]) ==> v == i)
  {
    var nn := if pp.fieldPic then (if pp.currPic.associatedFlag then 2 * i + 1 else 2 * i) else i;
    if list[nn].bPicEntry == InvalidEntry then i else list[nn].index7Bits
  }

  /** The sixteen register values of one list. */
  function RefListRegs(pp: PicParams, list: seq<PicEntry>): (r: seq<nat>)
    requires |list| == 32
    ensures |r| == 16 && forall i :: 0 <= i < 16 ==> r[i] == RefListValue(pp, list, i)
  {
    seq(16, i requires 0 <= i < 16 => RefListValue(pp, list, i))
  }

  /** Frame pictures see only the first 16 entries of a list, and a list
      with no entries in use programs the identity 0..15. */
  lemma RefListFrameUsesPrefix(pp: PicParams, a: seq<PicEntry>, b: seq<PicEntry>)
    requires |a| == 32 && |b| == 32 && !pp.fieldPic && a[..16] == b[..16]
    ensures RefListRegs(pp, a) == RefListRegs(pp, b)
  {
    forall i | 0 <= i < 16 ensures RefListValue(pp, a, i) == RefListValue(pp, b, i) {
      assert a[i] == a[..16][i] && b[i] == b[..16][i];
    }
  }

  lemma RefListEmptyIsIdentity(pp: PicParams, list: seq<PicEntry>)
    requires |list| == 32 && forall k :: 0 <= k < 32 ==> !EntryValid(list[k])
    ensures forall i :: 0 <= i < 16 ==> RefListRegs(pp, list)[i] == i
  {
  }

  // ---------------------------------------------------------------------
  // POC table

  /** The 34 words written behind the CABAC table: the two field POCs of
      every reference in use (zero otherwise), then the current picture's
      two field POCs.  Both branches of the source's MBAFF test write the
      same values. */
  function PocTable(pp: PicParams): (t: seq<int>)
    requires WellFormed(pp)
    ensures |t| == 34
    ensures forall i :: 0 <= i < 32 ==>
              t[i] == (if EntryValid(pp.refFrameList[i / 2])
                       then (if i % 2 == 0 then pp.fieldOrderCntList[i / 2].0 else pp.fieldOrderCntList[i / 2].1)
                       else 0)
    ensures t[32] == pp.currFieldOrderCnt.0 && t[33] == pp.currFieldOrderCnt.1
  {
    seq(32, i requires 0 <= i < 32 =>
          if pp.refFrameList[i / 2].bPicEntry != InvalidEntry
          then (if i % 2 == 0 then pp.fieldOrderCntList[i / 2].0 else pp.fieldOrderCntList[i / 2].1)
          else 0)
    + [pp.currFieldOrderCnt.0, pp.currFieldOrderCnt.1]
  }

  // ---------------------------------------------------------------------
  // Per-reference field attributes in the base-address registers

  /** The POC the current picture is compared with: the bottom field's
      for a bottom-field picture, the top field's otherwise. */
  function CurPoc(pp: PicParams): int
  {
    if pp.currPic.associatedFlag then pp.currFieldOrderCnt.1 else pp.currFieldOrderCnt.0
  }

  /** The reference POC as written: the test "used & 3" is true for every
      nonzero marking, so the minimum of both fields is taken even when
      only one field is used for reference. */
  function RefPocAsWritten(pp: PicParams, i: nat): int
    requires WellFormed(pp) && i < 16
  {
    var used := Shr(pp.usedForReferenceFlags, 2 * i) % 4;
    var foc := pp.fieldOrderCntList[i];
    if used != 0 then (if foc.0 <= foc.1 then foc.0 else foc.1)
    else 0
  }

  /** The reference POC the branches evidently intend: the smaller field
      POC when both fields are used, otherwise the one used field's POC. */
  function RefPoc(pp: PicParams, i: nat): (p: int)
    requires WellFormed(pp) && i < 16
    ensures var used := Shr(pp.usedForReferenceFlags, 2 * i) % 4;
            var foc := pp.fieldOrderCntList[i];
            && (used == 3 ==> p <= foc.0 && p <= foc.1 && (p == foc.0 || p == foc.1))
            && (used == 2 ==> p == foc.1)
            && (used == 1 ==> p == foc.0)
            && (used == 0 ==> p == 0)
  {
    var used := Shr(pp.usedForReferenceFlags, 2 * i) % 4;
    var foc := pp.fieldOrderCntList[i];
    if used == 3 then (if foc.0 <= foc.1 then foc.0 else foc.1)
    else if used == 2 then foc.1
    else if used == 1 then foc.0
    else 0
  }

  /** The attribute bits: bit 1 marks a field reference, bit 0 says the
      current picture precedes the reference in output order. */
  function RefAttr(pp: PicParams, i: nat, refPoc: int): (v: nat)
    ensures v < 4
    ensures v / 2 == BitAt(pp.refPicFieldFlags, i)
    ensures v % 2 == 1 <==> BitAt(pp.refPicFieldFlags, i) == 1 && CurPoc(pp) < refPoc
  {
    var fieldFlag := if BitAt(pp.refPicFieldFlags, i) == 1 then 2 else 0;
    var topCloser := if fieldFlag != 0 && CurPoc(pp) < refPoc then 1 else 0;
    topCloser + fieldFlag
  }

  function RefAttrAsWritten(pp: PicParams, i: nat): (v: nat)
    requires WellFormed(pp) && i < 16
    ensures v < 4
  {
    RefAttr(pp, i, RefPocAsWritten(pp, i))
  }

  function RefAttrCorrected(pp: PicParams, i: nat): (v: nat)
    requires WellFormed(pp) && i < 16
    ensures v < 4
    ensures Shr(pp.usedForReferenceFlags, 2 * i) % 4 == 2 && BitAt(pp.refPicFieldFlags, i) == 1 ==>
              (v % 2 == 1 <==> CurPoc(pp) < pp.fieldOrderCntList[i].1)
  {
    RefAttr(pp, i, RefPoc(pp, i))
  }

  /** The two agree whenever both fields or neither are marked used; they
      differ only for a single used field. */
  lemma RefAttrAgreement(pp: PicParams, i: nat)
    requires WellFormed(pp) && i < 16
    requires Shr(pp.usedForReferenceFlags, 2 * i) % 4 == 0 || Shr(pp.usedForReferenceFlags, 2 * i) % 4 == 3
    ensures RefAttrAsWritten(pp, i) == RefAttrCorrected(pp, i)
  {
  }

  /** A concrete case: entry 0 has only its bottom field (POC 10) used for
      reference, its top field has POC 0, and the current top field has
      POC 5.  The current field precedes the referenced bottom field, but
      the code as written compares with POC 0 and clears the bit. */
  lemma RefAttrSingleFieldWitness()
    ensures var pp := PicParams(
              widthMbsMinus1 := 0, heightMbsMinus1 := 0, frameMbsOnly := false,
              fieldPic := true, currPic := PicEntry(0, 0, false), chromaFormatIdc := 1, profileIdc := 77,
              picInitQpMinus26 := 0, log2MaxFrameNumMinus4 := 0,
              refFrameList := seq(16, k => PicEntry(0, 0, false)), usedForReferenceFlags := 2,
              longTermPicNumList := seq(16, k => 0), frameNumList := seq(16, k => 0),
              fieldOrderCntList := seq(16, k => (0, 10)), currFieldOrderCnt := (5, 6),
              refPicFieldFlags := 1);
            RefAttrAsWritten(pp, 0) == 2 && RefAttrCorrected(pp, 0) == 3
  {
    var pp := PicParams(
              widthMbsMinus1 := 0, heightMbsMinus1 := 0, frameMbsOnly := false,
              fieldPic := true, currPic := PicEntry(0, 0, false), chromaFormatIdc := 1, profileIdc := 77,
              picInitQpMinus26 := 0, log2MaxFrameNumMinus4 := 0,
              refFrameList := seq(16, k => PicEntry(0, 0, false)), usedForReferenceFlags := 2,
              longTermPicNumList := seq(16, k => 0), frameNumList := seq(16, k => 0),
              fieldOrderCntList := seq(16, k => (0, 10)), currFieldOrderCnt := (5, 6),
              refPicFieldFlags := 1);
    assert Shr(2, 0) == 2 && Shr(1, 0) == 1;
    assert pp.fieldOrderCntList[0] == (0, 10);
    assert RefPocAsWritten(pp, 0) == 0;
    assert RefPoc(pp, 0) == 10;
  }
}

=== FILE: h264e_bits.dfy ===
/** The H.264 encoder's bitstream writing primitives: the bit writer,
    Exp-Golomb ue(v)/se(v) codes (section 9.1 of ITU-T H.264), RBSP trailing
    bits, emulation-prevention escaping (section 7.4.1), Annex B NAL framing
    and the SEI payload type/size 0xFF-run coding (section 7.3.2.3.1).

    The writer's 32-bit accumulator is abstracted to the sequence of bits
    written since the word-aligned start of the buffer; `ILeft` recovers the
    accumulator's free-bit count from that position. */
module H264eBits {
  import opened Common

  // ---------------------------------------------------------------------
  // Bit writer
  // ---------------------------------------------------------------------

  /** i_left: free bits left in the current 32-bit word (1..32). */
  function ILeft(s: seq<Bit>): (r: nat)
    ensures 1 <= r <= 32
    ensures (|s| + r) % 32 == 0
  {
    32 - |s| % 32
  }

  /** write_with_log: append the `n` low bits of `v`, most significant first.
      The writer ORs `v` unmasked into its accumulator, so callers keep
      `v < 2^n`. */
  function WriteBits(s: seq<Bit>, n: nat, v: nat): (r: seq<Bit>)
    requires n <= 32 && v < Pow2(n)
    ensures |r| == |s| + n
    ensures r[..|s|] == s
    ensures FromBits(r[|s|..]) == v
  {
    FromToBitsExact(v, n);
    assert (s + ToBits(v, n))[|s|..] == ToBits(v, n);
    s + ToBits(v, n)
  }

  /** write1: append one bit. */
  function Write1(s: seq<Bit>, b: Bit): (r: seq<Bit>)
    ensures r == WriteBits(s, 1, b)
  {
    s + [b]
  }

  // ---------------------------------------------------------------------
  // Exp-Golomb codes
  // ---------------------------------------------------------------------

  /** h264e_ue_size_tab[x]: the ue code length for a code number x - 1; the
      table lists 1, 1, 3, 3, then 5 four times, 7 eight times, and so on up
      to 15 for the 128 entries from 128 to 255. */
  function UeSizeTab(x: nat): nat
    requires x < 256
  {
    if x < 2 then 1
    else if x < 4 then 3
    else if x < 8 then 5
    else if x < 16 then 7
    else if x < 32 then 9
    else if x < 64 then 11
    else if x < 128 then 13
    else 15
  }

  /** Every nonzero entry of the size table is 2 * floor(log2 x) + 1. */
  lemma UeSizeTabIsLog2(x: nat)
    requires 1 <= x < 256
    ensures UeSizeTab(x) == 2 * Log2(x) + 1
  {
    Pow2Values();
    if x < 2 { Log2Unique(x, 0); }
    else if x < 4 { Log2Unique(x, 1); }
    else if x < 8 { Log2Unique(x, 2); }
    else if x < 16 { Log2Unique(x, 3); }
    else if x < 32 { Log2Unique(x, 4); }
    else if x < 64 { Log2Unique(x, 5); }
    else if x < 128 { Log2Unique(x, 6); }
    else { Log2Unique(x, 7); }
  }

  /** The code length write_ue computes for `v` from the table, after
      shifting v + 1 down by 16 and by 8 bits. The signed temporary of the
      writer limits v + 1 to 31 bits. */
  function UeCodeLength(v: nat): (size: nat)
    requires v + 1 < 0x8000_0000
    ensures size == 2 * Log2(v + 1) + 1
  {
    var tmp := v + 1;
    UeShiftSteps(tmp);
    var size1 := if tmp >= 0x10000 then 32 else 0;
    var tmp1 := if tmp >= 0x10000 then Shr(tmp, 16) else tmp;
    var size2 := if tmp1 >= 0x100 then size1 + 16 else size1;
    var tmp2 := if tmp1 >= 0x100 then Shr(tmp1, 8) else tmp1;
    UeSizeTabIsLog2(tmp2);
    size2 + UeSizeTab(tmp2)
  }

  /** The two shift steps of write_ue keep the table index in range and
      account for 16 and 8 powers of two of the logarithm. */
  lemma UeShiftSteps(tmp: nat)
    requires 1 <= tmp < 0x8000_0000
    ensures var tmp1 := if tmp >= 0x10000 then Shr(tmp, 16) else tmp;
      var tmp2 := if tmp1 >= 0x100 then Shr(tmp1, 8) else tmp1;
      1 <= tmp2 < 256 &&
      Log2(tmp) == (if tmp >= 0x10000 then 16 else 0) + (if tmp1 >= 0x100 then 8 else 0) + Log2(tmp2)
  {
    Pow2Values();
    var tmp1 := if tmp >= 0x10000 then Shr(tmp, 16) else tmp;
    if tmp >= 0x10000 {
      Log2Shr(tmp, 16);
      ShrBound(tmp, 16, 31);
    }
    assert tmp1 < 0x10000;
    if tmp1 >= 0x100 {
      Log2Shr(tmp1, 8);
      ShrBound(tmp1, 8, 16);
    }
  }

  /** write_ue: floor(log2(v+1)) zero bits, then v + 1 in the next
      floor(log2(v+1)) + 1 bits, which is the ue(v) code of section 9.1. */
  function WriteUe(s: seq<Bit>, v: nat): (r: seq<Bit>)
    requires v + 1 < 0x8000_0000
    ensures r == s + Zeros(Log2(v + 1)) + ToBits(v + 1, Log2(v + 1) + 1)
    ensures |r| == |s| + 2 * Log2(v + 1) + 1
  {
    var size := UeCodeLength(v);
    var l := size / 2;
    assert l == Log2(v + 1);
    Pow2Values();
    Log2Bound(v + 1, 31);
    ToBitsZero(l);
    var s1 := WriteBits(s, l, 0);
    assert s1 == s + Zeros(l);
    WriteBits(s1, l + 1, v + 1)
  }

  /** The code number of a signed value (Table 9-3): 2k - 1 for k > 0 and
      -2k for k <= 0. */
  function SeCodeNum(k: int): (c: nat)
    ensures k > 0 ==> c == 2 * k - 1
    ensures k <= 0 ==> c == -2 * k
  {
    if k > 0 then 2 * k - 1 else -2 * k
  }

  /** The value write_se encodes: 1 - 2v, or 2v when that is negative. */
  function SeTmp(v: int): int
  {
    if 1 - v * 2 < 0 then v * 2 else 1 - v * 2
  }

  /** write_se has no 16-bit shift step, so the table is only indexed in
      range for |2v| below 0x10000. */
  predicate SeInRange(v: int)
  {
    -32767 <= v <= 32767
  }

  /** write_se: the table gives the code length of tmp, and tmp is written
      in exactly that many bits; tmp is one more than the signed code number
      of Table 9-3, so the bits appended are as long as its ue(v) code and
      carry the code number plus one. */
  function WriteSe(s: seq<Bit>, v: int): (r: seq<Bit>)
    requires SeInRange(v)
    ensures |r| == |s| + 2 * Log2(SeCodeNum(v) + 1) + 1
    ensures r[..|s|] == s
    ensures FromBits(r[|s|..]) == SeCodeNum(v) + 1
  {
    var tmp := SeTmp(v);
    assert tmp == SeCodeNum(v) + 1;
    SeSizeIsLog2(v);
    var size := if tmp >= 0x100 then 16 + UeSizeTab(Shr(tmp, 8)) else UeSizeTab(tmp);
    WriteBits(s, size, tmp)
  }

  /** The size write_se computes is 2 * floor(log2 tmp) + 1. */
  lemma SeSizeIsLog2(v: int)
    requires SeInRange(v)
    ensures SeTmp(v) >= 1
    ensures SeTmp(v) >= 0x100 ==> Shr(SeTmp(v), 8) < 256
    ensures var tmp := SeTmp(v);
      (if tmp >= 0x100 then 16 + UeSizeTab(Shr(tmp, 8)) else UeSizeTab(tmp))
        == 2 * Log2(tmp) + 1
    ensures 2 * Log2(SeTmp(v)) + 1 <= 32
    ensures SeTmp(v) < Pow2(2 * Log2(SeTmp(v)) + 1)
  {
    var tmp := SeTmp(v);
    assert 1 <= tmp < 0x10000;
    assert Log2(tmp) < 16 by {
      Pow2Values();
      Log2Bound(tmp, 16);
    }
    if tmp >= 0x100 {
      assert 1 <= Shr(tmp, 8) < 256 && Log2(Shr(tmp, 8)) + 8 == Log2(tmp) by {
        Pow2Values();
        Log2Shr(tmp, 8);
        ShrBound(tmp, 8, 16);
      }
      UeSizeTabIsLog2(Shr(tmp, 8));
    } else {
      UeSizeTabIsLog2(tmp);
    }
    assert tmp < Pow2(2 * Log2(tmp) + 1) by {
      Pow2Monotone(Log2(tmp) + 1, 2 * Log2(tmp) + 1);
    }
  }

  /** se(v) is ue(v) of the signed code number (section 9.1.1). */
  lemma WriteSeIsUeOfCodeNum(s: seq<Bit>, v: int)
    requires SeInRange(v)
    ensures WriteSe(s, v) == WriteUe(s, SeCodeNum(v))
  {
    var tmp := SeTmp(v);
    var l := Log2(tmp);
    var code := ToBits(tmp, l + 1);
    WriteSeShape(s, v);
    assert SeCodeNum(v) + 1 == tmp;
    AppendAssoc(s, Zeros(l), code);
  }

  /** write_se emits floor(log2 tmp) zero bits followed by tmp in
      floor(log2 tmp) + 1 bits. */
  lemma WriteSeShape(s: seq<Bit>, v: int)
    requires SeInRange(v)
    ensures var tmp := SeTmp(v); var l := Log2(tmp);
      WriteSe(s, v) == s + (Zeros(l) + ToBits(tmp, l + 1))
  {
    var tmp := SeTmp(v);
    var l := Log2(tmp);
    SeSizeIsLog2(v);
    ToBitsPad(tmp, l + 1, l);
    assert l + 1 + l == 2 * l + 1;
  }

  /** stream_size_se: the number of bits write_se spends on `v`. */
  function SizeSe(v: int): (n: nat)
    requires SeInRange(v)
    ensures forall s: seq<Bit> {:trigger WriteSe(s, v)} :: |WriteSe(s, v)| == |s| + n
  {
    var tmp := SeTmp(v);
    SeSizeIsLog2(v);
    if tmp < 256 then UeSizeTab(tmp) else UeSizeTab(Shr(tmp, 8)) + 16
  }

  // ---------------------------------------------------------------------
  // Exp-Golomb parsing (section 9.1), the partner of the writers
  // ---------------------------------------------------------------------

  function LeadingZeros(b: seq<Bit>): (z: nat)
    ensures z <= |b|
    ensures forall i :: 0 <= i < z ==> b[i] == 0
    ensures z < |b| ==> b[z] == 1
  {
    if |b| == 0 || b[0] == 1 then 0 else 1 + LeadingZeros(b[1..])
  }

  /** ue(v) parsing: count leading zeros z, then the z + 1 bits starting at
      the first 1 hold codeNum + 1. Returns the code number and the rest. */
  function ParseUe(b: seq<Bit>): Option<(nat, seq<Bit>)>
  {
    UeAfterZeros(b, LeadingZeros(b))
  }

  /** The second half of ue(v) parsing, with the z leading zeros counted:
      the z + 1 bits at position z, or None when the string is too short. */
  function UeAfterZeros(b: seq<Bit>, z: nat): Option<(nat, seq<Bit>)>
    requires z < |b| ==> b[z] == 1
  {
    if |b| < 2 * z + 1 then None
    else
      FromBitsPositive(b[z..2 * z + 1]);
      Some((FromBits(b[z..2 * z + 1]) - 1, b[2 * z + 1..]))
  }

  /** A bit string that starts with a 1 has a positive value. */
  lemma FromBitsPositive(s: seq<Bit>)
    requires |s| >= 1 && s[0] == 1
    ensures FromBits(s) >= 1
  {
    FromBitsLeadingOne(s);
  }

  /** se(v) parsing: map the ue code number back (Table 9-3). */
  function ParseSe(b: seq<Bit>): Option<(int, seq<Bit>)>
  {
    match ParseUe(b)
    case None => None
    case Some((k, rest)) =>
      Some((if k % 2 == 1 then (k + 1) / 2 else -(k / 2), rest))
  }

  lemma {:induction false} LeadingZerosPrefix(n: nat, t: seq<Bit>)
    requires |t| >= 1 && t[0] == 1
    ensures LeadingZeros(Zeros(n) + t) == n
  {
    if n > 0 {
      assert (Zeros(n) + t)[1..] == Zeros(n - 1) + t by {
        assert Zeros(n) == [0] + Zeros(n - 1) by { ZerosCons(n); }
      }
      LeadingZerosPrefix(n - 1, t);
    }
  }

  lemma {:induction false} ZerosCons(n: nat)
    requires n >= 1
    ensures Zeros(n) == [0] + Zeros(n - 1)
  {
    if n > 1 {
      ZerosCons(n - 1);
    }
  }

  /** A code word of l zeros followed by l + 1 bits starting with 1 parses
      as those bits' value minus 1, leaving the rest. */
  lemma ParseUeCodeWord(l: nat, code: seq<Bit>, rest: seq<Bit>)
    requires |code| == l + 1 && code[0] == 1
    ensures FromBits(code) >= 1
    ensures ParseUe(Zeros(l) + (code + rest)) == Some((FromBits(code) - 1, rest))
  {
    var b := Zeros(l) + (code + rest);
    CodeWordSlices(l, code, rest);
    ParseUeOfSlices(b, l, code, rest);
  }

  /** Where the parts of a code word sit in the string. */
  lemma CodeWordSlices(l: nat, code: seq<Bit>, rest: seq<Bit>)
    requires |code| == l + 1 && code[0] == 1
    ensures var b := Zeros(l) + (code + rest);
      && LeadingZeros(b) == l && 2 * l + 1 <= |b|
      && b[l..2 * l + 1] == code && b[2 * l + 1..] == rest
  {
    var tail := code + rest;
    var b := Zeros(l) + tail;
    LeadingZerosPrefix(l, tail);
    assert b[l..2 * l + 1] == code by {
      assert b[l..] == tail;
      assert tail[..l + 1] == code;
    }
    assert b[2 * l + 1..] == rest by {
      assert b[l..] == tail;
      assert tail[l + 1..] == rest;
    }
  }

  /** ue(v) parsing once the zeros, the code and the rest are located. */
  lemma ParseUeOfSlices(b: seq<Bit>, l: nat, code: seq<Bit>, rest: seq<Bit>)
    requires LeadingZeros(b) == l && 2 * l + 1 <= |b|
    requires b[l..2 * l + 1] == code && b[2 * l + 1..] == rest
    ensures FromBits(code) >= 1
    ensures ParseUe(b) == Some((FromBits(code) - 1, rest))
  {
    ParseUeAt(b, l);
    SomePair(ParseUe(b), FromBits(code) - 1, rest);
  }

  /** Once the leading zeros are known, ue(v) parsing is a slice. */
  lemma ParseUeAt(b: seq<Bit>, z: nat)
    requires LeadingZeros(b) == z && 2 * z + 1 <= |b|
    ensures b[z] == 1
    ensures ParseUe(b).Some?
    ensures ParseUe(b).value.1 == b[2 * z + 1..]
    ensures ParseUe(b).value.0 + 1 == FromBits(b[z..2 * z + 1])
  {
  }

  /** Parsing a written ue(v) code gives back v and the following bits. */
  lemma UeRoundTrip(v: nat, rest: seq<Bit>)
    requires v + 1 < 0x8000_0000
    ensures ParseUe(WriteUe([], v) + rest) == Some((v, rest))
  {
    var l := Log2(v + 1);
    var code := ToBits(v + 1, l + 1);
    assert WriteUe([], v) == Zeros(l) + code by {
      assert [] + Zeros(l) == Zeros(l);
    }
    AppendAssoc(Zeros(l), code, rest);
    ParseCodeNumber(v, rest);
  }

  /** The code word of v + 1 after its Log2(v + 1) leading zeros parses back to v. */
  lemma ParseCodeNumber(v: nat, rest: seq<Bit>)
    requires v + 1 < 0x8000_0000
    ensures ParseUe(Zeros(Log2(v + 1)) + (ToBits(v + 1, Log2(v + 1) + 1) + rest)) == Some((v, rest))
  {
    var l := Log2(v + 1);
    CodeWordOf(v + 1, l);
    ParseUeCodeWord(l, ToBits(v + 1, l + 1), rest);
  }

  /** The l + 1 bits of n, with l its base-2 log, start with a one and read back as n. */
  lemma CodeWordOf(n: nat, l: nat)
    requires n >= 1 && l == Log2(n)
    ensures |ToBits(n, l + 1)| == l + 1 && ToBits(n, l + 1)[0] == 1
    ensures FromBits(ToBits(n, l + 1)) == n
  {
    ToBitsLeadingOne(n, l);
    FromToBits(n, l + 1);
    DivModUnique(n, Pow2(l + 1), 0, n);
  }

  /** Parsing a written se(v) code gives back v and the following bits. */
  lemma SeRoundTrip(v: int, rest: seq<Bit>)
    requires SeInRange(v)
    ensures ParseSe(WriteSe([], v) + rest) == Some((v, rest))
  {
    var b := WriteSe([], v) + rest;
    assert b == WriteUe([], SeCodeNum(v)) + rest by {
      WriteSeIsUeOfCodeNum([], v);
    }
    UeRoundTrip(SeCodeNum(v), rest);
    ParseSeOfCodeNum(b, v, rest);
  }

  /** Bits that parse as the ue(v) code of SeCodeNum(v) parse as se(v) to v. */
  lemma ParseSeOfCodeNum(b: seq<Bit>, v: int, rest: seq<Bit>)
    requires ParseUe(b) == Some((SeCodeNum(v), rest))
    ensures ParseSe(b) == Some((v, rest))
  {
    SeCodeNumInverse(v);
  }

  lemma SeCodeNumInverse(v: int)
    ensures var c := SeCodeNum(v);
      (if c % 2 == 1 then (c + 1) / 2 else -(c / 2)) == v
  {
  }

  // ---------------------------------------------------------------------
  // RBSP trailing bits
  // ---------------------------------------------------------------------

  /** rbsp_trailing: a 1 bit, then `i_left & 7` zero bits. */
  function RbspTrailing(s: seq<Bit>): (r: seq<Bit>)
    ensures |s| < |r| <= |s| + 8
    ensures r[..|s|] == s
    ensures r[|s|] == 1
    ensures forall i :: |s| < i < |r| ==> r[i] == 0
    ensures |r| % 8 == 0
  {
    var s1 := Write1(s, 1);
    var k := ILeft(s1) % 8;
    ToBitsZero(k);
    PadToByte(|s1|, ILeft(s1));
    TrailingShape(s, k);
    WriteBits(s1, k, 0)
  }

  /** Padding to a 32-bit boundary pads, modulo 8, to a byte boundary. */
  lemma PadToByte(a: nat, l: nat)
    requires (a + l) % 32 == 0
    ensures (a + l % 8) % 8 == 0
  {
    var q := (a + l) / 32;
    assert a + l == 32 * q;
    var m := l / 8;
    assert l == 8 * m + l % 8;
    assert a + l % 8 == 8 * (4 * q - m);
  }

  /** A 1 bit and k zero bits after s, ending on a byte boundary. */
  lemma TrailingShape(s: seq<Bit>, k: nat)
    requires k < 8 && (|s| + 1 + k) % 8 == 0
    ensures var r := s + [1] + Zeros(k);
      && |s| < |r| <= |s| + 8
      && r[..|s|] == s
      && r[|s|] == 1
      && (forall i :: |s| < i < |r| ==> r[i] == 0)
      && |r| % 8 == 0
  {
    var r := s + [1] + Zeros(k);
    assert r[..|s|] == s;
    forall i | |s| < i < |r|
      ensures r[i] == 0
    {
      assert r[i] == Zeros(k)[i - |s| - 1];
    }
  }

  /** After byte-aligned content the trailing bits are the byte 0x80. */
  lemma RbspTrailingAligned(s: seq<Bit>)
    requires |s| % 8 == 0
    ensures RbspTrailing(s) == s + ToBits(0x80, 8)
  {
    var r := RbspTrailing(s);
    NextByteBoundary(|s|, |r|);
    OneThenSevenZeros(s, r);
  }

  /** The first byte boundary after an aligned length is 8 bits on. */
  lemma NextByteBoundary(a: nat, b: nat)
    requires a % 8 == 0 && b % 8 == 0 && a < b <= a + 8
    ensures b == a + 8
  {
    var p := a / 8;
    var q := b / 8;
    assert a == 8 * p && b == 8 * q;
  }

  lemma OneThenSevenZeros(s: seq<Bit>, r: seq<Bit>)
    requires |r| == |s| + 8 && r[..|s|] == s && r[|s|] == 1
    requires forall i :: |s| < i < |r| ==> r[i] == 0
    ensures r == s + ToBits(0x80, 8)
  {
    var t := ToBits(0x80, 8);
    assert t == [1, 0, 0, 0, 0, 0, 0, 0];
    var tail := r[|s|..];
    forall j | 1 <= j < 8
      ensures tail[j] == 0
    {
      assert tail[j] == r[|s| + j];
    }
    assert tail == t;
    assert r == r[..|s|] + tail;
  }

  // ---------------------------------------------------------------------
  // Emulation prevention (section 7.4.1)
  // ---------------------------------------------------------------------

  /** The escaping loop of nal_escape_c after the first two bytes, given the
      last two bytes already written (`p2`, `p1`): a 0x03 goes out first
      whenever both are zero and the next input byte is at most 0x03. */
  function EscapeTail(p2: Byte, p1: Byte, src: seq<Byte>): (r: seq<Byte>)
    ensures |r| >= |src|
    decreases |src|
  {
    if |src| == 0 then []
    else if src[0] <= 3 && p2 == 0 && p1 == 0 then
      [3, src[0]] + EscapeTail(3, src[0], src[1..])
    else
      [src[0]] + EscapeTail(p1, src[0], src[1..])
  }

  /** nal_escape_c: the first two bytes are copied verbatim and the rest go
      through the escaping loop. */
  function Escape(src: seq<Byte>): (r: seq<Byte>)
    ensures |r| >= |src|
    ensures r[..if |src| < 2 then |src| else 2] == src[..if |src| < 2 then |src| else 2]
  {
    if |src| <= 2 then src else src[..2] + EscapeTail(src[0], src[1], src[2..])
  }

  /** The escaping loop of nal_escape_c, writing into a growing output and
      testing the two bytes last written, as the source does. */
  method NalEscape(src: seq<Byte>) returns (dst: seq<Byte>)
    ensures dst == Escape(src)
  {
    if |src| <= 2 {
      return src;
    }
    dst := src[..2];
    var i := 2;
    while i < |src|
      invariant 2 <= i <= |src| && |dst| >= 2
      invariant dst + EscapeTail(dst[|dst| - 2], dst[|dst| - 1], src[i..]) == Escape(src)
    {
      if src[i] <= 3 && dst[|dst| - 2] == 0 && dst[|dst| - 1] == 0 {
        EscapedLoopStep(dst, src[i..]);
        dst := dst + [3];
      } else {
        CopiedLoopStep(dst, src[i..]);
      }
      dst := dst + [src[i]];
      assert src[i..][1..] == src[i + 1..];
      i := i + 1;
    }
  }

  /** A turn of the escaping loop that inserts 0x03 keeps the output so far
      plus the escaped remainder the same. */
  lemma EscapedLoopStep(d: seq<Byte>, rest: seq<Byte>)
    requires |d| >= 2 && |rest| >= 1
    requires rest[0] <= 3 && d[|d| - 2] == 0 && d[|d| - 1] == 0
    ensures var d2 := d + [3] + [rest[0]];
      && d2[|d2| - 2] == 3 && d2[|d2| - 1] == rest[0]
      && d + EscapeTail(d[|d| - 2], d[|d| - 1], rest) == d2 + EscapeTail(3, rest[0], rest[1..])
  {
    var e := EscapeTail(3, rest[0], rest[1..]);
    assert d + [3] + [rest[0]] == d + [3, rest[0]];
    AppendAssoc(d, [3, rest[0]], e);
  }

  /** A turn of the escaping loop that copies the byte keeps the output so
      far plus the escaped remainder the same. */
  lemma CopiedLoopStep(d: seq<Byte>, rest: seq<Byte>)
    requires |d| >= 2 && |rest| >= 1
    requires !(rest[0] <= 3 && d[|d| - 2] == 0 && d[|d| - 1] == 0)
    ensures var d2 := d + [rest[0]];
      && d2[|d2| - 2] == d[|d| - 1] && d2[|d2| - 1] == rest[0]
      && d + EscapeTail(d[|d| - 2], d[|d| - 1], rest) == d2 + EscapeTail(d[|d| - 1], rest[0], rest[1..])
  {
    AppendAssoc(d, [rest[0]], EscapeTail(d[|d| - 1], rest[0], rest[1..]));
  }

  /** Removal of emulation prevention bytes (section 7.3.1): each 0x03 that
      follows two zero bytes is dropped. */
  function Unescape(b: seq<Byte>): (r: seq<Byte>)
    ensures |r| <= |b|
  {
    if |b| >= 3 && b[0] == 0 && b[1] == 0 && b[2] == 3 then [0, 0] + Unescape(b[3..])
    else if |b| == 0 then []
    else [b[0]] + Unescape(b[1..])
  }

  /** Unescaping the output of the escaping loop, preceded by the two bytes
      it started from, gives those bytes and the loop's input. */
  lemma {:induction false} UnescapeTail(p2: Byte, p1: Byte, src: seq<Byte>)
    ensures Unescape([p2, p1] + EscapeTail(p2, p1, src)) == [p2, p1] + src
    decreases |src|, 1
  {
    if |src| > 0 {
      var x := src[0];
      var t := src[1..];
      assert src == [x] + t;
      if x <= 3 && p2 == 0 && p1 == 0 {
        var e := EscapeTail(3, x, t);
        assert [p2, p1] + EscapeTail(p2, p1, src) == [0, 0, 3] + ([x] + e) by {
          assert EscapeTail(p2, p1, src) == [3, x] + e;
        }
        UnescapeDrop(([x] + e));
        UnescapeAfterInsertion(x, t);
      } else {
        var e := EscapeTail(p1, x, t);
        assert [p2, p1] + EscapeTail(p2, p1, src) == [p2] + ([p1, x] + e) by {
          assert EscapeTail(p2, p1, src) == [x] + e;
        }
        UnescapeKeep(p2, [p1, x] + e);
        UnescapeTail(p1, x, t);
      }
    }
  }

  /** Unescaping drops the 0x03 of 00 00 03. */
  lemma UnescapeDrop(u: seq<Byte>)
    ensures Unescape([0, 0, 3] + u) == [0, 0] + Unescape(u)
  {
    assert ([0, 0, 3] + u)[3..] == u;
  }

  /** Unescaping keeps a byte that does not start 00 00 03. */
  lemma UnescapeKeep(a: Byte, u: seq<Byte>)
    requires |u| >= 2 && !(a == 0 && u[0] == 0 && u[1] == 3)
    ensures Unescape([a] + u) == [a] + Unescape(u)
  {
    assert ([a] + u)[1..] == u;
  }

  /** After an inserted 0x03 the escaping loop cannot insert again at the
      next byte, so unescaping continues in step. */
  lemma {:induction false} UnescapeAfterInsertion(x: Byte, t: seq<Byte>)
    ensures Unescape([x] + EscapeTail(3, x, t)) == [x] + t
    decreases |t|, 0
  {
    if |t| == 0 {
      assert [x] + EscapeTail(3, x, t) == [x];
    } else {
      assert EscapeTail(3, x, t) == [t[0]] + EscapeTail(x, t[0], t[1..]);
      assert [x] + EscapeTail(3, x, t) == [x, t[0]] + EscapeTail(x, t[0], t[1..]);
      UnescapeTail(x, t[0], t[1..]);
      assert [x, t[0]] + t[1..] == [x] + t;
    }
  }

  /** Unescaping the escaped payload recovers it exactly. */
  lemma EscapeRoundTrip(src: seq<Byte>)
    ensures Unescape(Escape(src)) == src
  {
    if |src| <= 2 {
      UnescapeShort(src);
    } else {
      UnescapeTail(src[0], src[1], src[2..]);
      assert [src[0], src[1]] + src[2..] == src;
      assert src[..2] == [src[0], src[1]];
    }
  }

  lemma UnescapeShort(b: seq<Byte>)
    requires |b| <= 2
    ensures Unescape(b) == b
  {
    if |b| > 0 {
      assert Unescape(b[1..]) == b[1..] by {
        if |b| == 2 { assert Unescape(b[1..][1..]) == []; }
      }
    }
  }

  /** No start-code prefix (00 00 00, 00 00 01 or 00 00 02) survives
      escaping anywhere in the output. */
  predicate NoStartCodeEmulation(b: seq<Byte>)
  {
    forall i :: 0 <= i < |b| - 2 ==> !(b[i] == 0 && b[i + 1] == 0 && b[i + 2] <= 2)
  }

  lemma {:induction false} EscapeTailNoEmulation(p2: Byte, p1: Byte, src: seq<Byte>)
    ensures NoStartCodeEmulation([p2, p1] + EscapeTail(p2, p1, src))
    decreases |src|
  {
    if |src| > 0 {
      var x := src[0];
      if x <= 3 && p2 == 0 && p1 == 0 {
        EscapeTailNoEmulation(3, x, src[1..]);
        EscapedStepNoEmulation(p2, p1, src);
      } else {
        EscapeTailNoEmulation(p1, x, src[1..]);
        CopiedStepNoEmulation(p2, p1, src);
      }
    }
  }

  /** The escaping step keeps the output free of start codes: 00 00 03 x. */
  lemma EscapedStepNoEmulation(p2: Byte, p1: Byte, src: seq<Byte>)
    requires |src| > 0 && src[0] <= 3 && p2 == 0 && p1 == 0
    requires NoStartCodeEmulation([3, src[0]] + EscapeTail(3, src[0], src[1..]))
    ensures NoStartCodeEmulation([p2, p1] + EscapeTail(p2, p1, src))
  {
    var t := [3, src[0]] + EscapeTail(3, src[0], src[1..]);
    assert EscapeTail(p2, p1, src) == t;
    NoEmulationCons(p1, t);
    NoEmulationCons(p2, [p1] + t);
    assert [p2, p1] + t == [p2] + ([p1] + t);
  }

  /** The copying step keeps the output free of start codes. */
  lemma CopiedStepNoEmulation(p2: Byte, p1: Byte, src: seq<Byte>)
    requires |src| > 0 && !(src[0] <= 3 && p2 == 0 && p1 == 0)
    requires NoStartCodeEmulation([p1, src[0]] + EscapeTail(p1, src[0], src[1..]))
    ensures NoStartCodeEmulation([p2, p1] + EscapeTail(p2, p1, src))
  {
    var t := [p1, src[0]] + EscapeTail(p1, src[0], src[1..]);
    assert EscapeTail(p2, p1, src) == [src[0]] + EscapeTail(p1, src[0], src[1..]);
    NoEmulationCons(p2, t);
    assert [p2, p1] + EscapeTail(p2, p1, src) == [p2] + t;
  }

  /** A byte put in front of emulation-free bytes starts no start code
      unless it and the next two bytes form one. */
  lemma NoEmulationCons(a: Byte, t: seq<Byte>)
    requires NoStartCodeEmulation(t) && |t| >= 2
    requires !(a == 0 && t[0] == 0 && t[1] <= 2)
    ensures NoStartCodeEmulation([a] + t)
  {
    var b := [a] + t;
    forall i | 1 <= i < |b| - 2
      ensures !(b[i] == 0 && b[i + 1] == 0 && b[i + 2] <= 2)
    {
      assert b[i] == t[i - 1] && b[i + 1] == t[i] && b[i + 2] == t[i + 1];
    }
  }

  lemma EscapeNoEmulation(src: seq<Byte>)
    ensures NoStartCodeEmulation(Escape(src))
  {
    if |src| > 2 {
      EscapeTailNoEmulation(src[0], src[1], src[2..]);
      assert src[..2] == [src[0], src[1]];
    }
  }

  // ---------------------------------------------------------------------
  // NAL framing (Annex B)
  // ---------------------------------------------------------------------

  datatype EncodedNal = EncodedNal(bytes: seq<Byte>, iPayload: int)

  /** nal_encode: start code 00 00 01, the header byte
      (nal_ref_idc << 5) | nal_unit_type, then the escaped payload; i_payload
      becomes (bytes written - 4) + 4. */
  function NalEncode(refIdc: nat, nalType: nat, payload: seq<Byte>): (r: EncodedNal)
    requires refIdc < 4 && nalType < 32
    ensures r.iPayload == |r.bytes|
    ensures |r.bytes| >= 4 && r.bytes[..3] == [0, 0, 1]
    ensures r.bytes[3] < 0x80
    ensures r.bytes[3] / 32 == refIdc && r.bytes[3] % 32 == nalType
    ensures Unescape(r.bytes[4..]) == payload
    ensures NoStartCodeEmulation(r.bytes[4..])
  {
    var header := refIdc * 32 + nalType;
    HeaderByte(refIdc, nalType);
    var bytes := [0, 0, 1, header] + Escape(payload);
    NalBytes(header, payload);
    var size := |bytes| - 4;
    EncodedNal(bytes, size + 4)
  }

  /** Start code, header byte and escaped payload, where unescaping the
      part after the header gives the payload back. */
  lemma NalBytes(header: Byte, payload: seq<Byte>)
    ensures var bytes := [0, 0, 1, header] + Escape(payload);
      && |bytes| >= 4 && bytes[..3] == [0, 0, 1] && bytes[3] == header
      && Unescape(bytes[4..]) == payload && NoStartCodeEmulation(bytes[4..])
  {
    var bytes := [0, 0, 1, header] + Escape(payload);
    assert bytes[4..] == Escape(payload);
    EscapeRoundTrip(payload);
    EscapeNoEmulation(payload);
  }

  /** The header byte packs nal_ref_idc above the 5-bit nal_unit_type. */
  lemma HeaderByte(refIdc: nat, nalType: nat)
    requires refIdc < 4 && nalType < 32
    ensures refIdc * 32 + nalType < 0x80
    ensures (refIdc * 32 + nalType) / 32 == refIdc && (refIdc * 32 + nalType) % 32 == nalType
  {
    DivModUnique(refIdc * 32 + nalType, 32, refIdc, nalType);
  }

  // ---------------------------------------------------------------------
  // SEI message (section 7.3.2.3.1)
  // ---------------------------------------------------------------------

  /** The 0xFF-run coding of a payload type or size: one 0xFF byte per
      whole 255, then the remainder. */
  function FfRun(v: nat): (r: seq<Byte>)
    ensures |r| == v / 255 + 1
    ensures forall i :: 0 <= i < |r| - 1 ==> r[i] == 0xFF
    ensures r[|r| - 1] == v % 255
  {
    if v >= 255 then [0xFF] + FfRun(v - 255) else [v]
  }

  /** Reading a 0xFF-run coded value: add 255 per 0xFF byte, then the first
      byte below 0xFF. */
  function ParseFfRun(b: seq<Byte>): Option<(nat, seq<Byte>)>
  {
    if |b| == 0 then None
    else if b[0] == 0xFF then
      match ParseFfRun(b[1..])
      case None => None
      case Some((v, rest)) => Some((v + 255, rest))
    else Some((b[0], b[1..]))
  }

  lemma {:induction false} FfRunRoundTrip(v: nat, rest: seq<Byte>)
    ensures ParseFfRun(FfRun(v) + rest) == Some((v, rest))
    decreases v
  {
    var b := FfRun(v) + rest;
    if v >= 255 {
      assert b[0] == 0xFF && b[1..] == FfRun(v - 255) + rest;
      FfRunRoundTrip(v - 255, rest);
    } else {
      assert b[0] == v && b[1..] == rest;
    }
  }

  /** The bytes of an SEI message body: type, size, payload, then the
      trailing byte. */
  function SeiBytes(payloadType: nat, payload: seq<Byte>): seq<Byte>
  {
    FfRun(payloadType) + FfRun(|payload|) + payload + [0x80]
  }

  /** sei_write: starting byte-aligned, the type and size as 0xFF runs, the
      payload bytes, then rbsp_trailing; the message is whole bytes. */
  function SeiWrite(payloadType: nat, payload: seq<Byte>): (r: seq<Bit>)
    ensures r == BytesToBits(SeiBytes(payloadType, payload))
  {
    var body := FfRun(payloadType) + FfRun(|payload|) + payload;
    TrailingByte(body);
    RbspTrailing(BytesToBits(body))
  }

  /** rbsp_trailing after whole bytes appends the byte 0x80. */
  lemma TrailingByte(body: seq<Byte>)
    ensures RbspTrailing(BytesToBits(body)) == BytesToBits(body + [0x80])
  {
    var bits := BytesToBits(body);
    assert RbspTrailing(bits) == bits + ToBits(0x80, 8) by {
      RbspTrailingAligned(bits);
    }
    assert BytesToBits(body + [0x80]) == bits + ToBits(0x80, 8) by {
      BytesToBitsAppend(body, [0x80]);
      OneByteBits(0x80);
    }
  }

  lemma OneByteBits(b: Byte)
    ensures BytesToBits([b]) == ToBits(b, 8)
  {
    assert [b][1..] == [];
  }

  lemma {:induction false} BytesToBitsAppend(a: seq<Byte>, b: seq<Byte>)
    ensures BytesToBits(a + b) == BytesToBits(a) + BytesToBits(b)
  {
    if |a| > 0 {
      assert (a + b)[1..] == a[1..] + b;
      BytesToBitsAppend(a[1..], b);
    } else {
      assert a + b == b;
    }
  }

  /** Reading an SEI message body back: type, size, payload bytes, then the
      trailing byte 0x80. */
  function ParseSei(b: seq<Byte>): Option<(nat, seq<Byte>)>
  {
    match ParseFfRun(b)
    case None => None
    case Some((t, r1)) =>
      match ParseFfRun(r1)
      case None => None
      case Some((n, r2)) =>
        if |r2| == n + 1 && r2[n] == 0x80 then Some((t, r2[..n])) else None
  }

  lemma SeiRoundTrip(payloadType: nat, payload: seq<Byte>)
    ensures ParseSei(SeiBytes(payloadType, payload)) == Some((payloadType, payload))
  {
    var tail := payload + [0x80];
    assert SeiBytes(payloadType, payload) == FfRun(payloadType) + (FfRun(|payload|) + tail);
    FfRunRoundTrip(payloadType, FfRun(|payload|) + tail);
    FfRunRoundTrip(|payload|, tail);
    assert tail[..|payload|] == payload;
  }
}

=== FILE: h264e_frames.dfy ===
/** The H.264 encoder's decoded-picture-buffer bookkeeping: NULL-terminated
    arrays of frame pointers (push, pop, unshift, shift), the fixed pool of
    frame buffers, and reference counting through the `unused` list.

    A frame pointer is modelled as the index of the frame in the pool
    (`frame_buf`), and a NULL entry as `None`. */
module H264eFrames {
  import opened Common

  /** A fixed-size array of frame pointers, used up to its first NULL. */
  type FrameList = seq<Option<nat>>

  /** The number of frames before the first NULL. */
  function Count(l: FrameList): (n: nat)
    requires None in l
    ensures n < |l| && l[n] == None
    ensures forall j :: 0 <= j < n ==> l[j].Some?
  {
    if l[0] == None then 0 else 1 + Count(l[1..])
  }

  /** Every entry after the first NULL is NULL too. */
  predicate WellFormed(l: FrameList)
  {
    None in l && forall j :: Count(l) <= j < |l| ==> l[j] == None
  }

  /** A well-formed list with a free slot that still leaves a terminator. */
  predicate HasRoom(l: FrameList)
  {
    WellFormed(l) && Count(l) + 1 < |l|
  }

  lemma CountUnique(l: FrameList, n: nat)
    requires n < |l| && l[n] == None
    requires forall j :: 0 <= j < n ==> l[j].Some?
    ensures None in l && Count(l) == n
  {
  }

  /** frame_push: store the frame in the first NULL slot. */
  function Push(l: FrameList, f: nat): (r: FrameList)
    requires None in l
    ensures |r| == |l|
    ensures r[Count(l)] == Some(f)
    ensures forall j :: 0 <= j < |l| && j != Count(l) ==> r[j] == l[j]
    ensures HasRoom(l) ==> WellFormed(r) && Count(r) == Count(l) + 1
  {
    PushRoom(l, f);
    l[Count(l) := Some(f)]
  }

  lemma PushRoom(l: FrameList, f: nat)
    requires None in l
    ensures var r := l[Count(l) := Some(f)];
      HasRoom(l) ==> WellFormed(r) && Count(r) == Count(l) + 1
  {
    var n := Count(l);
    if HasRoom(l) {
      CountUnique(l[n := Some(f)], n + 1);
    }
  }

  /** frame_pop: take the frame before the first NULL and clear its slot;
      the source asserts that the list is not empty. */
  function Pop(l: FrameList): (r: (nat, FrameList))
    requires None in l && l[0].Some?
    ensures Some(r.0) == l[Count(l) - 1]
    ensures |r.1| == |l|
    ensures forall j :: 0 <= j < |l| && j != Count(l) - 1 ==> r.1[j] == l[j]
    ensures r.1[Count(l) - 1] == None
    ensures WellFormed(l) ==> WellFormed(r.1) && Count(r.1) == Count(l) - 1
  {
    var i := Count(l) - 1;
    var r := l[i := None];
    CountUnique(r, i);
    (l[i].value, r)
  }

  /** Pushing a frame and popping it again gives back the frame and the
      original list. */
  lemma PushPop(l: FrameList, f: nat)
    requires HasRoom(l)
    ensures None in Push(l, f) && Push(l, f)[0].Some?
    ensures Pop(Push(l, f)) == (f, l)
  {
    var p := Push(l, f);
    assert p[0].Some? by {
      if Count(l) > 0 { assert p[0] == l[0]; }
    }
    var (g, q) := Pop(p);
    assert q == l;
  }

  /** frame_unshift: move the frames up by one slot and put the new frame
      first; the old terminator slot receives the last frame. */
  function Unshift(l: FrameList, f: nat): (r: FrameList)
    requires None in l
    ensures |r| == |l|
    ensures r[0] == Some(f)
    ensures forall j :: 0 <= j < Count(l) ==> r[j + 1] == l[j]
    ensures forall j :: Count(l) < j < |l| ==> r[j] == l[j]
    ensures HasRoom(l) ==> WellFormed(r) && Count(r) == Count(l) + 1
  {
    var n := Count(l);
    UnshiftRoom(l, f);
    [Some(f)] + l[..n] + l[n + 1..]
  }

  lemma UnshiftRoom(l: FrameList, f: nat)
    requires None in l
    ensures var n := Count(l); var r := [Some(f)] + l[..n] + l[n + 1..];
      (forall j :: 0 <= j < n ==> r[j + 1] == l[j]) &&
      (HasRoom(l) ==> WellFormed(r) && Count(r) == n + 1)
  {
    var n := Count(l);
    var r := [Some(f)] + l[..n] + l[n + 1..];
    assert forall j :: 0 <= j < n ==> r[j + 1] == l[j];
    if HasRoom(l) {
      CountUnique(r, n + 1);
    }
  }

  /** frame_shift: take the first frame and move the rest down by one slot;
      the source asserts that the first entry is not NULL. */
  function Shift(l: FrameList): (r: (nat, FrameList))
    requires None in l && l[0].Some?
    ensures Some(r.0) == l[0]
    ensures |r.1| == |l|
    ensures forall j :: 0 <= j < Count(l) ==> r.1[j] == l[j + 1]
    ensures forall j :: Count(l) <= j < |l| ==> r.1[j] == l[j]
    ensures WellFormed(l) ==> WellFormed(r.1) && Count(r.1) == Count(l) - 1
  {
    var n := Count(l);
    var r := l[1..n + 1] + l[n..];
    assert forall j :: 0 <= j < n ==> r[j] == l[j + 1];
    assert forall j :: n <= j < |l| ==> r[j] == l[j];
    CountUnique(r, n - 1);
    (l[0].value, r)
  }

  /** Unshifting a frame and shifting it off again gives back the frame and
      the original list. */
  lemma UnshiftShift(l: FrameList, f: nat)
    requires HasRoom(l)
    ensures None in Unshift(l, f) && Unshift(l, f)[0].Some?
    ensures Shift(Unshift(l, f)) == (f, l)
  {
    var u := Unshift(l, f);
    var (g, q) := Shift(u);
    var n := Count(l);
    assert Count(u) == n + 1;
    forall j | 0 <= j < |l|
      ensures q[j] == l[j]
    {
      if j < n + 1 {
        assert q[j] == u[j + 1];
        if j == n {
          assert u[n + 1] == l[n + 1] == None;
        }
      }
    }
    assert q == l;
  }

  // ---------------------------------------------------------------------
  // The frame pool and reference counts
  // ---------------------------------------------------------------------

  datatype Frame = Frame(
    hwBufUsed: bool,
    refCount: int,
    keyframe: bool,
    corrupt: bool,
    longTerm: bool,
    reorderLongTerm: bool)

  /** The pool `frame_buf`, the `unused` and `reference` lists, and the
      picture order count of the frame being encoded. */
  datatype Dpb = Dpb(frameBuf: seq<Frame>, unused: FrameList, reference: FrameList, fdecPoc: int)

  /** Every pointer stored in a list designates a frame of the pool. */
  predicate ValidIds(l: FrameList, poolSize: nat)
  {
    forall j :: 0 <= j < |l| && l[j].Some? ==> l[j].value < poolSize
  }

  predicate ValidDpb(d: Dpb)
  {
    None in d.unused && ValidIds(d.unused, |d.frameBuf|) &&
    WellFormed(d.reference) && ValidIds(d.reference, |d.frameBuf|)
  }

  /** The index of the first pool frame whose hardware buffer is free. */
  function FirstFree(bufs: seq<Frame>): (r: Option<nat>)
    ensures r.Some? ==> r.value < |bufs| && !bufs[r.value].hwBufUsed
    ensures r.Some? ==> forall j :: 0 <= j < r.value ==> bufs[j].hwBufUsed
    ensures r.None? <==> forall j :: 0 <= j < |bufs| ==> bufs[j].hwBufUsed
  {
    if |bufs| == 0 then None
    else if !bufs[0].hwBufUsed then Some(0)
    else
      match FirstFree(bufs[1..])
      case None => None
      case Some(k) => Some(k + 1)
  }

  /** frame_new: claim the first pool frame with a free hardware buffer,
      or fail (NULL) when every buffer is in use. */
  function FrameNew(d: Dpb): (r: Option<(nat, Dpb)>)
    ensures r.None? <==> forall j :: 0 <= j < |d.frameBuf| ==> d.frameBuf[j].hwBufUsed
    ensures r.Some? ==> var (k, d2) := r.value;
      k < |d.frameBuf| && !d.frameBuf[k].hwBufUsed &&
      (forall j :: 0 <= j < k ==> d.frameBuf[j].hwBufUsed) &&
      d2 == d.(frameBuf := d.frameBuf[k := d.frameBuf[k].(hwBufUsed := true)])
  {
    match FirstFree(d.frameBuf)
    case None => None
    case Some(k) => Some((k, d.(frameBuf := d.frameBuf[k := d.frameBuf[k].(hwBufUsed := true)])))
  }

  /** frame_push_unused: drop one reference; a frame whose count reaches
      zero goes back on the unused list. The source asserts the count is
      positive. */
  function PushUnused(d: Dpb, k: nat): (r: Dpb)
    requires k < |d.frameBuf| && d.frameBuf[k].refCount > 0
    requires None in d.unused
    ensures |r.frameBuf| == |d.frameBuf|
    ensures r.frameBuf[k] == d.frameBuf[k].(refCount := d.frameBuf[k].refCount - 1)
    ensures forall j :: 0 <= j < |d.frameBuf| && j != k ==> r.frameBuf[j] == d.frameBuf[j]
    ensures r.reference == d.reference && r.fdecPoc == d.fdecPoc
    ensures d.frameBuf[k].refCount == 1 ==> r.unused == Push(d.unused, k)
    ensures d.frameBuf[k].refCount > 1 ==> r.unused == d.unused
  {
    var f := d.frameBuf[k].(refCount := d.frameBuf[k].refCount - 1);
    var d1 := d.(frameBuf := d.frameBuf[k := f]);
    if f.refCount == 0 then d1.(unused := Push(d.unused, k)) else d1
  }

  /** frame_pop_unused: reuse the last unused frame, or claim a new pool
      frame when the unused list is empty; the frame returned has one
      reference and cleared keyframe, corrupt and long-term flags. */
  function PopUnused(d: Dpb): (r: Option<(nat, Dpb)>)
    requires None in d.unused && ValidIds(d.unused, |d.frameBuf|)
    ensures r.None? <==> d.unused[0] == None && forall j :: 0 <= j < |d.frameBuf| ==> d.frameBuf[j].hwBufUsed
    ensures r.Some? ==> var (k, d2) := r.value;
      k < |d2.frameBuf| == |d.frameBuf| &&
      d2.frameBuf[k].refCount == 1 && !d2.frameBuf[k].keyframe && !d2.frameBuf[k].corrupt &&
      !d2.frameBuf[k].longTerm && !d2.frameBuf[k].reorderLongTerm
    ensures r.Some? && d.unused[0].Some? ==>
              r.value.0 == d.unused[Count(d.unused) - 1].value && r.value.1.unused == Pop(d.unused).1
              && r.value.1.frameBuf[r.value.0].hwBufUsed == d.frameBuf[r.value.0].hwBufUsed
    ensures r.Some? && d.unused[0].None? ==>
              Some(r.value.0) == FirstFree(d.frameBuf) && r.value.1.unused == d.unused
              && r.value.1.frameBuf[r.value.0].hwBufUsed
    ensures r.Some? ==> var (k, d2) := r.value;
      && d2.reference == d.reference && d2.fdecPoc == d.fdecPoc
      && (forall j :: 0 <= j < |d.frameBuf| && j != k ==> d2.frameBuf[j] == d.frameBuf[j])
  {
    var got: Option<(nat, Dpb)> :=
      if d.unused[0].Some? then
        var (k, u) := Pop(d.unused);
        Some((k, d.(unused := u)))
      else FrameNew(d);
    match got
    case None => None
    case Some((k, d1)) =>
      var f := d1.frameBuf[k].(refCount := 1, keyframe := false, corrupt := false,
                               longTerm := false, reorderLongTerm := false);
      Some((k, d1.(frameBuf := d1.frameBuf[k := f])))
  }

  /** Whether reference_reset can release every reference frame without
      failing an assertion of push_unused: each popped frame still holds a
      reference, and the unused list has a slot for it. */
  predicate CanReset(d: Dpb)
    requires ValidDpb(d)
    decreases Count(d.reference)
  {
    d.reference[0] == None ||
    var (k, ref2) := Pop(d.reference);
    var d1 := d.(reference := ref2);
    d.frameBuf[k].refCount > 0 && HasRoomOrNone(d.unused, d.frameBuf[k].refCount) &&
    (PushUnusedKeepsValid(d1, k); CanReset(PushUnused(d1, k)))
  }

  /** The unused list can take a frame when the count is about to reach
      zero. */
  predicate HasRoomOrNone(u: FrameList, count: int)
  {
    None in u && (count == 1 ==> None in u[Count(u) + 1..])
  }

  lemma PushUnusedKeepsValid(d: Dpb, k: nat)
    requires k < |d.frameBuf| && d.frameBuf[k].refCount > 0
    requires None in d.unused && ValidIds(d.unused, |d.frameBuf|)
    requires WellFormed(d.reference) && ValidIds(d.reference, |d.frameBuf|)
    requires HasRoomOrNone(d.unused, d.frameBuf[k].refCount)
    ensures ValidDpb(PushUnused(d, k))
  {
    var r := PushUnused(d, k);
    if d.frameBuf[k].refCount == 1 {
      var n := Count(d.unused);
      var j :| j in d.unused[n + 1..] && j == None;
      assert r.unused[n + 1..] == d.unused[n + 1..];
    }
  }

  /** reference_reset: pop every reference frame and release it with
      push_unused, then reset the picture order count. */
  function ReferenceReset(d: Dpb): (r: Dpb)
    requires ValidDpb(d) && CanReset(d)
    decreases Count(d.reference)
    ensures |r.reference| == |d.reference| && r.reference[0] == None
    ensures r.fdecPoc == 0
    ensures |r.frameBuf| == |d.frameBuf|
    ensures forall j :: 0 <= j < |d.frameBuf| && Some(j) !in d.reference ==>
      r.frameBuf[j] == d.frameBuf[j]
  {
    if d.reference[0] == None then d.(fdecPoc := 0)
    else
      var (k, ref2) := Pop(d.reference);
      var d1 := d.(reference := ref2);
      PushUnusedKeepsValid(d1, k);
      var d2 := PushUnused(d1, k);
      assert forall j :: Some(j) in ref2 ==> Some(j) in d.reference;
      ReferenceReset(d2)
  }

  /** Popping a frame removes one occurrence of it from the list and
      leaves the occurrences of every other frame. */
  lemma PopOccurrences(l: FrameList, j: nat)
    requires None in l && l[0].Some?
    ensures multiset(Pop(l).1)[Some(j)] == multiset(l)[Some(j)] - (if j == Pop(l).0 then 1 else 0)
  {
    var n := Count(l);
    assert Pop(l).1 == l[n - 1 := None];
  }

  /** A list that starts with NULL holds no frame before its terminator, so
      a well-formed one holds none at all. */
  lemma NoFramesInEmptyList(l: FrameList, j: nat)
    requires WellFormed(l) && l[0] == None
    ensures multiset(l)[Some(j)] == 0
  {
    assert Count(l) == 0;
    assert Some(j) !in l;
  }

  /** One round of reference_reset's loop: pop the last reference and
      release it. */
  function ResetNext(d: Dpb): (d2: Dpb)
    requires ValidDpb(d) && CanReset(d) && d.reference[0] != None
    ensures ValidDpb(d2) && CanReset(d2) && Count(d2.reference) < Count(d.reference)
    ensures ReferenceReset(d) == ReferenceReset(d2)
  {
    var (k, ref2) := Pop(d.reference);
    var d1 := d.(reference := ref2);
    PushUnusedKeepsValid(d1, k);
    PushUnused(d1, k)
  }

  /** What one round does to a frame, its occurrences and the unused list:
      the popped frame loses one reference and one occurrence, the others
      keep both, and the unused list only gains the popped frame when its
      count reaches zero. */
  lemma ResetNextStep(d: Dpb, j: nat)
    requires ValidDpb(d) && CanReset(d) && d.reference[0] != None && j < |d.frameBuf|
    ensures var d2 := ResetNext(d); var k := Pop(d.reference).0;
      && |d2.frameBuf| == |d.frameBuf| && |d2.unused| == |d.unused|
      && d2.frameBuf[j] == (if j == k then d.frameBuf[j].(refCount := d.frameBuf[j].refCount - 1) else d.frameBuf[j])
      && multiset(d2.reference)[Some(j)] == multiset(d.reference)[Some(j)] - (if j == k then 1 else 0)
      && (forall i :: 0 <= i < |d.unused| && d.unused[i].Some? ==> d2.unused[i] == d.unused[i])
      && (j == k && d.frameBuf[k].refCount == 1 ==> d2.unused[Count(d.unused)] == Some(k))
  {
    PopOccurrences(d.reference, j);
  }

  /** reference_reset releases each reference once per occurrence: every
      pool frame loses as many references as the reference list held
      pointers to it, and nothing else about it changes. */
  lemma {:induction false} ReferenceResetCounts(d: Dpb, j: nat)
    requires ValidDpb(d) && CanReset(d) && j < |d.frameBuf|
    decreases Count(d.reference)
    ensures ReferenceReset(d).frameBuf[j]
            == d.frameBuf[j].(refCount := d.frameBuf[j].refCount - multiset(d.reference)[Some(j)])
  {
    if d.reference[0] == None {
      NoFramesInEmptyList(d.reference, j);
    } else {
      ResetNextStep(d, j);
      ReferenceResetCounts(ResetNext(d), j);
    }
  }

  /** The frames already on the unused list stay there through a reset. */
  lemma {:induction false} ReferenceResetKeepsUnused(d: Dpb, i: nat)
    requires ValidDpb(d) && CanReset(d) && i < |d.unused| && d.unused[i].Some?
    decreases Count(d.reference)
    ensures d.unused[i] in ReferenceReset(d).unused
  {
    if d.reference[0] != None {
      ResetNextStep(d, 0);
      ReferenceResetKeepsUnused(ResetNext(d), i);
    }
  }

  /** A referenced frame whose every reference came from the reference
      list reaches zero and is on the unused list after the reset. */
  lemma {:induction false} ReferenceResetFrees(d: Dpb, j: nat)
    requires ValidDpb(d) && CanReset(d) && j < |d.frameBuf|
    requires multiset(d.reference)[Some(j)] > 0 && d.frameBuf[j].refCount == multiset(d.reference)[Some(j)]
    decreases Count(d.reference)
    ensures ReferenceReset(d).frameBuf[j].refCount == 0
    ensures Some(j) in ReferenceReset(d).unused
  {
    ReferenceResetCounts(d, j);
    assert d.reference[0] != None by {
      if d.reference[0] == None { NoFramesInEmptyList(d.reference, j); }
    }
    ResetNextStep(d, j);
    var k := Pop(d.reference).0;
    if j == k && d.frameBuf[k].refCount == 1 {
      ReferenceResetKeepsUnused(ResetNext(d), Count(d.unused));
    } else {
      ReferenceResetFrees(ResetNext(d), j);
    }
  }
}

=== FILE: h264e_sps.dfy ===
/** Sequence parameter set derivation of the RKV H.264 encoder HAL: the
    input colour-space conversion, macroblock geometry and cropping, the
    level 1b signalling, the reference-frame counts, the frame-number and
    picture-order-count field widths, and the VUI defaults. */
module H264eSps {
  import opened Common

  /** Input colour spaces understood by the encoder hardware, in the order of
      the hardware's format code (BGRA8888 is code 0, UYVY422 code 9). */
  datatype RkvCsp =
    | CspBgra8888 | CspBgr888 | CspBgr565 | CspNone | CspYuv422sp | CspYuv422p
    | CspYuv420sp | CspYuv420p | CspYuyv422 | CspUyvy422

  /** The hardware colour space plus the chroma-order and alpha-order swaps. */
  datatype CspInfo = CspInfo(fmt: RkvCsp, cswap: Bit, aswap: Bit)

  /** Formats the hardware cannot take as input. */
  predicate Unsupported(f: MppFmt)
  {
    f in {Yuv420sp10Bit, Yuv422sp10Bit, Rgb555, Bgr555, Rgb444, Bgr444,
          Rgb101010, Bgr101010, FmtButt}
  }

  /** Formats stored with the two chroma (or red/blue) components in the
      order opposite to the hardware's. */
  predicate ChromaSwapped(f: MppFmt)
  {
    f in {Yuv420spVu, Yuv422spVu, Rgb565, Rgb888, Argb8888}
  }

  /** The format with the same layout whose component order the hardware
      takes natively. */
  function NativeOrder(f: MppFmt): (g: MppFmt)
    ensures ChromaSwapped(f) ==> !ChromaSwapped(g) && g != f
    ensures !ChromaSwapped(f) ==> g == f
  {
    match f
    case Yuv420spVu => Yuv420sp
    case Yuv422spVu => Yuv422sp
    case Rgb565 => Bgr565
    case Rgb888 => Bgr888
    case Argb8888 => Abgr8888
    case _ => f
  }

  /** Maps a frame format code to the hardware colour space.  Unknown codes
      and formats without hardware support give CspNone; formats in the
      swapped component order set cswap, and the alpha-first formats set
      aswap. */
  function ConvertCsp(src: int): (r: CspInfo)
    ensures r.fmt == CspNone <==> FmtOfCode(src).None? || Unsupported(FmtOfCode(src).value)
    ensures r.cswap == 1 <==> FmtOfCode(src).Some? && ChromaSwapped(FmtOfCode(src).value)
    ensures r.aswap == 1 <==> FmtOfCode(src) in {Some(Argb8888), Some(Abgr8888)}
  {
    match FmtOfCode(src)
    case None => CspInfo(CspNone, 0, 0)
    case Some(f) =>
      match f
      case Yuv420p => CspInfo(CspYuv420p, 0, 0)
      case Yuv420sp => CspInfo(CspYuv420sp, 0, 0)
      case Yuv420spVu => CspInfo(CspYuv420sp, 1, 0)
      case Yuv422p => CspInfo(CspYuv422p, 0, 0)
      case Yuv422sp => CspInfo(CspYuv422sp, 0, 0)
      case Yuv422spVu => CspInfo(CspYuv422sp, 1, 0)
      case Yuv422Yuyv => CspInfo(CspYuyv422, 0, 0)
      case Yuv422Uyvy => CspInfo(CspUyvy422, 0, 0)
      case Rgb565 => CspInfo(CspBgr565, 1, 0)
      case Bgr565 => CspInfo(CspBgr565, 0, 0)
      case Rgb888 => CspInfo(CspBgr888, 1, 0)
      case Bgr888 => CspInfo(CspBgr888, 0, 0)
      case Argb8888 => CspInfo(CspBgra8888, 1, 1)
      case Abgr8888 => CspInfo(CspBgra8888, 0, 1)
      case _ => CspInfo(CspNone, 0, 0)
  }

  /** A swapped-order format reaches the same hardware colour space as its
      native-order twin and differs from it only in the swap flag. */
  lemma ConvertCspSwapTwin(f: MppFmt)
    requires ChromaSwapped(f)
    ensures ConvertCsp(FmtCode(f)).fmt == ConvertCsp(FmtCode(NativeOrder(f))).fmt != CspNone
    ensures ConvertCsp(FmtCode(f)).cswap == 1 && ConvertCsp(FmtCode(NativeOrder(f))).cswap == 0
    ensures ConvertCsp(FmtCode(f)).aswap == ConvertCsp(FmtCode(NativeOrder(f))).aswap
  {
    FmtCodeRoundTrip(f);
    FmtCodeRoundTrip(NativeOrder(f));
  }

  /** The x264-style colour-space classes; only their relative order
      matters to the SPS derivation. */
  datatype Csp2 = Csp2None | I420 | Nv12 | I422 | Nv16 | I444 | Bgr | Bgra | Rgb

  function Csp2Rank(c: Csp2): (r: nat)
    ensures r == 0 <==> c == Csp2None
  {
    match c
    case Csp2None => 0
    case I420 => 1
    case Nv12 => 3
    case I422 => 5
    case Nv16 => 7
    case I444 => 9
    case Bgr => 11
    case Bgra => 12
    case Rgb => 13
  }

  /** The colour-space class table indexed by hardware colour space. */
  function CspClass(c: RkvCsp): (r: Csp2)
    ensures r == Csp2None <==> c == CspNone
  {
    match c
    case CspBgra8888 => Bgra
    case CspBgr888 => Bgr
    case CspBgr565 => Rgb
    case CspNone => Csp2None
    case CspYuv422sp => Nv16
    case CspYuv422p => I422
    case CspYuv420sp => Nv12
    case CspYuv420p => I420
    case CspYuyv422 => Rgb
    case CspUyvy422 => Rgb
  }

  datatype ChromaFormat = Chroma420 | Chroma422 | Chroma444

  /** chroma_format_idc from the colour-space class: 4:4:4 from I444 on,
      4:2:2 from I422 on, otherwise 4:2:0. */
  function ChromaOf(c: Csp2): (r: ChromaFormat)
    ensures r == Chroma444 <==> Csp2Rank(c) >= Csp2Rank(I444)
    ensures r == Chroma420 <==> Csp2Rank(c) < Csp2Rank(I422)
  {
    if Csp2Rank(c) >= Csp2Rank(I444) then Chroma444
    else if Csp2Rank(c) >= Csp2Rank(I422) then Chroma422
    else Chroma420
  }

  /** The planar and semi-planar YUV inputs keep their chroma subsampling. */
  lemma ChromaOfYuvInputs()
    ensures ChromaOf(CspClass(ConvertCsp(FmtCode(Yuv420p)).fmt)) == Chroma420
    ensures ChromaOf(CspClass(ConvertCsp(FmtCode(Yuv420sp)).fmt)) == Chroma420
    ensures ChromaOf(CspClass(ConvertCsp(FmtCode(Yuv422p)).fmt)) == Chroma422
    ensures ChromaOf(CspClass(ConvertCsp(FmtCode(Yuv422sp)).fmt)) == Chroma422
  {
    FmtCodeRoundTrip(Yuv420p);
    FmtCodeRoundTrip(Yuv420sp);
    FmtCodeRoundTrip(Yuv422p);
    FmtCodeRoundTrip(Yuv422sp);
  }

  // ---------------------------------------------------------------------
  // Level and constraint flags

  const ProfileBaseline: int := 66
  const ProfileMain: int := 77
  const ProfileHigh: int := 100

  datatype LevelInfo = LevelInfo(levelIdc: int, constraintSet3: bool)

  /** Level 1b is requested as level_idc 9; for Baseline and Main it is
      signalled as level_idc 11 with constraint_set3_flag (section A.3.1 of
      ITU-T H.264).  Intra-only coding in a profile above High also sets
      constraint_set3_flag. */
  function LevelSignal(profileIdc: int, levelIdc: int, keyframeMaxInterval: int): (r: LevelInfo)
    ensures levelIdc == 9 && profileIdc in {ProfileBaseline, ProfileMain} ==> r == LevelInfo(11, true)
    ensures !(levelIdc == 9 && profileIdc in {ProfileBaseline, ProfileMain}) ==> r.levelIdc == levelIdc
    ensures r.constraintSet3 <==>
              ((levelIdc == 9 && profileIdc in {ProfileBaseline, ProfileMain})
               || (keyframeMaxInterval == 1 && profileIdc > ProfileHigh))
  {
    var b1 := levelIdc == 9 && (profileIdc == ProfileBaseline || profileIdc == ProfileMain);
    var intra := keyframeMaxInterval == 1 && profileIdc > ProfileHigh;
    LevelInfo(if b1 then 11 else levelIdc, b1 || intra)
  }

  /** For Baseline and Main the requested level can be read back from the
      signalled pair: level 11 with constraint_set3 means level 1b. */
  lemma LevelSignalRecoverable(profileIdc: int, levelIdc: int, kf: int)
    requires profileIdc in {ProfileBaseline, ProfileMain}
    ensures var r := LevelSignal(profileIdc, levelIdc, kf);
            levelIdc == (if r.levelIdc == 11 && r.constraintSet3 then 9 else r.levelIdc)
  {
  }

  // ---------------------------------------------------------------------
  // Reference frames and field widths

  /** B-frame pyramid mode: none, strict or normal. */
  datatype Pyramid = PyramidNone | PyramidStrict | PyramidNormal

  datatype RefCounts = RefCounts(numReorderFrames: nat, maxDecFrameBuffering: int, numRefFrames: int)

  function Max(a: int, b: int): int { if a >= b then a else b }
  function Min(a: int, b: int): int { if a <= b then a else b }

  /** num_reorder_frames, max_dec_frame_buffering and num_ref_frames: the
      largest of the requested references, the reorder depth plus one, the
      pyramid depth (4 with a pyramid, else 1) and the DPB size, capped at
      refMax -- the contract says it is no smaller than any of the four
      capped terms and is one of them, or refMax when some term reaches
      it, which pins it down; a strict pyramid
      keeps one slot fewer as reference, and intra-only coding (keyframe
      interval 1) keeps none. */
  function DeriveRefCounts(refMax: nat, frameReference: int, dpbSize: int, pyramid: Pyramid,
                           bframes: nat, keyframeMaxInterval: int): (r: RefCounts)
    ensures r.numReorderFrames == (if pyramid != PyramidNone then 2 else if bframes > 0 then 1 else 0)
    ensures keyframeMaxInterval == 1 ==> r.maxDecFrameBuffering == 0 && r.numRefFrames == 0
    ensures keyframeMaxInterval != 1 ==>
              && r.maxDecFrameBuffering <= refMax
              && r.maxDecFrameBuffering >= Min(refMax, frameReference)
              && r.maxDecFrameBuffering >= Min(refMax, 1 + r.numReorderFrames)
              && r.maxDecFrameBuffering >= Min(refMax, if pyramid != PyramidNone then 4 else 1)
              && r.maxDecFrameBuffering >= Min(refMax, dpbSize)
              && ((r.maxDecFrameBuffering == refMax
                   && (frameReference >= refMax || 1 + r.numReorderFrames >= refMax
                       || (if pyramid != PyramidNone then 4 else 1) >= refMax || dpbSize >= refMax))
                  || r.maxDecFrameBuffering == frameReference
                  || r.maxDecFrameBuffering == 1 + r.numReorderFrames
                  || r.maxDecFrameBuffering == (if pyramid != PyramidNone then 4 else 1)
                  || r.maxDecFrameBuffering == dpbSize)
              && r.numRefFrames == r.maxDecFrameBuffering - (if pyramid == PyramidStrict then 1 else 0)
  {
    var reorder: nat := if pyramid != PyramidNone then 2 else if bframes > 0 then 1 else 0;
    var m := Min(refMax, Max(Max(frameReference, 1 + reorder), Max(if pyramid != PyramidNone then 4 else 1, dpbSize)));
    if keyframeMaxInterval == 1 then RefCounts(reorder, 0, 0)
    else RefCounts(reorder, m, m - (if pyramid == PyramidStrict then 1 else 0))
  }

  /** log2_max_frame_num: max_frame_num counts the decoded-frame buffer
      (doubled with a pyramid) plus the current frame; the width starts at
      16 bits. */
  function Log2MaxFrameNum(maxDecFrameBuffering: int, pyramid: Pyramid): (r: nat)
    ensures r >= 16
    ensures Pow2(r) > maxDecFrameBuffering * (if pyramid != PyramidNone then 2 else 1) + 1
    ensures r > 16 ==> Pow2(r - 1) <= maxDecFrameBuffering * (if pyramid != PyramidNone then 2 else 1) + 1
  {
    LeastWidthAbove(16, maxDecFrameBuffering * (if pyramid != PyramidNone then 2 else 1) + 1)
  }

  /** log2_max_pic_order_cnt_lsb for picture order count type 0: at least 16
      bits, and wide enough for twice the largest POC distance
      2 * (bframes + 2), doubled again with a pyramid. */
  function Log2MaxPocLsb(bframes: nat, pyramid: Pyramid): (r: nat)
    ensures r >= 16
    ensures Pow2(r) > 2 * ((bframes + 2) * (if pyramid != PyramidNone then 2 else 1) * 2)
    ensures r > 16 ==> Pow2(r - 1) <= 2 * ((bframes + 2) * (if pyramid != PyramidNone then 2 else 1) * 2)
  {
    LeastWidthAbove(16, 2 * ((bframes + 2) * (if pyramid != PyramidNone then 2 else 1) * 2))
  }

  // ---------------------------------------------------------------------
  // Geometry and cropping

  datatype Crop = Crop(left: int, top: int, right: int, bottom: int)

  datatype Geometry = Geometry(mbWidth: nat, mbHeight: nat, frameMbsOnly: bool, crop: Crop, hasCrop: bool)

  /** Macroblock counts, frame_mbs_only_flag and the frame cropping offsets.
      Field coding rounds the height in macroblocks up to even and counts the
      bottom offset in frame-pair rows. */
  function DeriveGeometry(width: nat, height: nat, interlaced: bool): (g: Geometry)
    ensures g.frameMbsOnly <==> !interlaced
    ensures 16 * g.mbWidth == width + g.crop.right && 0 <= g.crop.right < 16
    ensures g.frameMbsOnly ==> 16 * g.mbHeight == height + g.crop.bottom
    ensures !g.frameMbsOnly ==> g.mbHeight % 2 == 0 && 16 * g.mbHeight - height in {2 * g.crop.bottom, 2 * g.crop.bottom + 1}
    ensures 0 <= g.crop.bottom < 16
    ensures g.crop.left == 0 && g.crop.top == 0
    ensures g.hasCrop <==> g.crop != Crop(0, 0, 0, 0)
  {
    var mbw := (width + 15) / 16;
    var mbh0 := (height + 15) / 16;
    var frameMbsOnly := !interlaced;
    var mbh := if frameMbsOnly then mbh0 else mbh0 + 1 - (mbh0 + 1) % 2;
    var right := mbw * 16 - width;
    var bottom := (mbh * 16 - height) / (if frameMbsOnly then 1 else 2);
    var crop := Crop(0, 0, right, bottom);
    Geometry(mbw, mbh, frameMbsOnly, crop, crop.left != 0 || crop.top != 0 || crop.right != 0 || crop.bottom != 0)
  }

  /** In frame coding, cropping is signalled exactly when a dimension is not
      a multiple of the macroblock size. */
  lemma CropIffUnaligned(width: nat, height: nat)
    ensures DeriveGeometry(width, height, false).hasCrop <==> width % 16 != 0 || height % 16 != 0
  {
  }

  // ---------------------------------------------------------------------
  // VUI defaults

  /** The VUI requests of the encoder configuration. */
  datatype VuiRequest = VuiRequest(
    sarWidth: int, sarHeight: int, overscan: int, vidformat: int, fullrange: int,
    colorprim: int, transfer: int, colmatrix: int, chromaLoc: int)

  datatype Timing = Timing(numUnitsInTick: int, timeScale: int, fixedFrameRate: bool)

  /** The video signal type and colour description of the VUI. */
  datatype SignalType = SignalType(
    vidformat: int, fullrange: int, colorprim: int, transfer: int, colmatrix: int,
    colourDescriptionPresent: bool, signalTypePresent: bool)

  /** The VUI of the sequence parameter set.  A field that the encoder only
      writes under its presence flag is an Option: None means "not present". */
  datatype SpsVui = SpsVui(
    aspectRatio: Option<(int, int)>,
    overscanAppropriate: Option<bool>,
    signal: SignalType,
    chromaLoc: Option<int>,
    timing: Option<Timing>,
    nalHrdPresent: bool,
    picStructPresent: bool,
    bitstreamRestriction: bool)

  /** The value itself when it lies in [0, hi], the default otherwise. */
  function InRangeOr(x: int, hi: int, dflt: int): (r: int)
    ensures 0 <= x <= hi ==> r == x
    ensures !(0 <= x <= hi) ==> r == dflt
  {
    if 0 <= x <= hi then x else dflt
  }

  /** Signal-type fields clamped to the legal code ranges of section E.2.1 of
      ITU-T H.264, each out-of-range request replaced by its default: video
      format 5 (unspecified), full range for RGB input only, primaries and
      transfer 2 (unspecified), matrix 0 (identity) for RGB and 2 otherwise; the
      colour description and the signal type are present exactly when they
      differ from the "unspecified" defaults. */
  function DeriveSignalType(req: VuiRequest, rgb: bool): (t: SignalType)
    ensures 0 <= t.vidformat <= 5 && 0 <= t.fullrange <= 1 && 0 <= t.colorprim <= 9
    ensures 0 <= t.transfer <= 15 && 0 <= t.colmatrix <= 10
    ensures 0 <= req.colorprim <= 9 ==> t.colorprim == req.colorprim
    ensures 0 <= req.colmatrix <= 10 ==> t.colmatrix == req.colmatrix
    ensures t.vidformat == InRangeOr(req.vidformat, 5, 5)
    ensures t.fullrange == InRangeOr(req.fullrange, 1, if rgb then 1 else 0)
    ensures t.colorprim == InRangeOr(req.colorprim, 9, 2)
    ensures t.transfer == InRangeOr(req.transfer, 15, 2)
    ensures t.colmatrix == InRangeOr(req.colmatrix, 10, if rgb then 0 else 2)
    ensures t.colourDescriptionPresent <==> t.colorprim != 2 || t.transfer != 2 || t.colmatrix != 2
    ensures t.signalTypePresent <==> t.vidformat != 5 || t.fullrange != 0 || t.colourDescriptionPresent
  {
    var vidformat := InRangeOr(req.vidformat, 5, 5);
    var fullrange := InRangeOr(req.fullrange, 1, if rgb then 1 else 0);
    var colorprim := InRangeOr(req.colorprim, 9, 2);
    var transfer := InRangeOr(req.transfer, 15, 2);
    var colmatrix := InRangeOr(req.colmatrix, 10, if rgb then 0 else 2);
    var colourDesc := colorprim != 2 || transfer != 2 || colmatrix != 2;
    SignalType(vidformat, fullrange, colorprim, transfer, colmatrix, colourDesc,
               vidformat != 5 || fullrange != 0 || colourDesc)
  }

  /** The VUI derivation: sample aspect ratio when both parts are positive,
      overscan info for request 1 or 2, the signal type, chroma location only
      for 4:2:0, timing from the frame rate (time_scale counts fields), and
      bitstream restrictions unless every frame is a key frame. */
  function DeriveVui(req: VuiRequest, csp: Csp2, chroma: ChromaFormat, timebaseNum: int, timebaseDen: int,
                     vfrInput: bool, nalHrd: int, picStruct: bool, keyframeMaxInterval: int): (v: SpsVui)
    ensures v.aspectRatio.Some? <==> req.sarWidth > 0 && req.sarHeight > 0
    ensures v.aspectRatio.Some? ==> v.aspectRatio.value == (req.sarWidth, req.sarHeight)
    ensures v.overscanAppropriate.Some? <==> 1 <= req.overscan <= 2
    ensures v.overscanAppropriate.Some? ==> (v.overscanAppropriate.value <==> req.overscan == 2)
    ensures v.signal == DeriveSignalType(req, Csp2Rank(csp) >= Csp2Rank(Bgr))
    ensures v.chromaLoc.Some? <==> 1 <= req.chromaLoc <= 5 && chroma == Chroma420
    ensures v.chromaLoc.Some? ==> v.chromaLoc.value == req.chromaLoc
    ensures v.timing.Some? <==> timebaseNum > 0 && timebaseDen > 0
    ensures v.timing.Some? ==> v.timing.value == Timing(timebaseNum, 2 * timebaseDen, !vfrInput)
    ensures v.nalHrdPresent <==> nalHrd != 0
    ensures v.bitstreamRestriction <==> keyframeMaxInterval > 1
  {
    SpsVui(
      if req.sarWidth > 0 && req.sarHeight > 0 then Some((req.sarWidth, req.sarHeight)) else None,
      if req.overscan > 0 && req.overscan <= 2 then Some(req.overscan == 2) else None,
      DeriveSignalType(req, Csp2Rank(csp) >= Csp2Rank(Bgr)),
      if req.chromaLoc > 0 && req.chromaLoc <= 5 && chroma == Chroma420 then Some(req.chromaLoc) else None,
      if timebaseNum > 0 && timebaseDen > 0 then Some(Timing(timebaseNum, timebaseDen * 2, !vfrInput)) else None,
      nalHrd != 0, picStruct, keyframeMaxInterval > 1)
  }

  /** Default VUI requests (all out of range) leave a YUV stream without
      signal-type information, and an RGB stream with full range and the
      identity matrix signalled. */
  lemma VuiDefaultsByColourClass(req: VuiRequest, csp: Csp2, chroma: ChromaFormat, kf: int)
    requires req.vidformat < 0 && req.fullrange < 0 && req.colorprim < 0
    requires req.transfer < 0 && req.colmatrix < 0
    ensures var v := DeriveVui(req, csp, chroma, 1, 25, false, 0, false, kf);
            (Csp2Rank(csp) < Csp2Rank(Bgr) ==> !v.signal.signalTypePresent && !v.signal.colourDescriptionPresent)
            && (Csp2Rank(csp) >= Csp2Rank(Bgr) ==> v.signal.signalTypePresent && v.signal.fullrange == 1
                                                   && v.signal.colmatrix == 0)
  {
  }

  // ---------------------------------------------------------------------
  // The whole sequence parameter set

  /** The encoder configuration fields that the SPS is derived from. */
  datatype EncCfg = EncCfg(
    width: nat, height: nat, profileIdc: int, levelIdc: int, keyframeMaxInterval: int,
    inputFormat: int, frameRate: int, dpbSize: int, frameReference: int, vui: VuiRequest)

  datatype Sps = Sps(
    profileIdc: int, level: LevelInfo, chroma: ChromaFormat, refs: RefCounts,
    log2MaxFrameNum: nat, pocType: nat, log2MaxPocLsb: nat, geometry: Geometry, vui: SpsVui)

  /** The reference-frame cap of the encoder's decoded picture buffer. */
  const RefMax: nat := 16

  /** The SPS the encoder HAL derives from its configuration.  The HAL fixes
      B-frames, pyramid, intra refresh and interlacing off, the time base to
      1/frame_rate, and turns NAL HRD and pic_struct off. */
  function SetSps(cfg: EncCfg): (sps: Sps)
    ensures sps.level == LevelSignal(cfg.profileIdc, cfg.levelIdc, cfg.keyframeMaxInterval)
    ensures sps.chroma == ChromaOf(CspClass(ConvertCsp(cfg.inputFormat).fmt))
    ensures cfg.keyframeMaxInterval == 1 ==> sps.refs.numRefFrames == 0 && sps.refs.maxDecFrameBuffering == 0
    ensures cfg.keyframeMaxInterval != 1 ==> 1 <= sps.refs.numRefFrames <= RefMax
    ensures sps.log2MaxFrameNum == 16 && sps.log2MaxPocLsb == 16 && sps.pocType == 0
    ensures sps.geometry.frameMbsOnly
    ensures sps.geometry.hasCrop <==> cfg.width % 16 != 0 || cfg.height % 16 != 0
    ensures sps.vui.timing.Some? <==> cfg.frameRate > 0
  {
    var csp := CspClass(ConvertCsp(cfg.inputFormat).fmt);
    var chroma := ChromaOf(csp);
    var refs := DeriveRefCounts(RefMax, cfg.frameReference, cfg.dpbSize, PyramidNone, 0, cfg.keyframeMaxInterval);
    var g := DeriveGeometry(cfg.width, cfg.height, false);
    CropIffUnaligned(cfg.width, cfg.height);
    Pow2Values();
    Sps(cfg.profileIdc, LevelSignal(cfg.profileIdc, cfg.levelIdc, cfg.keyframeMaxInterval), chroma, refs,
        Log2MaxFrameNum(refs.maxDecFrameBuffering, PyramidNone), 0, Log2MaxPocLsb(0, PyramidNone), g,
        DeriveVui(cfg.vui, csp, chroma, 1, cfg.frameRate, false, 0, false, cfg.keyframeMaxInterval))
  }
}

=== FILE: mpp_facade.dfy ===
/** The Mpp façade's queue rules, as a sequential abstraction: the bounded
    packet queue that always admits end of stream, the frame queue read in
    FIFO order (or drained whole in multi-frame mode), the reset that keeps
    a leading extra-data packet, the block flags and the port selection.
    The worker threads, their signals and the sleeps are not modelled; the
    codec thread's side of the queues appears only as the two environment
    steps TakePacket and PutFrame. */
module MppFacade {
  import opened Common

  datatype MppRet = MppOk | MppNok

  /** A packet as the façade sees it: an identity, the EOS and extra-data
      flags and the payload length. */
  datatype Packet = Packet(id: nat, eos: bool, extraData: bool, length: nat)

  /** A decoded frame, identified by its handle. */
  datatype Frame = Frame(id: nat)

  datatype Mpp = Mpp(
    initDone: bool, packets: seq<Packet>, frames: seq<Frame>,
    packetPutCount: nat, frameGetCount: nat,
    inputBlock: bool, outputBlock: bool, multiFrame: bool,
    parserFastMode: bool, parserNeedSplit: bool)

  /** The packet queue's soft bound. */
  const PacketBound: nat := 4

  /** A façade as the constructor leaves it: not initialised, empty
      queues, every counter and flag at zero. */
  const Constructed: Mpp := Mpp(false, [], [], 0, 0, false, false, false, false, false)

  /** init: a context type and coding the build does not support
      (supported is what mpp_check_support_format reports) gives MPP_NOK and
      leaves the façade as constructed.  Otherwise the queues, threads and
      buffer group are created; when all of them exist (`created`, decided
      by the allocator) the façade is ready, and when one is missing it is
      cleared again, left uninitialised, and MPP_OK is returned all the
      same.  Either way queues are empty and counters and flags zero. */
  function Init(supported: bool, created: bool): (r: (Mpp, MppRet))
    ensures r.1 == MppOk <==> supported
    ensures r.0.initDone <==> supported && created
    ensures r.0.packets == [] && r.0.frames == []
    ensures r.0.packetPutCount == 0 && r.0.frameGetCount == 0
    ensures !r.0.inputBlock && !r.0.outputBlock && !r.0.multiFrame
  {
    if !supported then (Constructed, MppNok)
    else if !created then (Constructed, MppOk)
    else (Constructed.(initDone := true), MppOk)
  }

  /** An init that fails, or that reports success without creating its
      parts, leaves a façade that refuses every packet; a fully created one
      admits any packet whose copy succeeds. */
  lemma FailedInitRefusesPackets(p: Packet, copyOk: bool, supported: bool, created: bool)
    ensures !(supported && created) ==> PutPacket(Init(supported, created).0, p, copyOk).1 == MppNok
    ensures PutPacket(Init(true, true).0, p, copyOk).1 == MppOk <==> copyOk
  {
  }

  // ---------------------------------------------------------------------
  // put_packet

  /** put_packet: a copy of the packet is appended when fewer than four are
      queued or the packet carries EOS, and the caller's packet then has
      length 0.  copyOk is whether mpp_packet_copy_init succeeded. */
  function PutPacket(m: Mpp, p: Packet, copyOk: bool): (r: (Mpp, MppRet, Packet))
    ensures !m.initDone ==> r == (m, MppNok, p)
    ensures m.initDone ==>
              (r.1 == MppOk <==> (|m.packets| < PacketBound || p.eos) && copyOk)
    ensures r.1 == MppNok ==> r.0 == m && r.2 == p
    ensures r.1 == MppOk ==>
              && r.0 == m.(packets := m.packets + [p], packetPutCount := m.packetPutCount + 1)
              && r.2 == p.(length := 0)
  {
    if !m.initDone then (m, MppNok, p)
    else if (|m.packets| < PacketBound || p.eos) && copyOk then
      (m.(packets := m.packets + [p], packetPutCount := m.packetPutCount + 1), MppOk, p.(length := 0))
    else (m, MppNok, p)
  }

  /** No packet without EOS ever sits beyond the fourth place of the queue:
      only EOS packets may exceed the bound. */
  predicate Bounded(q: seq<Packet>) {
    forall i :: 0 <= i < |q| && !q[i].eos ==> i < PacketBound
  }

  lemma PutPacketKeepsBounded(m: Mpp, p: Packet, copyOk: bool)
    requires Bounded(m.packets)
    ensures Bounded(PutPacket(m, p, copyOk).0.packets)
  {
  }

  /** With four packets queued, a packet without EOS is refused and one with
      EOS is still taken. */
  lemma BackPressure(m: Mpp, p: Packet)
    requires m.initDone && |m.packets| == PacketBound
    ensures !p.eos ==> PutPacket(m, p, true).1 == MppNok
    ensures p.eos ==> PutPacket(m, p, true).1 == MppOk
  {
  }

  /** The bounded queue holds at most four packets without EOS. */
  function NonEosCount(q: seq<Packet>): (n: nat)
    ensures n <= |q|
  {
    if q == [] then 0 else NonEosCount(q[..|q| - 1]) + (if q[|q| - 1].eos then 0 else 1)
  }

  lemma {:induction false} BoundedNonEosCount(q: seq<Packet>)
    requires Bounded(q)
    ensures NonEosCount(q) <= PacketBound
  {
    if |q| <= PacketBound {
    } else {
      var k := |q| - 1;
      assert q[k].eos;
      assert Bounded(q[..k]) by {
        forall i | 0 <= i < k && !q[..k][i].eos
          ensures i < PacketBound
        {
          assert q[..k][i] == q[i];
        }
      }
      BoundedNonEosCount(q[..k]);
    }
  }

  // ---------------------------------------------------------------------
  // The codec thread's side of the queues

  /** The decoder takes the head packet. */
  function TakePacket(m: Mpp): (r: (Mpp, Option<Packet>))
    ensures m.packets == [] ==> r == (m, None)
    ensures m.packets != [] ==> r.1 == Some(m.packets[0]) && [m.packets[0]] + r.0.packets == m.packets
    ensures r.0.frames == m.frames && r.0.initDone == m.initDone
  {
    if m.packets == [] then (m, None) else (m.(packets := m.packets[1..]), Some(m.packets[0]))
  }

  lemma TakePacketKeepsBounded(m: Mpp)
    requires Bounded(m.packets)
    ensures Bounded(TakePacket(m).0.packets)
  {
    if m.packets != [] {
      var q := TakePacket(m).0.packets;
      forall i | 0 <= i < |q| && !q[i].eos
        ensures i < PacketBound
      {
        assert q[i] == m.packets[i + 1];
      }
    }
  }

  /** The hal thread queues a finished frame. */
  function PutFrame(m: Mpp, f: Frame): (r: Mpp)
    ensures r.frames == m.frames + [f] && r.packets == m.packets
  {
    m.(frames := m.frames + [f])
  }

  // ---------------------------------------------------------------------
  // get_frame

  /** get_frame: the head frame, or in multi-frame mode the whole queue
      chained through next in FIFO order; an empty queue gives no frame
      (the blocking wait for one is not modelled). */
  function GetFrame(m: Mpp): (r: (Mpp, MppRet, seq<Frame>))
    ensures !m.initDone ==> r == (m, MppNok, [])
    ensures m.initDone ==> r.1 == MppOk
    ensures r.2 + r.0.frames == m.frames
    ensures r.0 == m.(frames := r.0.frames, frameGetCount := m.frameGetCount + |r.2|)
    ensures r.2 == [] <==> !m.initDone || m.frames == []
    ensures m.initDone && m.multiFrame ==> r.0.frames == []
    ensures !m.multiFrame ==> |r.2| <= 1
  {
    if !m.initDone then (m, MppNok, [])
    else if m.frames == [] then (m, MppOk, [])
    else if m.multiFrame then (m.(frames := [], frameGetCount := m.frameGetCount + |m.frames|), MppOk, m.frames)
    else (m.(frames := m.frames[1..], frameGetCount := m.frameGetCount + 1), MppOk, [m.frames[0]])
  }

  /** The frames n successive get_frame calls return, in order. */
  function GetFrames(m: Mpp, n: nat): (r: (Mpp, seq<Frame>))
    decreases n
  {
    if n == 0 then (m, [])
    else
      var g := GetFrame(m);
      var rest := GetFrames(g.0, n - 1);
      (rest.0, g.2 + rest.1)
  }

  /** Reading frames one by one hands them out in the order they were
      queued and counts each of them. */
  lemma {:induction false} GetFramesFifo(m: Mpp, n: nat)
    requires m.initDone && !m.multiFrame && n <= |m.frames|
    ensures GetFrames(m, n).1 == m.frames[..n]
    ensures GetFrames(m, n).0.frames == m.frames[n..]
    ensures GetFrames(m, n).0.frameGetCount == m.frameGetCount + n
    decreases n
  {
    if n > 0 {
      var g := GetFrame(m);
      assert g.2 == [m.frames[0]];
      GetFramesFifo(g.0, n - 1);
      assert g.0.frames[..n - 1] == m.frames[1..n];
      assert g.0.frames[n - 1..] == m.frames[n..];
      assert [m.frames[0]] + m.frames[1..n] == m.frames[..n];
    }
  }

  // ---------------------------------------------------------------------
  // reset

  /** reset: both queues are flushed; a former head packet marked as extra
      data (the SPS/PPS of an MP4 stream) is put back through put_packet.
      copyOk is the result of that put's packet copy. */
  function Reset(m: Mpp, copyOk: bool): (r: (Mpp, MppRet))
    ensures r.1 == MppOk
    ensures !m.initDone ==> r.0 == m
    ensures m.initDone ==> r.0.frames == []
    ensures m.initDone ==>
              (|r.0.packets| == 1 <==> m.packets != [] && m.packets[0].extraData && copyOk)
    ensures m.initDone ==> |r.0.packets| <= 1 && (r.0.packets != [] ==> r.0.packets[0] == m.packets[0])
    ensures m.initDone ==>
              r.0.packetPutCount == m.packetPutCount + |r.0.packets|
    ensures r.0.frameGetCount == m.frameGetCount && r.0.multiFrame == m.multiFrame
            && r.0.inputBlock == m.inputBlock && r.0.outputBlock == m.outputBlock
  {
    if !m.initDone then (m, MppOk)
    else
      var flushed := m.(packets := [], frames := []);
      if m.packets != [] && m.packets[0].extraData then
        (PutPacket(flushed, m.packets[0], copyOk).0, MppOk)
      else (flushed, MppOk)
  }

  lemma ResetKeepsBounded(m: Mpp, copyOk: bool)
    ensures Bounded(Reset(m, copyOk).0.packets) || !m.initDone
  {
  }

  /** A reset directly after a reset changes nothing more in the queues. */
  lemma ResetTwice(m: Mpp, copyOk: bool)
    requires m.initDone
    ensures Reset(Reset(m, copyOk).0, copyOk).0.packets == Reset(m, copyOk).0.packets
  {
  }

  // ---------------------------------------------------------------------
  // control_mpp, control_dec's own commands, dequeue and enqueue

  datatype MppCmd = SetInputBlock | SetOutputBlock | OtherMppCmd

  /** control_mpp: the two block flags, NOK for anything else. */
  function ControlMpp(m: Mpp, cmd: MppCmd, value: Word): (r: (Mpp, MppRet))
    ensures r.1 == MppOk <==> cmd != OtherMppCmd
    ensures cmd == SetInputBlock ==> r.0 == m.(inputBlock := value != 0)
    ensures cmd == SetOutputBlock ==> r.0 == m.(outputBlock := value != 0)
    ensures cmd == OtherMppCmd ==> r.0 == m
  {
    match cmd
    case SetInputBlock => (m.(inputBlock := value != 0), MppOk)
    case SetOutputBlock => (m.(outputBlock := value != 0), MppOk)
    case OtherMppCmd => (m, MppNok)
  }

  /** The decoder commands the façade answers itself; delegated ones
      return what the decoder returned, and unknown ones NOK. */
  datatype DecCmd =
    | SetParserSplitMode(flag: Word) | SetParserFastMode(flag: Word)
    | GetStreamCount | Delegated(ret: MppRet) | UnknownDecCmd

  function ControlDec(m: Mpp, cmd: DecCmd): (r: (Mpp, MppRet, Option<nat>))
    ensures cmd.GetStreamCount? ==> r == (m, MppOk, Some(|m.packets|))
    ensures !cmd.GetStreamCount? ==> r.2.None?
    ensures cmd.SetParserSplitMode? ==> r.0 == m.(parserNeedSplit := cmd.flag != 0) && r.1 == MppOk
    ensures cmd.SetParserFastMode? ==> r.0 == m.(parserFastMode := cmd.flag != 0) && r.1 == MppOk
    ensures cmd.Delegated? ==> r == (m, cmd.ret, None)
    ensures cmd.UnknownDecCmd? ==> r == (m, MppNok, None)
  {
    match cmd
    case SetParserSplitMode(flag) => (m.(parserNeedSplit := flag != 0), MppOk, None)
    case SetParserFastMode(flag) => (m.(parserFastMode := flag != 0), MppOk, None)
    case GetStreamCount => (m, MppOk, Some(|m.packets|))
    case Delegated(ret) => (m, ret, None)
    case UnknownDecCmd => (m, MppNok, None)
  }

  /** The stream count reports every admitted packet the decoder has not
      yet taken. */
  lemma StreamCountAfterPut(m: Mpp, p: Packet)
    requires PutPacket(m, p, true).1 == MppOk
    ensures ControlDec(PutPacket(m, p, true).0, GetStreamCount).2 == Some(|m.packets| + 1)
  {
  }

  datatype PortType = PortInput | PortOutput | PortOther

  /** dequeue and enqueue: the port of the given type does the work and its
      result is portRet; there is no port for any other type. */
  function PortCall(m: Mpp, t: PortType, portRet: MppRet): (r: MppRet)
    ensures !m.initDone || t == PortOther ==> r == MppNok
    ensures m.initDone && t != PortOther ==> r == portRet
  {
    if !m.initDone then MppNok
    else match t
      case PortInput => portRet
      case PortOutput => portRet
      case PortOther => MppNok
  }

  // ---------------------------------------------------------------------
  // Any interleaving of the sequential operations

  datatype Op =
    | OpPutPacket(p: Packet, copyOk: bool) | OpTakePacket | OpPutFrame(f: Frame)
    | OpGetFrame | OpReset(copyOk: bool) | OpControl(cmd: MppCmd, value: Word)

  function Apply(m: Mpp, op: Op): (r: Mpp)
    ensures r.initDone == m.initDone
  {
    match op
    case OpPutPacket(p, copyOk) => PutPacket(m, p, copyOk).0
    case OpTakePacket => TakePacket(m).0
    case OpPutFrame(f) => PutFrame(m, f)
    case OpGetFrame => GetFrame(m).0
    case OpReset(copyOk) => Reset(m, copyOk).0
    case OpControl(cmd, value) => ControlMpp(m, cmd, value).0
  }

  function Run(m: Mpp, ops: seq<Op>): (r: Mpp)
    decreases |ops|
  {
    if ops == [] then m else Run(Apply(m, ops[0]), ops[1..])
  }

  /** Whatever the callers and the codec thread do, at most four packets
      without EOS are ever queued. */
  lemma {:induction false} RunKeepsBounded(m: Mpp, ops: seq<Op>)
    requires Bounded(m.packets)
    ensures Bounded(Run(m, ops).packets)
    ensures NonEosCount(Run(m, ops).packets) <= PacketBound
    decreases |ops|
  {
    if ops == [] {
      BoundedNonEosCount(m.packets);
    } else {
      var m1 := Apply(m, ops[0]);
      match ops[0] {
        case OpPutPacket(p, copyOk) => PutPacketKeepsBounded(m, p, copyOk);
        case OpTakePacket => TakePacketKeepsBounded(m);
        case OpPutFrame(f) =>
        case OpGetFrame =>
        case OpReset(copyOk) => ResetKeepsBounded(m, copyOk);
        case OpControl(cmd, value) =>
      }
      RunKeepsBounded(m1, ops[1..]);
    }
  }
}

=== FILE: rmvb_hal.dfy ===
/** The RealVideo hardware layer: the register values fixed at init (the
    profile, the decoding mode and the sub-pixel taps) and the per-picture
    values derived from the three frame heads (the B-picture temporal
    scales and the four reference addresses by picture type).  Buffer
    handles are given as plain descriptor values; the IOMMU variant that
    stores them shifted right by 2 is not modelled. */
module RmvbHal {
  import opened Common
  import RmvbParser

  // ---------------------------------------------------------------------
  // hal_rmvbd_init

  /** Bits of the RPR picture-size index for n sizes (RV8 only). */
  const RprIndexBits: seq<nat> := [0, 1, 1, 2, 2, 3, 3, 3, 3]

  /** For n >= 2 sizes the table gives the least number of bits that can
      index them; a single size still gets a one-bit index. */
  lemma RprIndexBitsLeast(n: nat)
    requires 1 <= n < 9
    ensures n <= Pow2(RprIndexBits[n])
    ensures n >= 2 ==> Pow2(RprIndexBits[n] - 1) < n
    ensures n == 1 ==> RprIndexBits[n] == 1
  {
    Pow2Values();
  }

  datatype InitRegs = InitRegs(profile: nat, decMode: nat, taps: seq<int>, framenumLen: Option<nat>)

  /** The RV8 (RealVideo 8) taps and the RV9 taps, in register order
      tap_0_0..tap_0_2, tap_1_0..tap_1_2. */
  const Rv8Taps: seq<int> := [-1, 12, 6, 6, 9, 1]
  const Rv9Taps: seq<int> := [1, -5, 20, 1, -5, 52]

  /** The init registers hal_rmvbd_init evidently intends: the RV8 or
      RV9 profile and taps by the stream type, and for RV8 the width of
      the RPR picture-size index.  InitAsWritten is what the code does. */
  function Init(isRV8: bool, picRprNum: nat): (r: InitRegs)
    requires picRprNum < 9
    ensures r.decMode == 8
    ensures r.profile == (if isRV8 then 0 else 1)
    ensures isRV8 ==> r.taps == Rv8Taps && r.framenumLen == Some(RprIndexBits[picRprNum])
    ensures !isRV8 ==> r.taps == Rv9Taps && r.framenumLen == None
  {
    InitRegs(1 - (if isRV8 then 1 else 0), 8, if isRV8 then Rv8Taps else Rv9Taps,
             if isRV8 then Some(RprIndexBits[picRprNum]) else None)
  }

  /** hal_rmvbd_init as written: it reads isRV8 and pic_rpr_num through a
      pointer to the HAL context cast to the parser's syntax record.  At
      those offsets (128 and 140 bytes) the HAL context holds the first
      words of its register block, which the init has just cleared, so
      both read as zero whatever the stream is: every stream gets the
      RV9 profile and taps, and the frame-number length stays unset. */
  function InitAsWritten(isRV8: bool, picRprNum: nat): (r: InitRegs)
    requires picRprNum < 9
    ensures r.decMode == 8 && r.profile == 1
    ensures r.taps == Rv9Taps && r.framenumLen == None
  {
    var readIsRV8 := false;
    var readRprNum := 0;
    Init(readIsRV8, readRprNum)
  }

  /** An RV8 stream shows the discrepancy: as written it is set up with
      the RV9 profile and taps and without a frame-number length. */
  lemma InitAsWrittenRv8Witness()
    ensures InitAsWritten(true, 3).taps != Init(true, 3).taps
    ensures InitAsWritten(true, 3).profile == 1 && Init(true, 3).profile == 0
    ensures InitAsWritten(true, 3).framenumLen == None && Init(true, 3).framenumLen == Some(2)
  {
  }

  /** The two agree exactly on RV9 streams. */
  lemma InitAsWrittenAgreesOnRv9(isRV8: bool, picRprNum: nat)
    requires picRprNum < 9
    ensures InitAsWritten(isRV8, picRprNum) == Init(isRV8, picRprNum) <==> !isRV8
  {
    if isRV8 {
      assert Init(isRV8, picRprNum).profile == 0;
    }
  }

  // ---------------------------------------------------------------------
  // B-picture temporal scales

  const ScaleOne: nat := 0x4000
  const ScaleDefault: int := 0x2000

  /** ((trb << 14) / trd, ((trd - trb) << 14) / trd) with C division. */
  function Scales(trb: int, trd: int): (r: (int, int))
    requires trd > 0
    ensures 0 <= trb ==> r.0 >= 0
    ensures trb <= trd ==> r.1 >= 0
  {
    (CDiv(trb * ScaleOne, trd), CDiv((trd - trb) * ScaleOne, trd))
  }

  /** With the B picture between its references the two scales split one
      unit (1 << 14) between them, losing at most the one rounding step. */
  lemma ScalesSplitUnit(trb: int, trd: int)
    requires trd > 0 && 0 <= trb <= trd
    ensures Scales(trb, trd).0 + Scales(trb, trd).1 == ScaleOne
            || Scales(trb, trd).0 + Scales(trb, trd).1 == ScaleOne - 1
    ensures trb == 0 ==> Scales(trb, trd) == (0, ScaleOne)
    ensures trb == trd ==> Scales(trb, trd) == (ScaleOne, 0)
  {
    var a := trb * ScaleOne;
    var b := (trd - trb) * ScaleOne;
    assert a + b == ScaleOne * trd;
    QuotientSum(a, b, trd, ScaleOne);
    if trb == 0 {
      DivModUnique(b, trd, ScaleOne, 0);
    }
    if trb == trd {
      DivModUnique(a, trd, ScaleOne, 0);
    }
  }

  /** Two quotients whose dividends add up to k * d add up to k or k - 1. */
  lemma QuotientSum(a: int, b: int, d: int, k: int)
    requires d > 0 && a >= 0 && b >= 0 && a + b == k * d
    ensures a / d + b / d == k || a / d + b / d == k - 1
  {
    var q := a / d + b / d;
    var s := a % d + b % d;
    assert q * d + s == k * d;
    DivModUnique(k * d, d, k, 0);
    if s < d {
      DivModUnique(k * d, d, q, s);
    } else {
      assert (q + 1) * d + (s - d) == k * d;
      DivModUnique(k * d, d, q + 1, s - d);
    }
  }

  // ---------------------------------------------------------------------
  // hal_rmvbd_gen_regs

  /** Descriptors of the current picture and the two reference buffers. */
  datatype Fds = Fds(curr: int, ref0: int, ref1: int)

  datatype PicRegs = PicRegs(
    bwdScale: int, fwdScale: int, refs: seq<int>,
    picBE: bool, picInterE: bool, writeMvsE: bool, prevAncP: bool, framenumLen: Option<nat>)

  /** The per-picture registers, or None where the source returns MPP_NOK:
      a B picture whose references are at TR distance 0, and a P picture
      whose backward reference has no buffer.  frameCodelen is the length
      GetPicsize returned; it becomes the frame-number length for RV9. */
  function GenRegs(cur: RmvbParser.FrameHead, ref0: RmvbParser.FrameHead, ref1: RmvbParser.FrameHead,
                   fds: Fds, ref0HasBuffer: bool, isRV8: bool, frameCodelen: nat): (r: Option<PicRegs>)
    requires cur.tr < RmvbParser.TrWrap && ref0.tr < RmvbParser.TrWrap && ref1.tr < RmvbParser.TrWrap
    ensures cur.picCodingType == RmvbParser.PicB ==>
              (r.None? <==> ref0.tr == ref1.tr)
    ensures cur.picCodingType == RmvbParser.PicP ==> (r.None? <==> !ref0HasBuffer)
    ensures r.Some? && cur.picCodingType == RmvbParser.PicB ==>
              && r.value.refs == [fds.ref1, fds.ref1, fds.ref0, fds.ref0]
              && r.value.picBE && r.value.picInterE && !r.value.writeMvsE
              && (r.value.bwdScale, r.value.fwdScale)
                 == Scales(RmvbParser.TrDelta(cur.tr, ref1.tr), RmvbParser.TrDelta(ref0.tr, ref1.tr))
    ensures r.Some? && cur.picCodingType == RmvbParser.PicP ==>
              && r.value.refs == [fds.ref0, fds.ref0, fds.curr, fds.curr]
              && !r.value.picBE && r.value.picInterE && r.value.writeMvsE
    ensures cur.picCodingType != RmvbParser.PicB && cur.picCodingType != RmvbParser.PicP ==>
              && r.Some?
              && r.value.refs == [fds.curr, fds.curr, fds.curr, fds.curr]
              && !r.value.picBE && !r.value.picInterE && !r.value.writeMvsE
    ensures r.Some? && cur.picCodingType != RmvbParser.PicB ==>
              r.value.bwdScale == ScaleDefault && r.value.fwdScale == ScaleDefault
    ensures r.Some? ==> (r.value.prevAncP <==> ref0.picCodingType == RmvbParser.PicP)
    ensures r.Some? ==> r.value.framenumLen == (if isRV8 then None else Some(frameCodelen))
  {
    var prevAnc := ref0.picCodingType == RmvbParser.PicP;
    var fl := if isRV8 then None else Some(frameCodelen);
    if cur.picCodingType == RmvbParser.PicB then
      var trd := RmvbParser.TrDelta(ref0.tr, ref1.tr);
      var trb := RmvbParser.TrDelta(cur.tr, ref1.tr);
      if trd == 0 then None
      else
        var sc := Scales(trb, trd);
        Some(PicRegs(sc.0, sc.1, [fds.ref1, fds.ref1, fds.ref0, fds.ref0], true, true, false, prevAnc, fl))
    else if cur.picCodingType == RmvbParser.PicP then
      if !ref0HasBuffer then None
      else Some(PicRegs(ScaleDefault, ScaleDefault, [fds.ref0, fds.ref0, fds.curr, fds.curr],
                        false, true, true, prevAnc, fl))
    else
      Some(PicRegs(ScaleDefault, ScaleDefault, [fds.curr, fds.curr, fds.curr, fds.curr],
                   false, false, false, prevAnc, fl))
  }

  /** A B picture lying in TR order between its forward and backward
      references gets scales that split the unit between them. */
  lemma BScalesSplitUnit(cur: RmvbParser.FrameHead, ref0: RmvbParser.FrameHead, ref1: RmvbParser.FrameHead,
                         fds: Fds, ref0HasBuffer: bool, isRV8: bool, frameCodelen: nat)
    requires cur.tr < RmvbParser.TrWrap && ref0.tr < RmvbParser.TrWrap && ref1.tr < RmvbParser.TrWrap
    requires cur.picCodingType == RmvbParser.PicB
    requires ref1.tr <= cur.tr <= ref0.tr && ref1.tr < ref0.tr
    ensures GenRegs(cur, ref0, ref1, fds, ref0HasBuffer, isRV8, frameCodelen).Some?
    ensures var r := GenRegs(cur, ref0, ref1, fds, ref0HasBuffer, isRV8, frameCodelen).value;
            r.bwdScale + r.fwdScale == ScaleOne || r.bwdScale + r.fwdScale == ScaleOne - 1
  {
    ScalesSplitUnit(cur.tr - ref1.tr, ref0.tr - ref1.tr);
  }
}

=== FILE: rmvb_parser.dfy ===
/** The RealVideo 8/9 parser: the macroblock-number field width, the
    picture-size code of the RV9 frame header, the removal of the 32-byte
    packing header, the header-derived sizes, the three frame-head slots
    (current, backward reference ref0, forward reference ref1) with their
    rotation, and the admission rules of a parsed picture. */
module RmvbParser {
  import opened Common

  /** Picture coding types. */
  const PicI: nat := 0
  const PicFI: nat := 1
  const PicP: nat := 2
  const PicB: nat := 3
  /** The picture type of a frame head that has not held a picture yet. */
  const NoPicType: nat := 0xffff_ffff

  /** Slot index of a frame head that holds no buffer, and of one whose
      buffer has been handed back. */
  const SlotUnused: int := 0x7f
  const SlotReleased: int := 0xff

  /** The temporal-reference period: TR is a 13-bit counter. */
  const TrWrap: nat := 8192

  // ---------------------------------------------------------------------
  // MbNumLen

  /** Width of the first-macroblock-number field for a picture of numMbs
      macroblocks: 6, 7, 9, 11, 13 or 14 bits by size class. */
  function MbNumLen(numMbs: nat): (r: nat)
    ensures r in {6, 7, 9, 11, 13, 14}
    ensures numMbs <= 16384 ==> numMbs <= Pow2(r)
  {
    Pow2Values();
    assert Pow2(9) == 512 && Pow2(11) == 2048 && Pow2(13) == 8192;
    if numMbs <= 48 then 6
    else if numMbs <= 99 then 7
    else if numMbs <= 396 then 9
    else if numMbs <= 1584 then 11
    else if numMbs <= 6336 then 13
    else 14
  }

  /** A larger picture never gets a narrower field. */
  lemma MbNumLenMonotone(a: nat, b: nat)
    requires a <= b
    ensures MbNumLen(a) <= MbNumLen(b)
  {
  }

  // ---------------------------------------------------------------------
  // Picture-size code (GetPicsize)

  /** Reading n bits at pos from the header; None when the bits run out. */
  function ReadField(bs: seq<Bit>, pos: nat, n: nat): (r: Option<nat>)
    ensures r.Some? <==> pos + n <= |bs|
    ensures r.Some? ==> r.value < Pow2(n)
  {
    if pos + n <= |bs| then Some(FromBits(bs[pos..pos + n])) else None
  }

  /** A dimension read from the header and the bit position after it. */
  datatype Dim = Dim(size: nat, next: nat)

  /** Escape-coded dimension: 8-bit codes are read while they are 255, and
      the dimension is the sum of 4 times each code.  Returns the dimension
      and the position after the last code. */
  function ReadEscape(bs: seq<Bit>, pos: nat): (r: Option<Dim>)
    decreases |bs| - pos
    ensures r.Some? ==> r.value.size % 4 == 0 && r.value.next >= pos + 8 && (r.value.next - pos) % 8 == 0
  {
    match ReadField(bs, pos, 8)
    case None => None
    case Some(code) =>
      if code == 255 then
        match ReadEscape(bs, pos + 8)
        case None => None
        case Some(rest) => Some(Dim(4 * 255 + rest.size, rest.next))
      else Some(Dim(4 * code, pos + 8))
  }

  /** The 8-bit code 255 that continues an escape-coded dimension. */
  const EscapeCode: seq<Bit> := [1, 1, 1, 1, 1, 1, 1, 1]

  lemma EscapeCodeValue()
    ensures ToBits(255, 8) == EscapeCode
  {
  }

  /** The escape code of a multiple of 4: as many 255 codes as fit, then
      the remainder. */
  function EscapeBits(d: nat): (s: seq<Bit>)
    requires d % 4 == 0
    decreases d
    ensures |s| >= 8 && |s| % 8 == 0
  {
    if d / 4 >= 255 then EscapeCode + EscapeBits(d - 1020) else ToBits(d / 4, 8)
  }

  /** The bits c occur in bs starting at position pos. */
  predicate BitsAt(bs: seq<Bit>, pos: nat, c: seq<Bit>)
  {
    pos + |c| <= |bs| && bs[pos..pos + |c|] == c
  }

  /** Reading an escape code back gives the dimension that was coded and
      consumes exactly its bits. */
  lemma {:induction false} ReadEscapeRoundTrip(d: nat, bs: seq<Bit>, pos: nat)
    requires d % 4 == 0 && BitsAt(bs, pos, EscapeBits(d))
    ensures ReadEscape(bs, pos).Some?
    ensures ReadEscape(bs, pos).value.size == d
    ensures ReadEscape(bs, pos).value.next == pos + |EscapeBits(d)|
    decreases d
  {
    if d / 4 >= 255 {
      var t := EscapeBits(d - 1020);
      assert EscapeBits(d) == EscapeCode + t;
      SliceOfPrefix(bs, pos, EscapeCode, t);
      EscapeCodeValue();
      ReadByteCode(bs, pos, 255);
      ReadEscapeRoundTrip(d - 1020, bs, pos + 8);
      ReadEscapeStep(bs, pos);
      assert |EscapeBits(d)| == 8 + |t|;
    } else {
      var c := d / 4;
      assert EscapeBits(d) == ToBits(c, 8);
      ReadByteCode(bs, pos, c);
      assert 4 * c == d && c != 255;
      assert |EscapeBits(d)| == 8;
    }
  }

  /** A 255 code adds 1020 to the dimension read after it. */
  lemma ReadEscapeStep(bs: seq<Bit>, pos: nat)
    requires ReadField(bs, pos, 8) == Some(255)
    ensures ReadEscape(bs, pos).Some? <==> ReadEscape(bs, pos + 8).Some?
    ensures ReadEscape(bs, pos).Some? ==>
              && ReadEscape(bs, pos).value.size == 1020 + ReadEscape(bs, pos + 8).value.size
              && ReadEscape(bs, pos).value.next == ReadEscape(bs, pos + 8).value.next
  {
  }

  /** Eight bits holding the code v read back as v. */
  lemma ReadByteCode(bs: seq<Bit>, pos: nat, v: nat)
    requires v < 256 && BitsAt(bs, pos, ToBits(v, 8))
    ensures ReadField(bs, pos, 8) == Some(v)
  {
    Pow2Small();
    FromToBitsExact(v, 8);
  }

  lemma Pow2Small()
    ensures Pow2(1) == 2 && Pow2(3) == 8 && Pow2(8) == 256
  {
    Pow2Values();
  }

  const CodeWidth: seq<nat> := [160, 176, 240, 320, 352, 640, 704, 0]
  const CodeHeight1: seq<nat> := [120, 132, 144, 240, 288, 480, 0, 0]
  const CodeHeight2: seq<nat> := [180, 360, 576, 0]

  /** The width: a 3-bit code, escape-coded when its table entry is 0.
      Returns the width and the position after it. */
  function ReadWidth(bs: seq<Bit>, pos: nat): (r: Option<Dim>)
    ensures r.Some? ==> r.value.next >= pos + 3
  {
    Pow2Small();
    match ReadField(bs, pos, 3)
    case None => None
    case Some(c) =>
      if CodeWidth[c] != 0 then Some(Dim(CodeWidth[c], pos + 3)) else ReadEscape(bs, pos + 3)
  }

  /** The height: a 3-bit code; when its first-table entry is 0 one more
      bit selects from the second table, and when that entry is 0 too the
      height is escape-coded.  Returns the height, the number of height
      bits and the position after them. */
  function ReadHeight(bs: seq<Bit>, pos: nat): (r: Option<HeightCode>)
    ensures r.Some? ==> r.value.next == pos + r.value.bits
    ensures r.Some? ==> r.value.bits == 3 || r.value.bits == 4 || (r.value.bits >= 12 && (r.value.bits - 4) % 8 == 0)
  {
    Pow2Small();
    match ReadField(bs, pos, 3)
    case None => None
    case Some(c) =>
      if CodeHeight1[c] != 0 then Some(HeightCode(CodeHeight1[c], 3, pos + 3))
      else
        match ReadField(bs, pos + 3, 1)
        case None => None
        case Some(b) =>
          var c2 := (2 * c + b) % 4;
          if CodeHeight2[c2] != 0 then Some(HeightCode(CodeHeight2[c2], 4, pos + 4))
          else
            match ReadEscape(bs, pos + 4)
            case None => None
            case Some(e) => Some(HeightCode(e.size, 4 + (e.next - (pos + 4)), e.next))
  }

  /** A height, the number of bits its code took and the position after. */
  datatype HeightCode = HeightCode(size: nat, bits: nat, next: nat)

  /** Result of GetPicsize: the dimensions, the returned length (height
      bits only) and the number of width bits before them. */
  datatype PicSize = PicSize(width: nat, height: nat, len: nat, widthBits: nat)

  function GetPicsize(bs: seq<Bit>, pos: nat): (r: Option<PicSize>)
    ensures r.Some? ==> r.value.widthBits >= 3 && r.value.len >= 3
    ensures r.Some? ==> ReadHeight(bs, pos + r.value.widthBits).Some?
                        && ReadHeight(bs, pos + r.value.widthBits).value.next
                           == pos + r.value.widthBits + r.value.len
  {
    match ReadWidth(bs, pos)
    case None => None
    case Some(w) =>
      match ReadHeight(bs, w.next)
      case None => None
      case Some(h) => Some(PicSize(w.size, h.size, h.bits, w.next - pos))
  }

  /** The index of v in a table, from position i on. */
  function TableIndex(t: seq<nat>, v: nat, i: nat): (r: Option<nat>)
    requires i <= |t|
    decreases |t| - i
    ensures r.Some? ==> i <= r.value < |t| && t[r.value] == v
    ensures r.None? ==> forall k :: i <= k < |t| ==> t[k] != v
  {
    if i == |t| then None else if t[i] == v then Some(i) else TableIndex(t, v, i + 1)
  }

  /** The width code a writer produces: the table code when the width is
      listed, the escape code otherwise. */
  function EncodeWidth(w: nat): (s: seq<Bit>)
    requires w % 4 == 0
  {
    var i := TableIndex(CodeWidth, w, 0);
    if w != 0 && i.Some? then ToBits(i.value, 3) else ToBits(7, 3) + EscapeBits(w)
  }

  function EncodeHeight(h: nat): (s: seq<Bit>)
    requires h % 4 == 0
  {
    var i := TableIndex(CodeHeight1, h, 0);
    if h != 0 && i.Some? then ToBits(i.value, 3)
    else if h == 180 then ToBits(6, 3) + [0]
    else if h == 360 then ToBits(6, 3) + [1]
    else if h == 576 then ToBits(7, 3) + [0]
    else ToBits(7, 3) + [1] + EscapeBits(h)
  }

  lemma SliceOfPrefix(bs: seq<Bit>, pos: nat, a: seq<Bit>, b: seq<Bit>)
    requires BitsAt(bs, pos, a + b)
    ensures BitsAt(bs, pos, a) && BitsAt(bs, pos + |a|, b)
  {
    assert bs[pos..pos + |a|] == (a + b)[..|a|];
    assert bs[pos + |a|..pos + |a| + |b|] == (a + b)[|a|..];
  }

  /** The reader returned the dimension `size` and stopped at `next`. */
  predicate ReadsDim(o: Option<Dim>, size: nat, next: nat)
  {
    o.Some? && o.value.size == size && o.value.next == next
  }

  /** The height reader returned `size` from a code of `bits` bits ending
      at `next`. */
  predicate ReadsHeight(o: Option<HeightCode>, size: nat, bits: nat, next: nat)
  {
    o.Some? && o.value.size == size && o.value.bits == bits && o.value.next == next
  }

  lemma WidthRoundTrip(w: nat, bs: seq<Bit>, pos: nat)
    requires w % 4 == 0
    requires BitsAt(bs, pos, EncodeWidth(w))
    ensures ReadsDim(ReadWidth(bs, pos), w, pos + |EncodeWidth(w)|)
  {
    var i := TableIndex(CodeWidth, w, 0);
    if w != 0 && i.Some? {
      ReadCode3(bs, pos, i.value);
    } else {
      WidthRoundTripEscape(w, bs, pos);
    }
  }

  lemma WidthRoundTripEscape(w: nat, bs: seq<Bit>, pos: nat)
    requires w % 4 == 0 && (w == 0 || TableIndex(CodeWidth, w, 0).None?)
    requires BitsAt(bs, pos, EncodeWidth(w))
    ensures ReadsDim(ReadWidth(bs, pos), w, pos + |EncodeWidth(w)|)
  {
    var e := EscapeBits(w);
    assert EncodeWidth(w) == ToBits(7, 3) + e;
    SliceOfPrefix(bs, pos, ToBits(7, 3), e);
    ReadCode3(bs, pos, 7);
    ReadEscapeRoundTrip(w, bs, pos + 3);
    ReadWidthEscapePath(bs, pos);
  }

  /** Code 7 selects the escape-coded width. */
  lemma ReadWidthEscapePath(bs: seq<Bit>, pos: nat)
    requires ReadField(bs, pos, 3) == Some(7)
    ensures ReadWidth(bs, pos) == ReadEscape(bs, pos + 3)
  {
    assert CodeWidth[7] == 0;
  }

  /** Three bits holding the code c read back as c. */
  lemma ReadCode3(bs: seq<Bit>, pos: nat, c: nat)
    requires c < 8 && BitsAt(bs, pos, ToBits(c, 3))
    ensures ReadField(bs, pos, 3) == Some(c)
  {
    Pow2Small();
    FromToBitsExact(c, 3);
  }

  /** The one-bit field after the 3-bit code. */
  lemma ReadOneBit(bs: seq<Bit>, pos: nat, c: nat, b: Bit)
    requires c < 8 && BitsAt(bs, pos, ToBits(c, 3) + [b])
    ensures ReadField(bs, pos, 3) == Some(c) && ReadField(bs, pos + 3, 1) == Some(b)
  {
    Pow2Small();
    SliceOfPrefix(bs, pos, ToBits(c, 3), [b]);
    FromToBitsExact(c, 3);
    assert bs[pos + 3..pos + 4] == [b];
    assert [b][..0] == [];
    assert FromBits([b]) == b;
  }

  lemma HeightRoundTripTable(h: nat, bs: seq<Bit>, pos: nat)
    requires h % 4 == 0 && h != 0 && TableIndex(CodeHeight1, h, 0).Some?
    requires BitsAt(bs, pos, EncodeHeight(h))
    ensures ReadsHeight(ReadHeight(bs, pos), h, |EncodeHeight(h)|, pos + |EncodeHeight(h)|)
  {
    var i := TableIndex(CodeHeight1, h, 0).value;
    assert EncodeHeight(h) == ToBits(i, 3);
    ReadCode3(bs, pos, i);
  }

  lemma HeightRoundTripShort(h: nat, bs: seq<Bit>, pos: nat)
    requires h == 180 || h == 360 || h == 576
    requires BitsAt(bs, pos, EncodeHeight(h))
    ensures ReadsHeight(ReadHeight(bs, pos), h, |EncodeHeight(h)|, pos + |EncodeHeight(h)|)
  {
    var c := if h == 576 then 7 else 6;
    var b: Bit := if h == 360 then 1 else 0;
    assert TableIndex(CodeHeight1, h, 0).None?;
    assert EncodeHeight(h) == ToBits(c, 3) + [b];
    ReadOneBit(bs, pos, c, b);
  }

  lemma HeightRoundTripEscape(h: nat, bs: seq<Bit>, pos: nat)
    requires h % 4 == 0 && h != 180 && h != 360 && h != 576
    requires h == 0 || TableIndex(CodeHeight1, h, 0).None?
    requires BitsAt(bs, pos, EncodeHeight(h))
    ensures ReadsHeight(ReadHeight(bs, pos), h, |EncodeHeight(h)|, pos + |EncodeHeight(h)|)
  {
    var e := EscapeBits(h);
    var head := ToBits(7, 3) + [1];
    assert EncodeHeight(h) == head + e;
    SliceOfPrefix(bs, pos, head, e);
    ReadOneBit(bs, pos, 7, 1);
    ReadEscapeRoundTrip(h, bs, pos + 4);
    ReadHeightEscapePath(bs, pos);
  }

  /** Code 7 followed by a 1 bit selects the escape-coded height. */
  lemma ReadHeightEscapePath(bs: seq<Bit>, pos: nat)
    requires ReadField(bs, pos, 3) == Some(7) && ReadField(bs, pos + 3, 1) == Some(1)
    requires ReadEscape(bs, pos + 4).Some?
    ensures ReadsHeight(ReadHeight(bs, pos), ReadEscape(bs, pos + 4).value.size,
                        ReadEscape(bs, pos + 4).value.next - pos, ReadEscape(bs, pos + 4).value.next)
  {
    assert CodeHeight1[7] == 0 && (2 * 7 + 1) % 4 == 3 && CodeHeight2[3] == 0;
  }

  lemma HeightRoundTrip(h: nat, bs: seq<Bit>, pos: nat)
    requires h % 4 == 0
    requires BitsAt(bs, pos, EncodeHeight(h))
    ensures ReadsHeight(ReadHeight(bs, pos), h, |EncodeHeight(h)|, pos + |EncodeHeight(h)|)
  {
    if h != 0 && TableIndex(CodeHeight1, h, 0).Some? {
      HeightRoundTripTable(h, bs, pos);
    } else if h == 180 || h == 360 || h == 576 {
      HeightRoundTripShort(h, bs, pos);
    } else {
      HeightRoundTripEscape(h, bs, pos);
    }
  }

  /** A picture size written as width code then height code is read back
      exactly, and the returned length is the height code's length. */
  lemma PicsizeRoundTrip(w: nat, h: nat, bs: seq<Bit>, pos: nat)
    requires w % 4 == 0 && h % 4 == 0
    requires BitsAt(bs, pos, EncodeWidth(w) + EncodeHeight(h))
    ensures GetPicsize(bs, pos) == Some(PicSize(w, h, |EncodeHeight(h)|, |EncodeWidth(w)|))
  {
    var n := |EncodeWidth(w)|;
    SliceOfPrefix(bs, pos, EncodeWidth(w), EncodeHeight(h));
    WidthRoundTrip(w, bs, pos);
    HeightRoundTrip(h, bs, pos + n);
    GetPicsizeOf(bs, pos, w, pos + n, h, |EncodeHeight(h)|, pos + n + |EncodeHeight(h)|);
  }

  /** GetPicsize assembles what the width and height readers return. */
  lemma GetPicsizeOf(bs: seq<Bit>, pos: nat, w: nat, wEnd: nat, h: nat, hBits: nat, hEnd: nat)
    requires ReadsDim(ReadWidth(bs, pos), w, wEnd) && ReadsHeight(ReadHeight(bs, wEnd), h, hBits, hEnd)
    ensures GetPicsize(bs, pos) == Some(PicSize(w, h, hBits, wEnd - pos))
  {
  }

  // ---------------------------------------------------------------------
  // Packing header (rmvbd_parser_split_frame)

  /** VPU_BITSTREAM_START_CODE (0x42564b52) as the four bytes a
      little-endian 32-bit load reads it from. */
  const StartCodeBytes: seq<Byte> := [0x52, 0x4B, 0x56, 0x42]
  const PackingHeaderSize: nat := 32

  predicate HasStartCode(src: seq<Byte>)
    requires |src| >= 4
  {
    src[..4] == StartCodeBytes
  }

  /** A packet that starts with the start code loses its 32-byte packing
      header; any other packet is copied as it is.  A start-code packet of
      fewer than 32 bytes has no defined result (the size underflows). */
  function SplitFrame(src: seq<Byte>): (r: Option<seq<Byte>>)
    requires |src| >= 4
    ensures !HasStartCode(src) ==> r == Some(src)
    ensures HasStartCode(src) ==> (r.Some? <==> |src| >= PackingHeaderSize)
    ensures r.Some? && HasStartCode(src) ==>
              |r.value| == |src| - PackingHeaderSize
              && forall i :: 0 <= i < |r.value| ==> r.value[i] == src[i + PackingHeaderSize]
  {
    if !HasStartCode(src) then Some(src)
    else if |src| < PackingHeaderSize then None
    else Some(src[PackingHeaderSize..])
  }

  /** Whatever follows a 32-byte packing header comes out unchanged. */
  lemma SplitFrameStripsHeader(header: seq<Byte>, payload: seq<Byte>)
    requires |header| == PackingHeaderSize && header[..4] == StartCodeBytes
    ensures SplitFrame(header + payload) == Some(payload)
  {
    assert (header + payload)[..4] == header[..4];
    assert (header + payload)[PackingHeaderSize..] == payload;
  }

  // ---------------------------------------------------------------------
  // Sizes derived in the decoder header (rmvb_decoder_head)

  /** `x & 0x3fffc`: bits 2..17 of x. */
  function Mask3fffc(x: nat): (r: nat)
  {
    x % 0x40000 - x % 4
  }

  datatype HeadSizes = HeadSizes(displayWidth: nat, displayHeight: nat,
                                 decodeWidth: nat, decodeHeight: nat, trWrap: nat)

  /** The display size comes from the stream header and is overridden by
      the RV40 EncodeSize word: its high half gives the width and its low
      half the height, each in units of 4 pixels.  The decode size is the
      display size rounded up to whole macroblocks.  These are the sizes
      rmvb_decoder_head sets first; the RV8 and RV9 frame-header readers it
      calls after them (rmvbd_parser.c lines 619-622) overwrite the display
      and decode sizes from their own picture-size code (lines 479-482 and
      531-534), and those readers are not part of this model. */
  function DecoderHeadSizes(width: U16, height: U16, encodeSize: Word): (r: HeadSizes)
    ensures encodeSize / 0x10000 != 0 ==> r.displayWidth == 4 * (encodeSize / 0x10000)
    ensures encodeSize / 0x10000 == 0 ==> r.displayWidth == width
    ensures encodeSize % 0x10000 != 0 ==> r.displayHeight == 4 * (encodeSize % 0x10000)
    ensures encodeSize % 0x10000 == 0 ==> r.displayHeight == height
    ensures r.decodeWidth % 16 == 0 && r.displayWidth <= r.decodeWidth < r.displayWidth + 16
    ensures r.decodeHeight % 16 == 0 && r.displayHeight <= r.decodeHeight < r.displayHeight + 16
    ensures r.trWrap == TrWrap
  {
    EncodeSizeFields(encodeSize);
    var dw: nat := if encodeSize / 0x10000 != 0 then Mask3fffc(Shr(encodeSize, 14)) else width;
    var dh: nat := if encodeSize % 0x10000 != 0 then Mask3fffc((encodeSize * 4) % U32) else height;
    AlignU32Least(dw, 16);
    AlignU32Least(dh, 16);
    HeadSizes(dw, dh, AlignU32(dw, 16), AlignU32(dh, 16), TrWrap)
  }

  /** The two masked shifts extract the two halves of EncodeSize, times 4. */
  lemma EncodeSizeFields(e: Word)
    ensures Mask3fffc(Shr(e, 14)) == 4 * (e / 0x10000)
    ensures Mask3fffc((e * 4) % U32) == 4 * (e % 0x10000)
  {
    Pow2Values();
    ShrDiv(e, 14);
    var hi := e / 0x10000;
    var lo := e % 0x10000;
    var s := e / 0x4000;
    assert e == hi * 0x10000 + lo;
    DivModUnique(e, 0x4000, 4 * hi + lo / 0x4000, lo % 0x4000);
    assert s == 4 * hi + lo / 0x4000;
    DivModUnique(s, 0x40000, 0, s);
    DivModUnique(s, 4, hi, lo / 0x4000);
    var r := (e * 4) % U32;
    var k := (e * 4) / U32;
    assert e * 4 == hi * 0x40000 + 4 * lo;
    DivModUnique(e * 4, 0x40000, hi, 4 * lo);
    assert e * 4 == (k * 0x4000 + r / 0x40000) * 0x40000 + r % 0x40000;
    DivModUnique(e * 4, 0x40000, k * 0x4000 + r / 0x40000, r % 0x40000);
    assert r == 4 * (e - k * 0x4000_0000);
    DivModUnique(r, 4, e - k * 0x4000_0000, 0);
  }

  /** A size written into EncodeSize as (w/4) << 16 | (h/4) is read back. */
  lemma EncodeSizeRoundTrip(width: U16, height: U16, w: nat, h: nat)
    requires 4 <= w < 0x40000 && w % 4 == 0 && 4 <= h < 0x40000 && h % 4 == 0
    ensures (w / 4) * 0x10000 + h / 4 < U32
    ensures DecoderHeadSizes(width, height, (w / 4) * 0x10000 + h / 4).displayWidth == w
    ensures DecoderHeadSizes(width, height, (w / 4) * 0x10000 + h / 4).displayHeight == h
  {
    var e := (w / 4) * 0x10000 + h / 4;
    DivModUnique(e, 0x10000, w / 4, h / 4);
  }

  // ---------------------------------------------------------------------
  // Frame heads and the reference rotation

  datatype FrameHead = FrameHead(slotIndex: int, picCodingType: nat, tr: nat, frameNumber: nat)

  datatype ParserState = ParserState(
    cur: FrameHead, ref0: FrameHead, ref1: FrameHead,
    refFrameCnt: nat, needSkipToKeyFrm: bool, eos: bool)

  /** The state after rmvbd_parser_init: three empty heads. */
  function InitState(): (s: ParserState)
    ensures s.refFrameCnt == 0 && !s.needSkipToKeyFrm && !s.eos
    ensures s.cur.slotIndex == SlotUnused && s.ref0.slotIndex == SlotUnused && s.ref1.slotIndex == SlotUnused
  {
    var h := FrameHead(SlotUnused, NoPicType, 0, 0);
    ParserState(h, h, h, 0, false, false)
  }

  /** rmvbd_parser_reset: every head loses its buffer, the reference count
      and the end-of-stream flag clear, everything else stays. */
  function Reset(s: ParserState): (r: ParserState)
    ensures r.cur.slotIndex == SlotUnused && r.ref0.slotIndex == SlotUnused && r.ref1.slotIndex == SlotUnused
    ensures r.refFrameCnt == 0 && !r.eos
    ensures r.needSkipToKeyFrm == s.needSkipToKeyFrm
    ensures r.cur.(slotIndex := 0) == s.cur.(slotIndex := 0)
    ensures r.ref0.(slotIndex := 0) == s.ref0.(slotIndex := 0)
    ensures r.ref1.(slotIndex := 0) == s.ref1.(slotIndex := 0)
  {
    s.(cur := s.cur.(slotIndex := SlotUnused), ref0 := s.ref0.(slotIndex := SlotUnused),
       ref1 := s.ref1.(slotIndex := SlotUnused), refFrameCnt := 0, eos := false)
  }

  lemma ResetIdempotent(s: ParserState)
    ensures Reset(Reset(s)) == Reset(s)
  {
  }

  /** A head whose slot index is below 0x7f holds a buffer. */
  predicate Live(h: FrameHead)
  {
    h.slotIndex < SlotUnused
  }

  /** The signed TR distance from `from` to `to`, wrapped into 0..TRWrap. */
  function TrDelta(to: nat, from: nat): (d: int)
    requires to < TrWrap && from < TrWrap
    ensures 0 <= d < TrWrap
    ensures (d - (to - from)) % TrWrap == 0
  {
    var d := to - from;
    if d < 0 then d + TrWrap else d
  }

  datatype Update = Update(state: ParserState, pts: Option<int>)

  /** rmvbd_update_ref_frame.  A B picture is displayed at once and gives
      its buffer back; any other picture becomes the backward reference,
      the old backward reference becomes the forward one, and the old
      forward head (its buffer released) is reused for the next picture. */
  function UpdateRefFrame(s: ParserState): (u: Update)
    requires s.cur.tr < TrWrap && s.ref1.tr < TrWrap
    ensures s.cur.picCodingType == PicB ==>
              && u.state == s.(cur := s.cur.(slotIndex := SlotReleased))
              && u.pts == Some(s.ref1.frameNumber + TrDelta(s.cur.tr, s.ref1.tr))
    ensures s.cur.picCodingType != PicB && s.cur.picCodingType != NoPicType ==>
              && u.state.refFrameCnt == s.refFrameCnt + 1
              && u.state.ref0 == s.cur && u.state.ref1 == s.ref0
              && u.state.cur == (if Live(s.ref1) then s.ref1.(slotIndex := SlotReleased) else s.ref1)
              && (u.pts.Some? <==> Live(s.ref0) || Live(s.ref1))
    ensures s.cur.picCodingType == NoPicType ==> u == Update(s, None)
  {
    if s.cur.picCodingType == PicB then
      Update(s.(cur := s.cur.(slotIndex := SlotReleased)),
             Some(s.ref1.frameNumber + TrDelta(s.cur.tr, s.ref1.tr)))
    else if s.cur.picCodingType != NoPicType then
      var old1 := if Live(s.ref1) then s.ref1.(slotIndex := SlotReleased) else s.ref1;
      var pts := if Live(s.ref0) || Live(s.ref1) then Some(s.cur.frameNumber) else None;
      Update(s.(ref1 := s.ref0, ref0 := s.cur, cur := old1, refFrameCnt := s.refFrameCnt + 1), pts)
    else Update(s, None)
  }

  /** A B picture is stamped within one TR period after its forward
      reference, at its TR distance modulo the period. */
  lemma BPtsWithinWrap(s: ParserState)
    requires s.cur.tr < TrWrap && s.ref1.tr < TrWrap && s.cur.picCodingType == PicB
    ensures UpdateRefFrame(s).pts.Some?
    ensures s.ref1.frameNumber <= UpdateRefFrame(s).pts.value < s.ref1.frameNumber + TrWrap
    ensures (UpdateRefFrame(s).pts.value - s.ref1.frameNumber - (s.cur.tr - s.ref1.tr)) % TrWrap == 0
  {
  }

  /** The rotation only moves the three heads: the pictures they describe
      are the same before and after. */
  lemma RotationKeepsPictures(s: ParserState)
    requires s.cur.tr < TrWrap && s.ref1.tr < TrWrap
    requires s.cur.picCodingType != PicB && s.cur.picCodingType != NoPicType
    ensures var t := UpdateRefFrame(s).state;
            multiset{t.cur.tr, t.ref0.tr, t.ref1.tr} == multiset{s.cur.tr, s.ref0.tr, s.ref1.tr}
            && multiset{t.cur.picCodingType, t.ref0.picCodingType, t.ref1.picCodingType}
               == multiset{s.cur.picCodingType, s.ref0.picCodingType, s.ref1.picCodingType}
  {
  }

  // ---------------------------------------------------------------------
  // Parsing a picture

  /** What the frame header yields: a 2-bit picture type and a 13-bit TR. */
  datatype Header = Header(picCodingType: nat, tr: nat)

  predicate HeaderValid(h: Header)
  {
    h.picCodingType < 4 && h.tr < TrWrap
  }

  /** The outcome of rmvb_decoder_head.  It fails before any frame header
      is read when the media tag or the RV30/RV40 codec tag is wrong, or
      when the stream version is raw or neither RV30 nor RV40; otherwise it
      yields the frame header.  Which happens depends on the packet's bytes,
      outside this model. */
  datatype Head = HeadOk(hdr: Header) | HeadFailed

  /** A header read carries in-range fields; after a failed head the
      current head keeps the fields it had, and its TR must be in range. */
  predicate HeadValid(s: ParserState, head: Head)
  {
    match head
    case HeadOk(h) => HeaderValid(h)
    case HeadFailed => s.cur.tr < TrWrap
  }

  /** The picture type the admission tests look at: the new header's, or
      the stale one of the current head when the header was not read. */
  function TypeSeen(s: ParserState, head: Head): nat
  {
    if head.HeadOk? then head.hdr.picCodingType else s.cur.picCodingType
  }

  /** The reference slots handed to the hardware: the backward head falls
      back to the current one when its buffer was released, the forward
      head to the backward one.  B uses (fwd, fwd, bwd, bwd); any other
      picture (bwd, cur, cur, cur). */
  function DxvaRefs(s: ParserState): (refs: seq<int>)
    ensures |refs| == 4
    ensures s.cur.picCodingType == PicB && s.ref0.slotIndex != SlotReleased && s.ref1.slotIndex != SlotReleased ==>
              refs == [s.ref1.slotIndex, s.ref1.slotIndex, s.ref0.slotIndex, s.ref0.slotIndex]
    ensures s.cur.picCodingType != PicB ==> refs[1] == refs[2] == refs[3] == s.cur.slotIndex
  {
    var bwd := if s.ref0.slotIndex == SlotReleased then s.cur else s.ref0;
    var fwd := if s.ref1.slotIndex == SlotReleased then bwd else s.ref1;
    if s.cur.picCodingType == PicB then [fwd.slotIndex, fwd.slotIndex, bwd.slotIndex, bwd.slotIndex]
    else [bwd.slotIndex, s.cur.slotIndex, s.cur.slotIndex, s.cur.slotIndex]
  }

  datatype Task = Task(valid: bool, output: int, refer0: Option<int>, refer1: Option<int>, refs: seq<int>)

  datatype ParseResult = ParseResult(ok: bool, state: ParserState, task: Task, pts: Option<int>)

  /** A reference slot named in the decode Task: a live buffer other than the
      output. */
  function Refer(h: FrameHead, cur: FrameHead): (r: Option<int>)
    ensures r.Some? <==> Live(h) && h.slotIndex != cur.slotIndex
    ensures r.Some? ==> r.value == h.slotIndex
  {
    if Live(h) && h.slotIndex != cur.slotIndex then Some(h.slotIndex) else None
  }

  /** The admission test and what follows it, from the state the header
      left behind.  A failed head skips only the frame allocation: the task
      is still built and marked valid and the references still rotate, but
      the call returns NOK. */
  function ParseFrom(s: ParserState, head: Head): (r: ParseResult)
    requires HeadValid(s, head) && s.ref1.tr < TrWrap
  {
    var s1 := if head.HeadOk? then s.(cur := s.cur.(picCodingType := head.hdr.picCodingType, tr := head.hdr.tr))
              else s;
    var t := s1.cur.picCodingType;
    var invalid := Task(false, 0, None, None, []);
    if s1.refFrameCnt < 2 && t == PicB then ParseResult(false, s1, invalid, None)
    else if s1.needSkipToKeyFrm && t != PicI && t != PicFI then
      ParseResult(false, s1, invalid, None)
    else
      var s2 := s1.(needSkipToKeyFrm := false);
      var task := Task(true, s2.cur.slotIndex, Refer(s2.ref0, s2.cur), Refer(s2.ref1, s2.cur), DxvaRefs(s2));
      var u := UpdateRefFrame(s2);
      ParseResult(head.HeadOk?, u.state, task, u.pts)
  }

  /** rmvbd_parser_parse as written: a decoder header that succeeds zeroes
      ref_frame_cnt on its way, so the B-picture test always sees 0; a
      failed one returns before the zeroing. */
  function ParseAsWritten(s: ParserState, head: Head): (r: ParseResult)
    requires HeadValid(s, head) && s.ref1.tr < TrWrap
    ensures head.HeadOk? && head.hdr.picCodingType == PicB ==> !r.ok && !r.task.valid
    ensures r.ok ==> head.HeadOk? && r.state.refFrameCnt == 1
    ensures head.HeadFailed? ==> !r.ok
  {
    ParseFrom(if head.HeadOk? then s.(refFrameCnt := 0) else s, head)
  }

  /** rmvbd_parser_parse with the reference count kept across pictures. */
  function Parse(s: ParserState, head: Head): (r: ParseResult)
    requires HeadValid(s, head) && s.ref1.tr < TrWrap
    ensures r.task.valid <==> !(s.refFrameCnt < 2 && TypeSeen(s, head) == PicB)
                              && !(s.needSkipToKeyFrm && TypeSeen(s, head) != PicI && TypeSeen(s, head) != PicFI)
    ensures r.ok <==> head.HeadOk? && r.task.valid
    ensures r.task.valid ==> !r.state.needSkipToKeyFrm
    ensures !r.task.valid ==> r.state.refFrameCnt == s.refFrameCnt
                              && r.state.needSkipToKeyFrm == s.needSkipToKeyFrm
    ensures r.task.valid && TypeSeen(s, head) != PicB && TypeSeen(s, head) != NoPicType ==>
              r.state.refFrameCnt == s.refFrameCnt + 1
              && r.state.ref0.tr == (if head.HeadOk? then head.hdr.tr else s.cur.tr)
    ensures r.task.valid && TypeSeen(s, head) == PicB ==>
              r.state.refFrameCnt == s.refFrameCnt && r.state.cur.slotIndex == SlotReleased
    ensures r.task.refer0.Some? ==> r.task.refer0.value != r.task.output && r.task.refer0.value < SlotUnused
    ensures r.task.refer1.Some? ==> r.task.refer1.value != r.task.output && r.task.refer1.value < SlotUnused
  {
    ParseFrom(s, head)
  }

  /** A failed decoder head never reaches the zeroing of the reference
      count, so there the parser as written and the corrected one agree;
      with the previous picture's type admitted, they still hand a valid
      task to the hardware, return NOK, and count one more reference for
      a stale I or P type. */
  lemma HeadFailureAgrees(s: ParserState)
    requires s.cur.tr < TrWrap && s.ref1.tr < TrWrap
    ensures ParseAsWritten(s, HeadFailed) == Parse(s, HeadFailed)
    ensures var r := Parse(s, HeadFailed);
            && !r.ok
            && (r.task.valid <==> !(s.refFrameCnt < 2 && s.cur.picCodingType == PicB)
                                  && !(s.needSkipToKeyFrm && s.cur.picCodingType != PicI && s.cur.picCodingType != PicFI))
            && (r.task.valid && s.cur.picCodingType != PicB && s.cur.picCodingType != NoPicType ==>
                  r.state.refFrameCnt == s.refFrameCnt + 1 && r.state.ref0 == s.cur)
  {
  }

  /** The reference count never exceeds the number of non-B pictures
      accepted, so a B picture needs two of them first. */
  lemma BNeedsTwoReferences(s: ParserState, h1: Header, h2: Header, hb: Header)
    requires s == InitState()
    requires HeaderValid(h1) && HeaderValid(h2) && HeaderValid(hb)
    requires h1.picCodingType != PicB && h2.picCodingType != PicB && hb.picCodingType == PicB
    ensures !Parse(s, HeadOk(hb)).ok
    ensures Parse(s, HeadOk(h1)).ok && Parse(Parse(s, HeadOk(h1)).state, HeadOk(h2)).ok
    ensures Parse(Parse(Parse(s, HeadOk(h1)).state, HeadOk(h2)).state, HeadOk(hb)).ok
  {
    var s1 := Parse(s, HeadOk(h1)).state;
    assert s1.ref1.tr < TrWrap;
    var s2 := Parse(s1, HeadOk(h2)).state;
    assert s2.refFrameCnt == 2;
  }

  /** As written, the B picture after an I and a P picture is still
      refused. */
  lemma BRejectedAsWrittenWitness()
    ensures var s1 := ParseAsWritten(InitState(), HeadOk(Header(PicI, 0))).state;
            var s2 := ParseAsWritten(s1, HeadOk(Header(PicP, 2))).state;
            && Parse(Parse(InitState(), HeadOk(Header(PicI, 0))).state, HeadOk(Header(PicP, 2))).state.refFrameCnt == 2
            && !ParseAsWritten(s2, HeadOk(Header(PicB, 1))).ok
            && Parse(Parse(Parse(InitState(), HeadOk(Header(PicI, 0))).state, HeadOk(Header(PicP, 2))).state, HeadOk(Header(PicB, 1))).ok
  {
    var s1 := ParseAsWritten(InitState(), HeadOk(Header(PicI, 0))).state;
    assert s1.ref1.tr == 0;
    var c1 := Parse(InitState(), HeadOk(Header(PicI, 0))).state;
    assert c1.ref1.tr == 0;
    var c2 := Parse(c1, HeadOk(Header(PicP, 2))).state;
    assert c2.refFrameCnt == 2;
  }
}

=== FILE: vp8d_regs.dfy ===
/** The VP8/VP7 decoder register derivation: macroblock dimensions, the
    per-segment loop-filter levels and quantisers (sections 9.3 and 9.6 of
    RFC 6386), the control flags, the six-tap prediction filter table
    (section 18 of RFC 6386) and the DCT partition lengths and offsets.
    The register block starts zeroed, so a field the derivation does not
    write reads 0.  Buffer file descriptors and IOMMU address composition
    are not modelled: a partition base is the aligned byte offset. */
module Vp8dRegs {
  import opened Common

  datatype DecMode = Vp7 | Vp8

  /** The picture parameters the parser hands over.  frameType is 0 for a
      key frame; quantData and filterData are the two rows of
      segment_feature_data; dctPartitionOffsets has eight entries. */
  datatype PicParams = PicParams(
    width: U16, height: U16, frameType: Bit, decMode: DecMode, version: nat,
    mbNoCoeffSkip: bool, filterLevel: nat,
    segmentationEnabled: bool, updateMbSegmentationData: bool,
    quantData: seq<int>, filterData: seq<int>, y1acDeltaQ: int,
    streamEndPos: Word, frameTagSize: Word, offsetToDctParts: Word, streamStartOffset: Word,
    log2NbrOfDctPartitions: nat, dctPartitionOffsets: seq<Word>)

  /** Four segments, at most eight DCT partitions (log2 count 0..3). */
  predicate WellFormed(pp: PicParams)
  {
    |pp.quantData| == 4 && |pp.filterData| == 4
    && pp.log2NbrOfDctPartitions <= 3 && |pp.dctPartitionOffsets| == 8
  }

  // ---------------------------------------------------------------------
  // Macroblock dimensions

  /** The macroblock counts and their split over the low register fields
      (9 bits of width, 8 bits of height) and the extension fields. */
  datatype MbDims = MbDims(mbWidth: nat, mbHeight: nat,
                           widthLow: nat, widthExt: nat, heightLow: nat, heightExt: nat)

  /** (w + 15) >> 4 macroblocks, then the low/ext split. */
  function MbDimRegs(w: U16, h: U16): (d: MbDims)
    ensures w <= d.mbWidth * 16 < w + 16
    ensures h <= d.mbHeight * 16 < h + 16
    ensures d.widthLow < 512 && d.heightLow < 256
  {
    var mw := Shr(w + 15, 4);
    var mh := Shr(h + 15, 4);
    ShrShl(w + 15, 4);
    ShrShl(h + 15, 4);
    Pow2Values();
    MbDims(mw, mh, mw % 512, Shr(mw, 9), mh % 256, Shr(mh, 8))
  }

  /** The low and extension fields recombine to the full macroblock counts. */
  lemma MbFieldsRecombine(w: U16, h: U16)
    ensures MbDimRegs(w, h).widthExt * 512 + MbDimRegs(w, h).widthLow == MbDimRegs(w, h).mbWidth
    ensures MbDimRegs(w, h).heightExt * 256 + MbDimRegs(w, h).heightLow == MbDimRegs(w, h).mbHeight
  {
    var d := MbDimRegs(w, h);
    ShrDiv(d.mbWidth, 9);
    ShrDiv(d.mbHeight, 8);
    Pow2Values();
    assert Pow2(9) == 512;
  }

  // ---------------------------------------------------------------------
  // Per-segment filter level and quantiser

  /** The four per-segment values of one segment feature: segment 0 gets
      `base` without segmentation (the other three stay 0), absolute mode
      takes the segment data as it is, delta mode adds it to `base` and
      clamps to 0..max. */
  function SegmentValues(segmentation: bool, absolute: bool, base: int, data: seq<int>, max: nat): (v: seq<int>)
    requires |data| == 4
    ensures |v| == 4
    ensures !segmentation ==> v[0] == base && v[1] == 0 && v[2] == 0 && v[3] == 0
    ensures segmentation && absolute ==> v == data
    ensures segmentation && !absolute ==>
              forall k :: 0 <= k < 4 ==>
                && 0 <= v[k] <= max
                && (0 <= base + data[k] <= max ==> v[k] == base + data[k])
                && (base + data[k] < 0 ==> v[k] == 0)
                && (base + data[k] > max ==> v[k] == max)
  {
    if !segmentation then [base, 0, 0, 0]
    else if absolute then data
    else [Clamp(0, max, base + data[0]), Clamp(0, max, base + data[1]),
          Clamp(0, max, base + data[2]), Clamp(0, max, base + data[3])]
  }

  /** In delta mode a larger segment delta never gives a smaller value. */
  lemma SegmentDeltaMonotone(base: int, data: seq<int>, max: nat, i: nat, j: nat)
    requires |data| == 4 && i < 4 && j < 4 && data[i] <= data[j]
    ensures SegmentValues(true, false, base, data, max)[i] <= SegmentValues(true, false, base, data, max)[j]
  {
  }

  /** In delta mode, zero deltas give every segment the frame value, which
      is also what segment 0 gets without segmentation. */
  lemma SegmentZeroDeltaIsFrameValue(base: int, max: nat, k: nat)
    requires 0 <= base <= max && k < 4
    ensures SegmentValues(true, false, base, [0, 0, 0, 0], max)[k] == base
    ensures SegmentValues(false, false, base, [0, 0, 0, 0], max)[0] == base
  {
  }

  // ---------------------------------------------------------------------
  // The six-tap sub-pixel prediction filter

  /** The six-tap filter, one row per eighth-pixel position. */
  const McFilter: seq<seq<int>> := [
    [0,   0, 128,   0,   0, 0],
    [0,  -6, 123,  12,  -1, 0],
    [2, -11, 108,  36,  -8, 1],
    [0,  -9,  93,  50,  -6, 0],
    [3, -16,  77,  77, -16, 3],
    [0,  -6,  50,  93,  -9, 0],
    [1,  -8,  36, 108, -11, 2],
    [0,  -1,  12, 123,  -6, 0]]

  function Sum(s: seq<int>): int
  {
    if |s| == 0 then 0 else s[0] + Sum(s[1..])
  }

  /** The sum of a six-element row, term by term. */
  lemma SumSix(s: seq<int>)
    requires |s| == 6
    ensures Sum(s) == s[0] + s[1] + s[2] + s[3] + s[4] + s[5]
  {
    assert s[5..][1..] == [];
    assert Sum(s[5..]) == s[5];
    assert s[4..][1..] == s[5..];
    assert Sum(s[4..]) == s[4] + Sum(s[5..]);
    assert s[3..][1..] == s[4..];
    assert Sum(s[3..]) == s[3] + Sum(s[4..]);
    assert s[2..][1..] == s[3..];
    assert Sum(s[2..]) == s[2] + Sum(s[3..]);
    assert s[1..][1..] == s[2..];
    assert Sum(s[1..]) == s[1] + Sum(s[2..]);
  }

  /** Every filter row has unit gain: its taps sum to 128 = 1 << 7. */
  lemma McFilterGain()
    ensures |McFilter| == 8
    ensures forall r :: 0 <= r < 8 ==> |McFilter[r]| == 6 && Sum(McFilter[r]) == 128
  {
    forall r | 0 <= r < 8
      ensures Sum(McFilter[r]) == 128
    {
      SumSix(McFilter[r]);
    }
  }

  function Reverse(s: seq<int>): (r: seq<int>)
    ensures |r| == |s| && forall i :: 0 <= i < |s| ==> r[i] == s[|s| - 1 - i]
  {
    seq(|s|, i requires 0 <= i < |s| => s[|s| - 1 - i])
  }

  /** The filter for position 8 - k is the mirror image of the one for k. */
  lemma McFilterMirror()
    ensures forall r :: 1 <= r < 8 ==> Reverse(McFilter[r]) == McFilter[8 - r]
  {
    assert Reverse(McFilter[1]) == McFilter[7];
    assert Reverse(McFilter[2]) == McFilter[6];
    assert Reverse(McFilter[3]) == McFilter[5];
    assert Reverse(McFilter[4]) == McFilter[4];
    assert Reverse(McFilter[5]) == McFilter[3];
    assert Reverse(McFilter[6]) == McFilter[2];
    assert Reverse(McFilter[7]) == McFilter[1];
  }

  /** The middle-tap registers: the four middle taps of each row when the
      six-tap filter is in use (version & 3 == 0), otherwise left at 0.  The
      outer taps that are non-zero have registers of their own
      (OuterTapRegs). */
  function TapRegs(version: nat): (t: seq<seq<int>>)
    ensures |t| == 8 && forall r :: 0 <= r < 8 ==> |t[r]| == 4
    ensures version % 4 == 0 ==> forall r, k :: 0 <= r < 8 && 0 <= k < 4 ==> t[r][k] == McFilter[r][k + 1]
    ensures version % 4 != 0 ==> forall r, k :: 0 <= r < 8 && 0 <= k < 4 ==> t[r][k] == 0
  {
    if version % 4 == 0 then seq(8, r requires 0 <= r < 8 => McFilter[r][1..5])
    else seq(8, r => [0, 0, 0, 0])
  }

  /** The rows whose outer taps have registers of their own: only the
      filters for positions 2, 4 and 6 have non-zero outer taps. */
  const OuterTapRows: seq<nat> := [2, 4, 6]

  /** The outer-tap registers sw_pred_tap_r_M1 and sw_pred_tap_r_4 for
      r = 2, 4, 6, in that order: the first and last tap of those rows in
      six-tap versions, otherwise left at 0. */
  function OuterTapRegs(version: nat): (o: seq<(int, int)>)
    ensures |o| == 3
    ensures version % 4 == 0 ==>
              forall i :: 0 <= i < 3 ==> o[i] == (McFilter[OuterTapRows[i]][0], McFilter[OuterTapRows[i]][5])
    ensures version % 4 != 0 ==> forall i :: 0 <= i < 3 ==> o[i] == (0, 0)
  {
    if version % 4 == 0 then [(2, 1), (3, 3), (1, 2)] else [(0, 0), (0, 0), (0, 0)]
  }

  /** The filter row the hardware applies: the four middle-tap registers,
      framed by the outer-tap registers for rows 2, 4 and 6 and by zero
      taps for the rows that have no outer-tap register. */
  function AppliedFilter(t: seq<seq<int>>, o: seq<(int, int)>, r: nat): (f: seq<int>)
    requires |t| == 8 && r < 8 && |t[r]| == 4 && |o| == 3
    ensures |f| == 6 && f[1..5] == t[r]
    ensures r == 2 || r == 4 || r == 6 ==> f[0] == o[r / 2 - 1].0 && f[5] == o[r / 2 - 1].1
    ensures r != 2 && r != 4 && r != 6 ==> f[0] == 0 && f[5] == 0
  {
    var outer := if r == 2 || r == 4 || r == 6 then o[r / 2 - 1] else (0, 0);
    [outer.0] + t[r] + [outer.1]
  }

  /** In six-tap versions the hardware applies exactly the filter table,
      outer taps included, so every applied row keeps unit gain. */
  lemma ProgrammedTapsKeepGain(version: nat, r: nat)
    requires version % 4 == 0 && r < 8
    ensures AppliedFilter(TapRegs(version), OuterTapRegs(version), r) == McFilter[r]
    ensures Sum(AppliedFilter(TapRegs(version), OuterTapRegs(version), r)) == 128
  {
    McFilterGain();
    var f := AppliedFilter(TapRegs(version), OuterTapRegs(version), r);
    assert f[0] == McFilter[r][0] && f[5] == McFilter[r][5];
    assert f[1..5] == McFilter[r][1..5];
    assert forall k :: 0 <= k < 6 ==> f[k] == McFilter[r][k] by {
      forall k | 0 <= k < 6 ensures f[k] == McFilter[r][k] {
        if 1 <= k < 5 {
          assert f[k] == f[1..5][k - 1];
          assert McFilter[r][k] == McFilter[r][1..5][k - 1];
        }
      }
    }
  }

  lemma {:induction false} SumConcat(a: seq<int>, b: seq<int>)
    ensures Sum(a + b) == Sum(a) + Sum(b)
  {
    if |a| > 0 {
      assert (a + b)[1..] == a[1..] + b;
      SumConcat(a[1..], b);
    } else {
      assert a + b == b;
    }
  }

  // ---------------------------------------------------------------------
  // DCT partitions

  /** Number of DCT partitions: 1, 2, 4 or 8. */
  function NumPartitions(pp: PicParams): (n: nat)
    requires WellFormed(pp)
    ensures n == 1 || n == 2 || n == 4 || n == 8
  {
    Pow2Values();
    Pow2(pp.log2NbrOfDctPartitions)
  }

  /** A VP8 key frame carries 7 bytes that the parser packed in front of
      the partitions; nothing else does. */
  function ExtraBytesPacked(pp: PicParams): (x: nat)
    ensures x == 0 || x == 7
    ensures x == 7 <==> pp.decMode == Vp8 && pp.frameType == 0
  {
    if pp.decMode == Vp8 && pp.frameType == 0 then 7 else 0
  }

  /** The unsigned 32-bit byte address of a partition. */
  function PartitionAddr(extra: nat, off: Word): (a: Word)
    ensures extra + off < U32 ==> a == extra + off
  {
    (extra + off) % U32
  }

  /** `addr & 0xFFFFFFF8` and `(addr & 7) * 8`: the 8-byte aligned base and
      the bit position of the partition's first byte within it. */
  function AlignedBase(a: Word): (b: Word)
  {
    a - a % 8
  }

  function StartBit(a: Word): (s: nat)
  {
    8 * (a % 8)
  }

  /** Base and start bit locate the partition exactly. */
  lemma BaseAndBitLocate(a: Word)
    ensures AlignedBase(a) % 8 == 0 && AlignedBase(a) <= a < AlignedBase(a) + 8
    ensures StartBit(a) % 8 == 0 && StartBit(a) < 64
    ensures 8 * AlignedBase(a) + StartBit(a) == 8 * a
  {
    RoundDown(a, 8);
  }

  /** Partition i's start bit: the corrected switch writes slot i. */
  function StartBitsFrom(pp: PicParams, extra: nat, slots: seq<nat>, i: nat): (r: seq<nat>)
    requires WellFormed(pp) && |slots| == 8 && i <= NumPartitions(pp)
    decreases NumPartitions(pp) - i
    ensures |r| == 8
    ensures forall k :: i <= k < NumPartitions(pp) ==>
              r[k] == StartBit(PartitionAddr(extra, pp.dctPartitionOffsets[k]))
    ensures forall k :: 0 <= k < 8 && !(i <= k < NumPartitions(pp)) ==> r[k] == slots[k]
  {
    if i == NumPartitions(pp) then slots
    else StartBitsFrom(pp, extra, slots[i := StartBit(PartitionAddr(extra, pp.dctPartitionOffsets[i]))], i + 1)
  }

  /** The switch as written: partition 7 lands in slot 6. */
  function SlotAsWritten(i: nat): (k: nat)
  {
    if i == 7 then 6 else i
  }

  function StartBitsFromAsWritten(pp: PicParams, extra: nat, slots: seq<nat>, i: nat): (r: seq<nat>)
    requires WellFormed(pp) && |slots| == 8 && i <= NumPartitions(pp)
    decreases NumPartitions(pp) - i
    ensures |r| == 8
    ensures forall k :: i <= k < NumPartitions(pp) && k < 6 ==>
              r[k] == StartBit(PartitionAddr(extra, pp.dctPartitionOffsets[k]))
    ensures forall k :: 0 <= k < 6 && !(i <= k < NumPartitions(pp)) ==> r[k] == slots[k]
    ensures r[7] == slots[7]
    ensures r[6] == (if i <= 7 < NumPartitions(pp) then StartBit(PartitionAddr(extra, pp.dctPartitionOffsets[7]))
                     else if i <= 6 < NumPartitions(pp) then StartBit(PartitionAddr(extra, pp.dctPartitionOffsets[6]))
                     else slots[6])
  {
    if i == NumPartitions(pp) then slots
    else
      StartBitsFromAsWritten(pp, extra,
        slots[SlotAsWritten(i) := StartBit(PartitionAddr(extra, pp.dctPartitionOffsets[i]))], i + 1)
  }

  /** The register block starts zeroed. */
  const NoStartBits: seq<nat> := [0, 0, 0, 0, 0, 0, 0, 0]

  function StartBitsAsWritten(pp: PicParams): (r: seq<nat>)
    requires WellFormed(pp)
    ensures |r| == 8
  {
    StartBitsFromAsWritten(pp, ExtraBytesPacked(pp), NoStartBits, 0)
  }

  /** The partition registers. */
  datatype PartitionRegs = PartitionRegs(
    streamLen: Word, stream1Len: Word, coeffsPartAm: nat, bases: seq<Word>, startBits: seq<nat>)

  function Partitions(pp: PicParams): (p: PartitionRegs)
    requires WellFormed(pp)
    ensures p.coeffsPartAm + 1 == NumPartitions(pp)
    ensures |p.bases| == NumPartitions(pp) && |p.startBits| == 8
    ensures forall k :: 0 <= k < NumPartitions(pp) ==>
              8 * (p.bases[k] as int) + p.startBits[k]
                == 8 * PartitionAddr(ExtraBytesPacked(pp), pp.dctPartitionOffsets[k])
              && p.bases[k] % 8 == 0 && p.startBits[k] < 64
    ensures forall k :: NumPartitions(pp) <= k < 8 ==> p.startBits[k] == 0
    ensures p.streamLen
              == (pp.streamEndPos + pp.frameTagSize - pp.dctPartitionOffsets[0]
                  + 3 * p.coeffsPartAm + p.startBits[0] / 8) % U32
  {
    var extra := ExtraBytesPacked(pp);
    var n := NumPartitions(pp);
    var len1 := (extra + pp.dctPartitionOffsets[0]) % U32;
    var len := (pp.streamEndPos + pp.frameTagSize - pp.dctPartitionOffsets[0] + (n - 1) * 3 + len1 % 8) % U32;
    var len2 := Stream1Len(pp, extra);
    var bits := StartBitsFrom(pp, extra, NoStartBits, 0);
    PartitionsLocate(pp, extra);
    PartitionRegs(len, len2, n - 1, Bases(pp, extra), bits)
  }

  /** The first partition's length register: from the stream start to
      the DCT partitions, one byte longer for VP7. */
  function Stream1Len(pp: PicParams, extra: nat): Word
  {
    (pp.offsetToDctParts + pp.frameTagSize - (pp.streamStartOffset - extra)
     + (if pp.decMode == Vp7 then 1 else 0)) % U32
  }

  /** The aligned base of every partition, in partition order. */
  function Bases(pp: PicParams, extra: nat): (b: seq<Word>)
    requires WellFormed(pp)
    ensures |b| == NumPartitions(pp)
    ensures forall k :: 0 <= k < |b| ==> b[k] == AlignedBase(PartitionAddr(extra, pp.dctPartitionOffsets[k]))
  {
    seq(NumPartitions(pp), k requires 0 <= k < NumPartitions(pp) =>
      AlignedBase(PartitionAddr(extra, pp.dctPartitionOffsets[k])))
  }

  /** Each partition's base and start-bit registers together point at its
      first bit. */
  lemma PartitionsLocate(pp: PicParams, extra: nat)
    requires WellFormed(pp)
    ensures var bases := Bases(pp, extra); var bits := StartBitsFrom(pp, extra, NoStartBits, 0);
            && bits[0] == StartBit(PartitionAddr(extra, pp.dctPartitionOffsets[0]))
            && forall k :: 0 <= k < NumPartitions(pp) ==>
                 8 * (bases[k] as int) + bits[k] == 8 * PartitionAddr(extra, pp.dctPartitionOffsets[k])
                 && bases[k] % 8 == 0 && bits[k] < 64
  {
    var bases := Bases(pp, extra);
    var bits := StartBitsFrom(pp, extra, NoStartBits, 0);
    forall k | 0 <= k < NumPartitions(pp)
      ensures 8 * (bases[k] as int) + bits[k] == 8 * PartitionAddr(extra, pp.dctPartitionOffsets[k])
      ensures bases[k] % 8 == 0 && bits[k] < 64
    {
      BaseAndBitLocate(PartitionAddr(extra, pp.dctPartitionOffsets[k]));
    }
  }

  /** VP7 is given one more byte of first-partition stream than a VP8
      inter frame with the same offsets. */
  lemma Vp7StreamOneExtraByte(pp: PicParams)
    requires WellFormed(pp) && pp.decMode == Vp7
    ensures Partitions(pp).stream1Len
              == (Partitions(pp.(decMode := Vp8, frameType := 1)).stream1Len + 1) % U32
  {
    var q := pp.(decMode := Vp8, frameType := 1);
    var x := pp.offsetToDctParts + pp.frameTagSize - pp.streamStartOffset;
    assert Partitions(pp).stream1Len == (x + 1) % U32;
    assert Partitions(q).stream1Len == x % U32;
    ModAddOne(x, U32);
  }

  /** Adding one before or after reducing modulo m gives the same residue. */
  lemma ModAddOne(x: int, m: int)
    requires m > 0
    ensures (x + 1) % m == (x % m + 1) % m
  {
    DivModUnique(x, m, x / m, x % m);
    var r := x % m;
    if r + 1 < m {
      DivModUnique(x + 1, m, x / m, r + 1);
      DivModUnique(r + 1, m, 0, r + 1);
    } else {
      DivModUnique(x + 1, m, x / m + 1, 0);
      DivModUnique(r + 1, m, 1, 0);
    }
  }

  /** With at most four partitions the switch as written and the corrected
      one agree. */
  lemma StartBitsAgreeBelowEight(pp: PicParams)
    requires WellFormed(pp) && NumPartitions(pp) < 8
    ensures StartBitsAsWritten(pp) == Partitions(pp).startBits
  {
    var a := StartBitsAsWritten(pp);
    var b := Partitions(pp).startBits;
    assert forall k :: 0 <= k < 8 ==> a[k] == b[k];
  }

  /** With eight partitions the switch as written stores partition 7's start
      bit over partition 6's and never sets slot 7. */
  lemma StartBitsEightPartitionsWitness()
    ensures var pp := PicParams(16, 16, 1, Vp8, 0, false, 1, false, false, [0, 0, 0, 0], [0, 0, 0, 0], 0,
                                0, 0, 0, 0, 3, [0, 0, 0, 0, 0, 0, 1, 2]);
            && WellFormed(pp)
            && StartBitsAsWritten(pp)[6] == 16 && StartBitsAsWritten(pp)[7] == 0
            && Partitions(pp).startBits[6] == 8 && Partitions(pp).startBits[7] == 16
  {
    var pp := PicParams(16, 16, 1, Vp8, 0, false, 1, false, false, [0, 0, 0, 0], [0, 0, 0, 0], 0,
                        0, 0, 0, 0, 3, [0, 0, 0, 0, 0, 0, 1, 2]);
    Pow2Values();
    assert NumPartitions(pp) == 8;
    assert ExtraBytesPacked(pp) == 0;
  }

  // ---------------------------------------------------------------------
  // The whole register derivation

  datatype Vp8Regs = Vp8Regs(
    dims: MbDims, interE: bool, skipMode: bool, filterLevels: seq<int>, quants: seq<int>,
    filteringDis: bool, romainMv: bool, bilinear: bool, taps: seq<seq<int>>, outerTaps: seq<(int, int)>,
    partitions: PartitionRegs, decE: bool)

  function GenRegs(pp: PicParams): (r: Vp8Regs)
    requires WellFormed(pp)
    ensures r.interE <==> pp.frameType == 1
    ensures r.skipMode <==> !pp.mbNoCoeffSkip
    ensures r.filteringDis <==> pp.filterLevel == 0
    ensures r.romainMv <==> pp.version != 3
    ensures r.bilinear <==> pp.decMode == Vp8 && pp.version % 4 != 0
    ensures |r.filterLevels| == 4 && |r.quants| == 4
    ensures pp.segmentationEnabled && !pp.updateMbSegmentationData ==>
              forall k :: 0 <= k < 4 ==> 0 <= r.filterLevels[k] <= 63 && 0 <= r.quants[k] <= 127
    ensures r.decE
  {
    var seg := pp.segmentationEnabled;
    var abs := pp.updateMbSegmentationData;
    Vp8Regs(
      dims := MbDimRegs(pp.width, pp.height),
      interE := pp.frameType == 1,
      skipMode := !pp.mbNoCoeffSkip,
      filterLevels := SegmentValues(seg, abs, pp.filterLevel, pp.filterData, 63),
      quants := SegmentValues(seg, abs, pp.y1acDeltaQ, pp.quantData, 127),
      filteringDis := pp.filterLevel == 0,
      romainMv := pp.version != 3,
      bilinear := pp.decMode == Vp8 && pp.version % 4 != 0,
      taps := TapRegs(pp.version),
      outerTaps := OuterTapRegs(pp.version),
      partitions := Partitions(pp),
      decE := true)
  }

  /** A VP8 stream predicts either bilinearly or with the six-tap filter,
      never both: with bilinear on the tap registers, outer ones included,
      stay 0, otherwise the hardware applies exactly the six-tap table. */
  lemma BilinearExcludesSixTap(pp: PicParams, row: nat, k: nat)
    requires WellFormed(pp) && pp.decMode == Vp8 && row < 8 && k < 4
    ensures GenRegs(pp).bilinear ==> GenRegs(pp).taps[row][k] == 0
    ensures !GenRegs(pp).bilinear ==> GenRegs(pp).taps[row][k] == McFilter[row][k + 1]
    ensures GenRegs(pp).bilinear ==> forall i :: 0 <= i < 3 ==> GenRegs(pp).outerTaps[i] == (0, 0)
    ensures !GenRegs(pp).bilinear ==> forall r :: 0 <= r < 8 ==>
              AppliedFilter(GenRegs(pp).taps, GenRegs(pp).outerTaps, r) == McFilter[r]
  {
    if !GenRegs(pp).bilinear {
      forall r | 0 <= r < 8
        ensures AppliedFilter(GenRegs(pp).taps, GenRegs(pp).outerTaps, r) == McFilter[r]
      {
        ProgrammedTapsKeepGain(pp.version, r);
      }
    }
  }
}

=== FILE: vpu_legacy.dfy ===
/** The legacy VPU adapter: the pure helpers that translate between the old
    VpuCodecContext interface and the MPI, namely the stride alignments, the
    encoder input-format remap, the decoder format geometry, the packed
    width field of VPU_API_SET_DEFAULT_WIDTH_HEIGH, the MppFrame to VPU_FRAME
    mapping, the start-code strip of encoder_getstream, the EOS latch of
    decode_getoutframe and the command translation of control.  Calls into
    the MPI are parameters: their results are passed in. */
module VpuLegacy {
  import opened Common

  // ---------------------------------------------------------------------
  // Alignment helpers

  /** MPP_ALIGN(val, a) for the power-of-two alignments the adapter uses:
      the least multiple of a that is at least val, or 0 once val + a - 1
      wraps the 32-bit range. */
  function Align(val: Word, a: nat): (r: Word)
    requires a == 8 || a == 16 || a == 64 || a == 128 || a == 256
    ensures r % a == 0
    ensures val + a - 1 < U32 ==> val <= r < val + a
    ensures val + a - 1 >= U32 ==> r == 0
  {
    if val + a - 1 < U32 then
      AlignU32Least(val, a);
      AlignU32(val, a)
    else
      DivModUnique(val + a - 1 - U32, a, 0, val + a - 1 - U32);
      AlignU32(val, a)
  }

  /** hevc_hor_align_256_odd: MPP_ALIGN(val, 256) | 256, the least odd
      multiple of 256 that is at least val. */
  function HevcHorAlign256Odd(val: Word): (r: Word)
    ensures r % 512 == 256
    ensures val + 255 < U32 ==> val <= r < val + 512
    ensures val + 255 >= U32 ==> r == 256
  {
    var a := Align(val, 256);
    var q := a / 256;
    DivModUnique(a, 256, q, 0);
    if q % 2 == 1 then
      DivModUnique(a, 512, q / 2, 256);
      a
    else
      DivModUnique(a + 256, 512, q / 2, 256);
      a + 256
  }

  // ---------------------------------------------------------------------
  // vpu_pic_type_remap_to_mpp

  /** The MPP format of each legacy encoder input type, indexed by its code
      in the EncInputPictureType enumeration (YUV420 planar = 0 through
      BGR101010 = 13). */
  const RemapTable: seq<MppFmt> :=
    [Yuv420p, Yuv420sp, Yuv422Yuyv, Yuv422Uyvy, Rgb565, Bgr565, Rgb555, Bgr555,
     Rgb444, Bgr444, Rgb888, Bgr888, Rgb101010, Bgr101010]

  const EncInputTypes: nat := 14

  /** The remap: a listed type gets a real format, anything else MPP_FMT_BUTT. */
  function RemapToMpp(t: int): (r: MppFmt)
    ensures r != FmtButt <==> 0 <= t < EncInputTypes
  {
    if 0 <= t < EncInputTypes then RemapTable[t] else FmtButt
  }

  /** The input type a format comes from, if any. */
  function InputTypeOf(f: MppFmt): (r: Option<nat>)
    ensures r.Some? ==> r.value < EncInputTypes
  {
    match f
    case Yuv420p => Some(0)
    case Yuv420sp => Some(1)
    case Yuv422Yuyv => Some(2)
    case Yuv422Uyvy => Some(3)
    case Rgb565 => Some(4)
    case Bgr565 => Some(5)
    case Rgb555 => Some(6)
    case Bgr555 => Some(7)
    case Rgb444 => Some(8)
    case Bgr444 => Some(9)
    case Rgb888 => Some(10)
    case Bgr888 => Some(11)
    case Rgb101010 => Some(12)
    case Bgr101010 => Some(13)
    case _ => None
  }

  /** Every listed input type is recovered from its format ... */
  lemma RemapRoundTrip(t: int)
    requires 0 <= t < EncInputTypes
    ensures InputTypeOf(RemapToMpp(t)) == Some(t)
  {
  }

  /** ... and every format that has an input type is the image of it, so the
      remap is one-to-one over the listed types. */
  lemma RemapOnto(f: MppFmt)
    ensures InputTypeOf(f).Some? <==> (exists t :: 0 <= t < EncInputTypes && RemapToMpp(t) == f)
  {
    if InputTypeOf(f).Some? {
      assert RemapToMpp(InputTypeOf(f).value) == f;
    }
  }

  lemma RemapInjective(a: int, b: int)
    requires RemapToMpp(a) == RemapToMpp(b) != FmtButt
    ensures a == b
  {
    RemapRoundTrip(a);
    RemapRoundTrip(b);
  }

  // ---------------------------------------------------------------------
  // getDecoderFormat

  datatype Coding = Mpeg2 | H263 | Mpeg4 | Avc | Vp8 | Vp9 | Hevc | OtherCoding

  datatype DecoderFormat = DecoderFormat(
    width: nat, height: nat, stride: nat, frameSize: nat,
    alignedWidth: nat, alignedHeight: nat, alignedStride: nat, alignedFrameSize: nat)

  /** (w * h * 3) >> 1 in 32-bit unsigned arithmetic: the bytes of a 4:2:0
      picture of w x h samples. */
  function Yuv420Bytes(w: nat, h: nat): (r: nat)
    ensures r < U32
    ensures w * h * 3 < U32 ==> 2 * r <= w * h * 3 < 2 * r + 2
  {
    ((w * h * 3) % U32) / 2
  }

  /** The codings whose decoder buffers are macroblock aligned. */
  predicate MacroblockAligned(c: Coding) {
    c == Mpeg2 || c == Mpeg4 || c == Avc || c == Vp8 || c == H263
  }

  /** getDecoderFormat: the display geometry and the aligned buffer geometry
      of the context's picture, with -1 and no aligned geometry for a coding
      it does not know. */
  function GetDecoderFormat(c: Coding, w: Word, h: Word): (r: (int, DecoderFormat))
    ensures r.1.width == w && r.1.height == h && r.1.stride == w && r.1.frameSize == Yuv420Bytes(w, h)
    ensures r.0 == 0 <==> MacroblockAligned(c) || c == Hevc
    ensures r.0 != 0 ==> r.0 == -1
    ensures r.0 == -1 ==>
              r.1.alignedWidth == 0 && r.1.alignedHeight == 0 && r.1.alignedStride == 0 && r.1.alignedFrameSize == 0
    ensures MacroblockAligned(c) ==>
              && r.1.alignedWidth % 16 == 0 && r.1.alignedHeight % 16 == 0
              && (w + 15 < U32 ==> w <= r.1.alignedWidth < w + 16)
              && (h + 15 < U32 ==> h <= r.1.alignedHeight < h + 16)
    ensures c == Hevc ==>
              && r.1.alignedWidth % 64 == 0 && r.1.alignedHeight % 8 == 0
              && (w + 63 < U32 ==> w <= r.1.alignedWidth < w + 64)
              && (h + 7 < U32 ==> h <= r.1.alignedHeight < h + 8)
    ensures r.0 == 0 ==>
              r.1.alignedStride == r.1.alignedWidth
              && r.1.alignedFrameSize == Yuv420Bytes(r.1.alignedWidth, r.1.alignedHeight)
  {
    var f := DecoderFormat(w, h, w, Yuv420Bytes(w, h), 0, 0, 0, 0);
    if MacroblockAligned(c) then
      var aw := Align(w, 16);
      var ah := Align(h, 16);
      (0, f.(alignedWidth := aw, alignedHeight := ah, alignedStride := aw,
             alignedFrameSize := Yuv420Bytes(aw, ah)))
    else if c == Hevc then
      var aw := Align(w, 64);
      var ah := Align(h, 8);
      (0, f.(alignedWidth := aw, alignedHeight := ah, alignedStride := aw,
             alignedFrameSize := Yuv420Bytes(aw, ah)))
    else
      (-1, f)
  }

  lemma MulMonotone(a: nat, b: nat, c: nat, d: nat)
    requires a <= c && b <= d
    ensures a * b <= c * d
  {
    assert a * b <= c * b;
    assert c * b <= c * d;
  }

  /** For pictures up to 8192 x 8192 nothing wraps, and the aligned buffer
      holds at least the display picture. */
  lemma AlignedFrameCoversPicture(c: Coding, w: Word, h: Word)
    requires MacroblockAligned(c) || c == Hevc
    requires w <= 8192 && h <= 8192
    ensures GetDecoderFormat(c, w, h).1.frameSize <= GetDecoderFormat(c, w, h).1.alignedFrameSize
  {
    var f := GetDecoderFormat(c, w, h).1;
    var aw, ah := f.alignedWidth, f.alignedHeight;
    assert w <= aw <= 8256 && h <= ah <= 8208;
    MulMonotone(w, h, aw, ah);
    MulMonotone(aw, ah, 8256, 8208);
    var p, q := w * h, aw * ah;
    assert p * 3 <= q * 3 < U32;
    assert f.frameSize == Yuv420Bytes(w, h) && f.alignedFrameSize == Yuv420Bytes(aw, ah);
    HalfMonotone(w, h, aw, ah);
  }

  lemma HalfMonotone(w: nat, h: nat, aw: nat, ah: nat)
    requires w * h * 3 <= aw * ah * 3 < U32
    ensures Yuv420Bytes(w, h) <= Yuv420Bytes(aw, ah)
  {
  }

  // ---------------------------------------------------------------------
  // VPU_API_SET_DEFAULT_WIDTH_HEIGH

  const TenBitFlag: nat := 0x8000_0000
  const Yuv422Flag: nat := 0x4000_0000

  /** The frame info handed to MPP_DEC_SET_FRAME_INFO. */
  datatype FrameInfo = FrameInfo(width: nat, height: nat, horStride: nat, verStride: nat, fmt: MppFmt)

  predicate IsTenBit(f: MppFmt) {
    f == Yuv420sp10Bit || f == Yuv422sp10Bit
  }

  predicate Is422(f: MppFmt) {
    f == Yuv422sp || f == Yuv422sp10Bit
  }

  /** The bytes of one line: the 16-bit sample width, times 10/8 (rounded
      down) when bit 31 marks a 10-bit stream. */
  function LineBytes(imgWidth: Word): (r: nat)
    ensures imgWidth < TenBitFlag ==> r == imgWidth % 0x10000
    ensures imgWidth >= TenBitFlag ==> 8 * r <= 10 * (imgWidth % 0x10000) < 8 * r + 8
    ensures r < 0x14000
  {
    var samples := imgWidth % 0x10000;
    if imgWidth >= TenBitFlag then (samples * 10) / 8 else samples
  }

  /** The horizontal and vertical alignment a coding gets, with
      largePicture the 1920 x 1088 test on the context size. */
  function HorAlign(c: Coding, largePicture: bool): (a: nat)
  {
    if c == Hevc || (c == Avc && largePicture) then 512
    else if c == Vp9 then 128
    else 16
  }

  function VerAlign(c: Coding): (a: nat)
  {
    if c == Hevc then 8 else if c == Vp9 then 64 else 16
  }

  /** The decoding of the packed width field: bit 31 selects 10 bits, bit
      30 the 4:2:2 layout, the low 16 bits are the width; the strides are
      aligned per coding (odd multiples of 256 horizontally for HEVC and
      for AVC beyond 1920 x 1088). */
  function DefaultWidthHeight(c: Coding, ctxWidth: int, ctxHeight: int, imgWidth: Word, imgHeight: Word)
    : (r: FrameInfo)
    ensures r.width == imgWidth % 0x10000 && r.height == imgHeight
    ensures IsTenBit(r.fmt) <==> imgWidth >= TenBitFlag
    ensures Is422(r.fmt) <==> (imgWidth / Yuv422Flag) % 2 == 1
    ensures r.fmt == Yuv420sp || r.fmt == Yuv420sp10Bit || Is422(r.fmt)
    ensures var big := ctxWidth > 1920 || ctxHeight > 1088;
            var ha := HorAlign(c, big);
            && (ha == 512 ==> r.horStride % 512 == 256 && LineBytes(imgWidth) <= r.horStride < LineBytes(imgWidth) + 512)
            && (ha != 512 ==> r.horStride % ha == 0 && LineBytes(imgWidth) <= r.horStride < LineBytes(imgWidth) + ha)
    ensures r.verStride % VerAlign(c) == 0
    ensures imgHeight + VerAlign(c) - 1 < U32 ==> imgHeight <= r.verStride < imgHeight + VerAlign(c)
  {
    var lb := LineBytes(imgWidth);
    var tenBit := imgWidth >= TenBitFlag;
    var is422 := (imgWidth / Yuv422Flag) % 2 == 1;
    var fmt := if tenBit then (if is422 then Yuv422sp10Bit else Yuv420sp10Bit)
               else (if is422 then Yuv422sp else Yuv420sp);
    var big := ctxWidth > 1920 || ctxHeight > 1088;
    var hor := if c == Hevc || (c == Avc && big) then HevcHorAlign256Odd(lb)
               else if c == Vp9 then Align(lb, 128) else Align(lb, 16);
    var ver := if c == Hevc then Align(imgHeight, 8)
               else if c == Vp9 then Align(imgHeight, 64) else Align(imgHeight, 16);
    FrameInfo(imgWidth % 0x10000, imgHeight, hor, ver, fmt)
  }

  /** The packed width field a caller builds from a width and the two format
      bits. */
  function WidthField(width: U16, tenBit: bool, is422: bool): (r: Word)
  {
    width + (if is422 then Yuv422Flag else 0) + (if tenBit then TenBitFlag else 0)
  }

  /** Decoding a packed field gives back the width and both format bits. */
  lemma WidthFieldRoundTrip(c: Coding, ctxWidth: int, ctxHeight: int, width: U16, tenBit: bool, is422: bool,
                            imgHeight: Word)
    ensures var r := DefaultWidthHeight(c, ctxWidth, ctxHeight, WidthField(width, tenBit, is422), imgHeight);
            r.width == width && (IsTenBit(r.fmt) <==> tenBit) && (Is422(r.fmt) <==> is422)
  {
    var v := WidthField(width, tenBit, is422);
    var k := (if is422 then 1 else 0) + (if tenBit then 2 else 0);
    assert v == k * Yuv422Flag + width;
    DivModUnique(v, Yuv422Flag, k, width);
    DivModUnique(v, 0x10000, k * 0x4000, width);
  }

  // ---------------------------------------------------------------------
  // setup_VPU_FRAME_from_mpp_frame

  /** The MppFrame fields the mapping reads. */
  datatype MppFrameView = MppFrameView(
    width: Word, height: Word, horStride: Word, verStride: Word, mode: Word,
    errinfo: Word, discard: Word, pts: int, fmt: MppFmt, hasBuffer: bool, eos: bool)

  datatype Layout = NoLayout | Yuv420Semiplanar | Yuv422Layout

  datatype VpuFrame = VpuFrame(
    displayWidth: nat, displayHeight: nat, frameWidth: nat, frameHeight: nat,
    frameType: nat, errorInfo: nat, timeHigh: nat, timeLow: nat,
    layout: Layout, tenBit: bool, outputWidth: nat, memSize: nat)

  const FlagTopFirst: nat := 4
  const FlagBotFirst: nat := 8
  const FlagDeinterlaced: nat := 12

  /** mode & MPP_FRAME_FLAG_FIELD_ORDER_MASK (bits 2 and 3). */
  function FieldOrder(mode: Word): (r: nat)
    ensures r == 0 || r == FlagTopFirst || r == FlagBotFirst || r == FlagDeinterlaced
    ensures r == mode % 16 - mode % 4
  {
    DivModUnique(mode % 16, 4, (mode / 4) % 4, mode % 4);
    ((mode / 4) % 4) * 4
  }

  /** FrameType: 0 for a progressive frame, 1 top field first, 2 bottom
      field first, 4 deinterlaced; a field mode with no field order keeps
      the cleared 0. */
  function FrameType(mode: Word): (r: nat)
    ensures r == 0 <==> mode == 0 || FieldOrder(mode) == 0
    ensures r == 1 <==> mode != 0 && FieldOrder(mode) == FlagTopFirst
    ensures r == 2 <==> mode != 0 && FieldOrder(mode) == FlagBotFirst
    ensures r == 4 <==> mode != 0 && FieldOrder(mode) == FlagDeinterlaced
  {
    if mode == 0 then 0
    else
      var order := FieldOrder(mode);
      if order == FlagTopFirst then 1
      else if order == FlagBotFirst then 2
      else if order == FlagDeinterlaced then 4
      else 0
  }

  /** Bitwise OR of two naturals, bit by bit from the least significant. */
  function BitOr(a: nat, b: nat): (r: nat)
    ensures r == 0 <==> a == 0 && b == 0
    ensures a <= r && b <= r && r <= a + b
    ensures r % 2 == (if a % 2 == 1 || b % 2 == 1 then 1 else 0)
    decreases a + b
  {
    if a == 0 && b == 0 then 0
    else
      var q := BitOr(a / 2, b / 2);
      var bit := if a % 2 == 1 || b % 2 == 1 then 1 else 0;
      OrStep(a, b, q, bit);
      2 * q + bit
  }

  /** The bounds of BitOr carry over from the halves to the whole. */
  lemma OrStep(a: nat, b: nat, q: nat, bit: nat)
    requires !(a == 0 && b == 0)
    requires a / 2 <= q && b / 2 <= q && q <= a / 2 + b / 2
    requires bit == (if a % 2 == 1 || b % 2 == 1 then 1 else 0)
    ensures 2 * q + bit != 0
    ensures a <= 2 * q + bit && b <= 2 * q + bit && 2 * q + bit <= a + b
    ensures (2 * q + bit) % 2 == bit
  {
  }

  /** The OR of two n-bit values is an n-bit value. */
  lemma {:induction false} BitOrBound(a: nat, b: nat, n: nat)
    requires a < Pow2(n) && b < Pow2(n)
    ensures BitOr(a, b) < Pow2(n)
    decreases n
  {
    if a == 0 && b == 0 {
    } else {
      assert n > 0;
      BitOrBound(a / 2, b / 2, n - 1);
    }
  }

  const U64: int := 0x1_0000_0000_0000_0000

  /** ShowTime: the pts as an unsigned 64-bit value, split into its upper
      and lower 32 bits. */
  function ShowTime(pts: int): (r: (nat, nat))
    ensures r.0 < U32 && r.1 < U32
  {
    var u := pts % U64;
    (u / U32, u % U32)
  }

  /** The two halves recombine to the pts, with 2^64 added to a negative
      one. */
  lemma ShowTimeRoundTrip(pts: int)
    requires -U64 / 2 <= pts < U64 / 2
    ensures ShowTime(pts).0 * U32 + ShowTime(pts).1 == (if pts < 0 then pts + U64 else pts)
  {
    var u := pts % U64;
    if pts < 0 {
      DivModUnique(pts, U64, -1, pts + U64);
    } else {
      DivModUnique(pts, U64, 0, pts);
    }
  }

  /** ColorType and OutputWidth per output format; other formats keep the
      cleared values. */
  function OutputFormat(f: MppFmt): (r: (Layout, bool, nat))
    ensures r.1 <==> IsTenBit(f)
    ensures r.0 == Yuv422Layout <==> Is422(f)
    ensures r.0 == NoLayout <==> (f != Yuv420sp && !IsTenBit(f) && !Is422(f))
  {
    match f
    case Yuv420sp => (Yuv420Semiplanar, false, 0x20)
    case Yuv420sp10Bit => (Yuv420Semiplanar, true, 0x22)
    case Yuv422sp => (Yuv422Layout, false, 0x10)
    case Yuv422sp10Bit => (Yuv422Layout, true, 0x23)
    case _ => (NoLayout, false, 0)
  }

  function SetupVpuFrame(m: MppFrameView): (v: VpuFrame)
    ensures v.displayWidth == m.width && v.displayHeight == m.height
    ensures v.frameWidth == m.horStride && v.frameHeight == m.verStride
    ensures v.frameType == FrameType(m.mode)
    ensures v.errorInfo == 0 <==> m.errinfo == 0 && m.discard == 0
    ensures v.errorInfo < U32
    ensures v.timeHigh * U32 + v.timeLow == m.pts % U64
    ensures !m.hasBuffer ==> v.memSize == 0
    ensures m.hasBuffer && m.horStride * m.verStride * 3 < U32 ==>
              2 * v.memSize <= m.horStride * m.verStride * 3 < 2 * v.memSize + 2
  {
    Pow2Values();
    BitOrBound(m.errinfo, m.discard, 32);
    var t := ShowTime(m.pts);
    DivModUnique(m.pts % U64, U32, t.0, t.1);
    var of := OutputFormat(m.fmt);
    VpuFrame(m.width, m.height, m.horStride, m.verStride, FrameType(m.mode),
             BitOr(m.errinfo, m.discard), t.0, t.1, of.0, of.1, of.2,
             if m.hasBuffer then Yuv420Bytes(m.horStride, m.verStride) else 0)
  }

  // ---------------------------------------------------------------------
  // decode_getoutframe

  /** The adapter state the call reads and writes: whether init succeeded,
      whether an MPI context exists, the EOS latch set_eos, the reported
      mEosSet and the frame counter. */
  datatype DecState = DecState(initOk: bool, mpiPresent: bool, setEos: bool, eosReported: bool, frameCount: nat)

  /** What mpi->decode_get_frame returned. */
  datatype Fetch = Fetch(ret: int, frame: Option<MppFrameView>)

  datatype OutRet = CodecInitError | EosReached | Code(c: int)

  /** aDecOut: frame is None exactly when its size is 0. */
  datatype DecOut = DecOut(ret: OutRet, frame: Option<VpuFrame>, timeUs: int)

  function GetOutFrame(s: DecState, f: Fetch): (r: (DecState, DecOut))
    ensures !s.initOk ==> r.0 == s && r.1.ret == CodecInitError && r.1.frame.None?
    ensures s.initOk && s.mpiPresent && s.setEos ==>
              r.0 == s.(eosReported := true) && r.1.ret == EosReached && r.1.frame.None?
    ensures s.setEos ==> r.0.setEos
    ensures r.0.frameCount == s.frameCount + (if r.0.frameCount == s.frameCount then 0 else 1)
    ensures r.0.frameCount == s.frameCount + 1 <==>
              s.initOk && s.mpiPresent && !s.setEos && f.ret == 0 && f.frame.Some?
    ensures !s.setEos && r.0.setEos <==>
              s.initOk && s.mpiPresent && !s.setEos && f.ret == 0 && f.frame.Some? && f.frame.value.eos
    ensures r.1.frame.Some? <==>
              s.initOk && s.mpiPresent && !s.setEos && f.ret == 0 && f.frame.Some?
              && !(f.frame.value.eos && !f.frame.value.hasBuffer)
    ensures r.1.frame.Some? ==> r.1.frame.value == SetupVpuFrame(f.frame.value) && r.1.timeUs == f.frame.value.pts
  {
    if !s.initOk then (s, DecOut(CodecInitError, None, 0))
    else if !s.mpiPresent then (s, DecOut(Code(0), None, 0))
    else if s.setEos then (s.(eosReported := true), DecOut(EosReached, None, 0))
    else if f.ret != 0 || f.frame.None? then (s, DecOut(Code(f.ret), None, 0))
    else
      var m := f.frame.value;
      var v := SetupVpuFrame(m);
      var s' := s.(frameCount := s.frameCount + 1, setEos := m.eos);
      (s', DecOut(Code(0), if m.eos && !m.hasBuffer then None else Some(v), m.pts))
  }

  /** Once latched, the call no longer depends on the decoder: whatever it
      would have returned, the result is the same end-of-stream report. */
  lemma EosLatchIgnoresDecoder(s: DecState, f1: Fetch, f2: Fetch)
    requires s.initOk && s.mpiPresent && s.setEos
    ensures GetOutFrame(s, f1) == GetOutFrame(s, f2)
  {
  }

  /** After a frame that carries EOS every later call reports the end of
      the stream, however many calls and fetches follow. */
  lemma {:induction false} EosAfterEosFrame(s: DecState, f: Fetch, later: seq<Fetch>)
    requires s.initOk && s.mpiPresent && !s.setEos
    requires f.ret == 0 && f.frame.Some? && f.frame.value.eos
    ensures var s1 := GetOutFrame(s, f).0;
            s1.setEos && forall i :: 0 <= i < |later| ==> GetOutFrame(s1, later[i]).1.ret == EosReached
  {
  }

  // ---------------------------------------------------------------------
  // encoder_getstream

  datatype EncPacket = EncPacket(data: seq<Byte>, eos: bool, pts: int, intra: bool)

  datatype EncOut = EncOut(data: seq<Byte>, timeUs: int, keyFrame: bool)

  /** ret, the new mEosSet, and the delivered stream (None when the size is
      0 or the output is untouched). */
  datatype StreamResult = StreamResult(ret: int, eosSet: bool, out: Option<EncOut>)

  const StartCode: seq<Byte> := [0, 0, 0, 1]

  /** encoder_getstream: the packet's payload without its 4-byte start code.
      The source asserts that a packet holds at least 4 bytes. */
  function GetStream(eosSet: bool, getRet: int, packet: Option<EncPacket>): (r: StreamResult)
    requires packet.Some? ==> |packet.value.data| >= 4
    ensures getRet != 0 ==> r == StreamResult(getRet, eosSet, None)
    ensures getRet == 0 && packet.None? ==> r.out.None? && r.eosSet == eosSet && (r.ret == -1 <==> eosSet)
    ensures getRet == 0 && packet.Some? ==>
              && r.ret == 0 && r.eosSet == packet.value.eos && r.out.Some?
              && |r.out.value.data| == |packet.value.data| - 4
              && (forall i :: 0 <= i < |r.out.value.data| ==> r.out.value.data[i] == packet.value.data[i + 4])
              && r.out.value.keyFrame == packet.value.intra && r.out.value.timeUs == packet.value.pts
  {
    if getRet != 0 then StreamResult(getRet, eosSet, None)
    else if packet.None? then StreamResult(if eosSet then -1 else 0, eosSet, None)
    else
      var p := packet.value;
      StreamResult(0, p.eos, Some(EncOut(p.data[4..], p.pts, p.intra)))
  }

  /** A packet framed with the Annex B start code comes out as its payload. */
  lemma GetStreamStripsStartCode(eosSet: bool, payload: seq<Byte>, eos: bool, pts: int, intra: bool)
    ensures var r := GetStream(eosSet, 0, Some(EncPacket(StartCode + payload, eos, pts, intra)));
            r.out == Some(EncOut(payload, pts, intra))
  {
    var r := GetStream(eosSet, 0, Some(EncPacket(StartCode + payload, eos, pts, intra)));
    assert r.out.value.data == payload;
  }

  // ---------------------------------------------------------------------
  // control

  datatype VpuCmd =
    | EncSetCfg | EncGetCfg | EncSetFormat | SetVpumemContext | UsePresentTimeOrder
    | SetDefaultWidthHeigh | SetInfoChange | UseFastMode | DecGetStreamCount
    | GetVpumemUsedCount | DecGetFormat | SetOutputBlock | DecGetEosStatus | OtherCmd

  datatype MpiCmd =
    | MpiDecSetExtBufGroup | MpiDecSetInternalPtsEnable | MpiDecSetFrameInfo
    | MpiDecSetInfoChangeReady | MpiDecSetParserFastMode | MpiDecGetStreamCount
    | MpiDecGetVpumemUsedCount | MpiSetOutputBlock | MpiEncSetCfg | MpiEncGetCfg

  /** The MPI command a legacy command is forwarded as; None is MPI_CMD_BUTT. */
  function MpiCmdOf(cmd: VpuCmd): (r: Option<MpiCmd>)
    ensures r.None? <==> cmd == EncSetFormat || cmd == DecGetFormat || cmd == DecGetEosStatus || cmd == OtherCmd
  {
    match cmd
    case EncSetCfg => Some(MpiEncSetCfg)
    case EncGetCfg => Some(MpiEncGetCfg)
    case SetVpumemContext => Some(MpiDecSetExtBufGroup)
    case UsePresentTimeOrder => Some(MpiDecSetInternalPtsEnable)
    case SetDefaultWidthHeigh => Some(MpiDecSetFrameInfo)
    case SetInfoChange => Some(MpiDecSetInfoChangeReady)
    case UseFastMode => Some(MpiDecSetParserFastMode)
    case DecGetStreamCount => Some(MpiDecGetStreamCount)
    case GetVpumemUsedCount => Some(MpiDecGetVpumemUsedCount)
    case SetOutputBlock => Some(MpiSetOutputBlock)
    case _ => None
  }

  /** No two legacy commands are forwarded as the same MPI command. */
  lemma MpiCmdInjective(a: VpuCmd, b: VpuCmd)
    requires MpiCmdOf(a).Some? && MpiCmdOf(a) == MpiCmdOf(b)
    ensures a == b
  {
  }

  /** control's return value; controlRet is what mpi->control returned for
      a forwarded command.  Without an MPI context and before init it is 0;
      setting the input format is answered locally with 0; a command with
      no MPI mapping returns -1. */
  function Control(cmd: VpuCmd, mpiPresent: bool, initOk: bool, controlRet: int): (r: int)
    ensures !mpiPresent && !initOk ==> r == 0
    ensures (mpiPresent || initOk) && MpiCmdOf(cmd).Some? ==> r == controlRet
    ensures (mpiPresent || initOk) && cmd == EncSetFormat ==> r == 0
    ensures (mpiPresent || initOk) && MpiCmdOf(cmd).None? && cmd != EncSetFormat ==> r == -1
  {
    if !mpiPresent && !initOk then 0
    else if cmd == EncSetFormat then 0
    else if MpiCmdOf(cmd).Some? then controlRet
    else -1
  }
}
